=== FILE: README.md ===
# vr.common load-balancer layer and helpers, in Dafny

This project models the pool-membership layer of `vr.common`. A pool is a
named set of `host:port` nodes, and three balancers keep pools up to date:

- the SSH config-file balancer (`SshBasedBalancer`);
- the Stingray SOAP balancer, together with the plugin that repairs its
  array marshalling;
- `ChainedBalancer`, which fans every call out to a list of balancers
  built from configuration.

The project also models the pure string logic these balancers and their
callers rely on:

- retrying a call;
- the naming scheme of supervisor procs, hosts and swarms;
- validating a proc's settings;
- guessing a repository's VCS;
- the folder name of a clone;
- how a `Repo` normalises its folder, URL and revision.

## How the model is built

- **Node sets.** A node set is a strictly ascending, duplicate-free
  `seq<string>` (`NodeSets`). `Elems` gives the set it stands for. Python
  leaves the order of `list(set(...))` unspecified; the model always picks
  ascending order, so two node lists are equal exactly when they hold the
  same nodes (`NodeSets.SortedUnique`).
- **The world.** The world is a value (`Remote.World`):
  - each balancer host's config files, as node lists per pool;
  - each Stingray control plane, keyed by its SOAP URL.

  A host or URL that is absent from the world cannot be reached.
- **Operations.** Every balancer operation is a function from a world to a
  `Step`, which holds three things:
  - the new world;
  - the trace of mutating calls, reloads, warnings and sleeps, in order;
  - the result, or the exception raised.
- **Stingray server.** Its behaviour is an assumption of the model, not
  part of the source. `Remote.Serve` adds, removes and disables nodes, and
  answers "Unknown pool" for a pool it does not know. Its `faults` map lets
  any call of a given kind fail with any fault instead. The "Unknown pool"
  test on a fault's message is modelled by the `UnknownPool` fault variant.
- **Loading classes.** `import_class` is modelled as a lookup in a
  registry, a map from module to class to balancer kind. Configuration is
  a tree of `BalancerConfig.Value`s.
- **Side effects.** Logging is left out. `warnings.warn` and `time.sleep`
  become the trace events `Warn` and `Sleep`.
- **The file system, subprocesses and the HTTP probe of a URL** become
  parameters (`Repos.Surroundings`).

Two behaviours of the code worth noting, both modelled as written:

- The SSH balancer's `delete_nodes` never calls `delete_pool_if_empty`
  (vr/common/balancer/base.py:133-136).
- `get_nodes` warns once for each host whose set differs from the union
  read so far. It does not warn once per call (base.py:116-122).

The warning text in the trace is the one the code produces
(`SshBalancer.DivergenceMessageAsWritten`), with its arguments out of
the template's order; the text the template evidently intends is
`SshBalancer.DivergenceMessage`, under "## Findings".

Only Stingray's `delete_nodes` cleans up empty pools. Because it returns
early when no requested node is in the pool, a pool that already exists
and is already empty is not deleted by it (stingray.py:99-101).

## Model

| member | source | states |
|---|---|---|
| NodeSets.Canon | vr/common/balancer/chained.py:56 | `sorted(set(nodes))`: the result is sorted with no duplicates and holds exactly the input's nodes |
| NodeSets.SortedUnique | vr/common/balancer/chained.py:56 | two sorted duplicate-free lists with the same nodes are the same list, so the canonical form is unique |
| NodeSets.CanonEqual | vr/common/balancer/chained.py:56 | two node lists have the same canonical form exactly when they hold the same nodes |
| NodeSets.Union | vr/common/balancer/base.py:128 | `set(a).union(b)`: sorted, holding the nodes of either list |
| NodeSets.Difference | vr/common/balancer/base.py:105 | `current.difference(nodes)`: sorted, holding the nodes of the first list missing from the second |
| NodeSets.Intersection | vr/common/balancer/stingray.py:98 | `existing.intersection(nodes)`: sorted, holding the nodes common to both lists |
| Remote.ReadHost | vr/common/balancer/base.py:113 | reading a host's pool fails with a transport fault exactly when the host is unreachable, and otherwise returns its file's node list |
| Remote.WriteHost | vr/common/balancer/base.py:130 | writing a host's pool fails exactly when the host is unreachable; otherwise it replaces only that host's entry for that pool |
| Remote.Soap | vr/common/balancer/stingray.py:81 | a SOAP call to an unreachable URL raises a transport fault; a failed call changes nothing; no call touches the SSH hosts; `getNodes` never changes the world |
| SshBalancer.DivergenceMessage | vr/common/balancer/base.py:117-121 | the warning names the host, then its nodes, then the pool, then the other hosts' nodes, as the template reads |
| SshBalancer.DivergenceMessageAsWritten | vr/common/balancer/base.py:117-121 | the warning as the code formats it puts the pool name where the host's nodes belong |
| SshBalancer.DivergenceMessageMisplacesPool | vr/common/balancer/base.py:117-121 | unless the pool name starts with `[`, the code's warning text differs from the template's intended text |
| SshBalancer.Scan | vr/common/balancer/base.py:111-122 | the read loop never changes the world, and yields no set exactly when there are no hosts |
| SshBalancer.ScanIsUnion | vr/common/balancer/base.py:111-122 | with every host reachable, the loop yields the union of all hosts' sets and warns once per divergent host, with the warning text exactly as the code formats it, and only warnings in the trace |
| SshBalancer.ScanFails | vr/common/balancer/base.py:112-113 | the loop fails exactly when some host is unreachable, and then with a transport fault |
| SshBalancer.NoDivergenceIffAgree | vr/common/balancer/base.py:116-121 | no host is counted as divergent exactly when every host holds the same set as the first |
| SshBalancer.GetNodes | vr/common/balancer/base.py:108-125 | `get_nodes` never changes the world |
| SshBalancer.GetNodesFails | vr/common/balancer/base.py:112-113 | `get_nodes` succeeds exactly when all hosts are reachable |
| SshBalancer.GetNodesIsUnion | vr/common/balancer/base.py:108-125 | a node is reported exactly when some host's file holds it; with no hosts the answer is `[]` |
| SshBalancer.GetNodesWarnings | vr/common/balancer/base.py:116-121 | one warning per divergent host, and no warning at all exactly when all hosts agree |
| SshBalancer.GetNodesWhenAgreeing | vr/common/balancer/base.py:114-125 | when all hosts agree, the answer is the first host's set, with no warning |
| SshBalancer.WriteAll | vr/common/balancer/base.py:129-131 | writing succeeds exactly when all hosts are reachable; it writes then reloads each host in order; it sets the pool on every listed host and leaves other hosts alone |
| SshBalancer.AddNodes | vr/common/balancer/base.py:127-131 | `add_nodes` reads the current union, then writes the union with the new nodes to every host and reloads each; it succeeds exactly when all hosts are reachable |
| SshBalancer.AddNodesKeepsMembers | vr/common/balancer/base.py:127-131 | after `add_nodes`, every host holds its old nodes and the new ones, and nothing else beyond the union read |
| SshBalancer.GetNodesAfterAdd | vr/common/balancer/base.py:127-131 | after `add_nodes`, all hosts agree, so a read raises no warning and already contains the added nodes |
| SshBalancer.AddNodesIdempotent | vr/common/balancer/base.py:127-131 | a second identical `add_nodes` succeeds, leaves the world unchanged, and only rewrites the same set |
| SshBalancer.DifferenceTwice | vr/common/balancer/base.py:105 | removing the same nodes twice equals removing them once |
| SshBalancer.DeleteFrom | vr/common/balancer/base.py:133-136 | the deletion loop succeeds exactly when all hosts are reachable and leaves hosts outside the list alone |
| SshBalancer.DeleteFromEffect | vr/common/balancer/base.py:103-106 | each host's file becomes its own set minus the nodes, with a write and a reload per host |
| SshBalancer.DeleteNodes | vr/common/balancer/base.py:133-136 | `delete_nodes` succeeds exactly when all hosts are reachable and leaves hosts outside the configuration alone |
| SshBalancer.DeleteNodesEffect | vr/common/balancer/base.py:133-136 | each host loses exactly the requested nodes from its own set, and the trace is write-then-reload pairs only |
| SshBalancer.DeleteAbsentNodes | vr/common/balancer/base.py:103-106 | deleting nodes no host holds still rewrites every host but leaves every file's content unchanged |
| SshBalancer.DeletePool | vr/common/balancer/base.py:36-37 | the base `delete_pool` does nothing and succeeds |
| StingrayBalancer.CallNodeFunc | vr/common/balancer/stingray.py:72-81 | `_call_node_func` issues exactly one call, for the prefixed pool name; an unreachable URL raises a transport fault, and a remote fault is raised as is; other control planes are untouched |
| StingrayBalancer.GetNodes | vr/common/balancer/stingray.py:140-151 | `get_nodes` changes nothing; it returns the pool's members, `[]` for an unknown pool, and raises any other fault |
| StingrayBalancer.AddPool | vr/common/balancer/stingray.py:120-122 | `add_pool` issues one `addPool` call for the prefixed name |
| StingrayBalancer.AddNodes | vr/common/balancer/stingray.py:83-94 | `addNodes` first; only on an "Unknown pool" fault, one `addPool` with the same nodes, whose outcome is the result; any other fault propagates |
| StingrayBalancer.AddNodesMembers | vr/common/balancer/stingray.py:83-94 | after a successful `add_nodes`, the pool exists and holds its old members plus the new nodes |
| StingrayBalancer.AddNodesIdempotent | vr/common/balancer/stingray.py:84-85 | repeating `add_nodes` succeeds without creating duplicates: the world stays the same and only one call is issued |
| StingrayBalancer.DeletePool | vr/common/balancer/stingray.py:124-132 | one `deletePool` call for the prefixed name; an "Unknown pool" fault, or a pool the plane does not hold, is swallowed and changes nothing; any other fault is re-raised as is; on success the pool is gone |
| StingrayBalancer.DeletePoolIfEmpty | vr/common/balancer/stingray.py:134-138 | a read error propagates; an empty pool is deleted; a non-empty pool is left alone |
| StingrayBalancer.Drain | vr/common/balancer/stingray.py:103-115 | `disableNodes` first; a fault there ends the drain with only that call, swallowed when it is "Unknown pool" and raised otherwise; then the grace period is slept (a negative one raises `ValueError`, leaving the world as the disable call left it) and `removeNodes` follows, its fault likewise swallowed or raised; every call names the prefixed pool |
| StingrayBalancer.DeleteNodes | vr/common/balancer/stingray.py:96-118 | a read error propagates untouched; a request sharing no node with the pool does nothing; otherwise the shared nodes are drained, a drain error is the result with no cleanup, and a drain that ends normally is followed by `delete_pool_if_empty`, whose calls end the trace and whose outcome is the result; every call names the prefixed pool |
| StingrayBalancer.DeleteNodesDrainOrder | vr/common/balancer/stingray.py:103-108 | the shared nodes are disabled, then the grace period is slept, then they are removed |
| StingrayBalancer.DeleteNodesEffect | vr/common/balancer/stingray.py:96-118 | without faults, the pool loses the requested nodes and is deleted exactly when it becomes empty |
| StingrayBalancer.DeleteNodesDisableFault | vr/common/balancer/stingray.py:103-118 | a `disableNodes` fault other than "Unknown pool" is `delete_nodes`'s result, after that one call, with no sleep, removal or cleanup |
| StingrayBalancer.DeleteNodesRemoveFault | vr/common/balancer/stingray.py:103-118 | a `removeNodes` fault other than "Unknown pool" is `delete_nodes`'s result, after disable, sleep and remove, with no cleanup |
| StingrayBalancer.DeleteNodesUnknownPoolCleans | vr/common/balancer/stingray.py:103-118 | after an "Unknown pool" fault on `disableNodes` is swallowed, `delete_pool_if_empty` still runs: its calls follow the disable call and its outcome is the result |
| StingrayBalancer.IntersectionEmptyIff | vr/common/balancer/stingray.py:97-101 | `if not nodes` after the intersection holds exactly when the request shares no node with the pool |
| SoapMarshal.Find | vr/common/balancer/stingray.py:39 | `getChild` finds the first child with the name, or reports none |
| SoapMarshal.MarkArray | vr/common/balancer/stingray.py:40-41 | marking an array sets its `arrayType` and `xsi:type` and keeps every other attribute and all children |
| SoapMarshal.FixRows | vr/common/balancer/stingray.py:40-44 | fails exactly when the array has no row; otherwise the outer array gets the array attributes with label `xsd:list[1]` and its first row gets them with `xsd:list[n]` for its n items, both keeping every other attribute, their names and their children, and the later rows are untouched |
| SoapMarshal.Marshalled | vr/common/balancer/stingray.py:20-44 | a missing `Body` is an error; the envelope keeps its children's names; a changed envelope declares the `xsd` prefix |
| SoapMarshal.MarshalledInPlace | vr/common/balancer/stingray.py:20-44 | when the plugin raises, the envelope already holds what was done before the failing step: nothing for a missing `Body` or command, the `xsd` prefix for a missing array argument, and the prefix plus the outer array's label for an array with no row; on success it is the repaired envelope |
| SoapMarshal.UnaffectedUnchanged | vr/common/balancer/stingray.py:24-32 | a command outside the seven affected methods passes through unchanged |
| SoapMarshal.AffectedLabelled | vr/common/balancer/stingray.py:32-44 | for an affected command, the right argument (`nodes` or `values`) is marked `xsd:list[1]` and its first row `xsd:list[n]`, both as SOAP arrays |
| SoapMarshal.MarkArrayTwice | vr/common/balancer/stingray.py:40-41 | marking twice equals marking once |
| SoapMarshal.FixRowsIdempotent | vr/common/balancer/stingray.py:40-44 | repairing an already repaired array changes nothing |
| SoapMarshal.MarshalledIdempotent | vr/common/balancer/stingray.py:20-44 | running the plugin on its own output changes nothing |
| SoapMarshal.LabelCountOfListLabel | vr/common/balancer/stingray.py:43 | the count can be read back from an `xsd:list[n]` label |
| SoapMarshal.RepairedOps | vr/common/balancer/stingray.py:24-38 | of the calls the balancer makes, exactly `addNodes`, `addPool`, `disableNodes` and `removeNodes` are repaired, and only `addPool` and `disableNodes` use the `nodes` argument |
| ChainedBalancer.ReadKeepsWorld | vr/common/balancer/chained.py:52-56 | `get_nodes` on any backend, chained or not, never changes the world |
| ChainedBalancer.CollectIsUnion | vr/common/balancer/chained.py:53-55 | the collection loop succeeds exactly when every member's read does, and then holds a node exactly when some member reports it |
| ChainedBalancer.ChainedReadIsUnion | vr/common/balancer/chained.py:52-56 | the chain's `get_nodes` is sorted, duplicate-free, and the union of its members' answers |
| ChainedBalancer.ChainedDeletePoolIfEmpty | vr/common/balancer/base.py:39-43 | the inherited `delete_pool_if_empty` fans `delete_pool` out to every member exactly when no member reports a node |
| ChainedBalancer.CollectFirstError | vr/common/balancer/chained.py:54-55 | the chain's read raises the first member error, in list order |
| ChainedBalancer.ForEachAppend | vr/common/balancer/chained.py:40-44 | fanning out over `a + b` equals fanning out over `a`, then, if that succeeded, over `b` on the world it left |
| ChainedBalancer.ChainOfChains | vr/common/balancer/chained.py:40-50 | a chain of two chains behaves like one chain of all their members |
| ChainedBalancer.ChainOfOne | vr/common/balancer/chained.py:40-44 | a chain of one backend behaves like that backend |
| ChainedBalancer.StopsAtFirstFailure | vr/common/balancer/chained.py:43-44 | when member i fails, the members before it keep their effects, the members after it are never called, and its error is the chain's |
| ChainedBalancer.EmptyChain | vr/common/balancer/chained.py:40-44 | an empty chain does nothing and reads `[]` |
| ChainedBalancer.StingrayOverrideAgrees | vr/common/balancer/stingray.py:134-138 | Stingray's own `delete_pool_if_empty` behaves as the base class's does |
| ChainedBalancer.SshDeletePoolIfEmptyInert | vr/common/balancer/base.py:36-43 | for the SSH balancer, `delete_pool_if_empty` changes nothing, because its `delete_pool` is the base no-op |
| BalancerConfig.ImportClass | vr/common/balancer/chained.py:4-10 | every failure raises `ImportError`; a success means the path is a module and a dot-free class name that the registry holds (Python 2.7's `__import__`) |
| BalancerConfig.ImportClassPython3 | vr/common/balancer/chained.py:7-10 | on Python 3 the level `-1` passed to `__import__` makes every path raise `ImportError` |
| BalancerConfig.ImportClassPython3Rejects | vr/common/balancer/chained.py:7-10 | a class that resolves on Python 2.7 fails to import on Python 3 |
| BalancerConfig.ImportClassQualified | vr/common/balancer/chained.py:6-8 | `module.Class` resolves to the registered class, split at its last dot |
| BalancerConfig.ImportClassNeedsDot | vr/common/balancer/chained.py:6-10 | a path with no dot names no module and raises `ImportError` |
| BalancerConfig.SshFrom | vr/common/balancer/base.py:54-57 | the SSH host list defaults to `['localhost']`; a given `hosts` list of text is the host list, entry for entry |
| BalancerConfig.SshFromHosts | vr/common/balancer/base.py:56-57 | a configuration whose `hosts` is a list of names builds a balancer with exactly those hosts, in order |
| BalancerConfig.StingrayFrom | vr/common/balancer/stingray.py:48-70 | URL, USER and PASSWORD are required, in that order; POOL_PREFIX defaults to `''` and GRACE_PERIOD to 2 |
| BalancerConfig.StingrayDefaults | vr/common/balancer/stingray.py:64-70 | a config with only the required keys gets prefix `''` and grace period 2 |
| BalancerConfig.BuildAllInOrder | vr/common/balancer/chained.py:33-38 | the chain's members are built from `BALANCERS` in order, each from its own entry, and the build succeeds exactly when every entry builds |
| BalancerConfig.BuildAllFirstError | vr/common/balancer/chained.py:35-37 | the first entry that fails to build decides the error |
| BalancerConfig.StingrayEntryBuilds | vr/common/balancer/stingray.py:48-70 | a Stingray entry with URL, USER, PASSWORD and POOL_PREFIX builds that balancer with grace period 2 |
| BalancerConfig.DocumentedChain | vr/common/balancer/chained.py:16-38 | the configuration in the class docstring builds a chain of the two Stingray balancers, in order |
| BalancerConfig.ChainedFromNonList | vr/common/balancer/chained.py:33-38 | a `BALANCERS` value that is not a list builds a chain exactly when it is an empty string or an empty mapping, and then the chain is empty |
| Models.Retry | vr/common/models.py:61-77 | at most n calls, and the first success is returned; the i-th failure is followed by a sleep of 2**i; the n-th failure is re-raised; n <= 0 raises `RuntimeError` without any call |
| Models.HostShortname | vr/common/models.py:204-205 | the short host name has no dot |
| Models.HostShortnameIsPrefix | vr/common/models.py:204-205 | the short host name is the text before the first dot, or the whole name |
| Models.ParseName | vr/common/models.py:284-306 | both directions: six `-`-separated fields whose last parses as an integer give exactly those fields and that port; any other name gives the fallback |
| Models.ParseNameOfFields | vr/common/models.py:287-297 | joining six dash-free fields whose last is an integer and parsing the result gives those six fields back, with the port as `int()` reads it |
| Models.ParseNameSignedPort | vr/common/models.py:287-297 | `a-b-c-d-e-+7` parses with port 7, because `int()` accepts a leading sign |
| Models.ParseSupervisorName | vr/common/models.py:285-297 | fields without `-` and a non-negative port survive formatting and parsing |
| Models.ParseNameNeedsSixFields | vr/common/models.py:298-306 | a name without exactly five dashes gives the fallback: name, `UNKNOWN` three times, name, port 0 |
| Models.ParseExampleName | vr/common/tests/__init__.py:43 | the fixture name `node_example-v2-local-f96054b7-web-5003` parses into its six fields |
| Models.ShortnameOfSupervisorName | vr/common/models.py:308-315 | a well-formed name's short name is `app-version-proc` |
| Models.ShortnameOfOtherName | vr/common/models.py:308-315 | a malformed name's short name is `name-UNKNOWN-name` |
| Models.AsNodeSplits | vr/common/models.py:323-327 | `host:port` splits at its last colon back into the host and the port |
| Models.JsName | vr/common/models.py:270 | `jsname` has no dot and is longer by two characters per dot |
| Models.JsNameWithoutDots | vr/common/models.py:270 | a name without dots is its own `jsname` |
| Models.JsNameConflates | vr/common/models.py:270 | `a.b` and `adotb` get the same `jsname` |
| Models.ProcId | vr/common/models.py:271 | the proc id is the host name, a dash, and the proc name |
| Models.ProcIdPartition | vr/common/models.py:271 | for a dash-free host name, partitioning the id at its first `-` gives back the host name and the proc name |
| Models.MakeProcData | vr/common/models.py:452-462 | every attribute is read with a default of None; `proc_name` falls back to `proc`; the result is an error exactly when neither a proc name nor a `cmd` results |
| Models.ProcDataReloads | vr/common/models.py:390-398 | a valid `ProcData`'s attributes, read back in as a dict, give the same `ProcData` |
| Models.SwarmByName | vr/common/models.py:727-728 | a successful `by_name` yields three dash-free fields whose `name` is the input |
| Models.SwarmNameRoundTrip | vr/common/models.py:720-728 | a swarm is found again by its name exactly when no field contains `-` |
| Models.SwarmNameWithDashFails | vr/common/models.py:727-728 | a `-` inside any field makes `by_name` fail to unpack |
| Repos.DropTrailingSlash | vr/common/repo.py:61-62 | exactly one trailing `/` is removed, when there is one |
| Repos.SplitScheme | vr/common/repo.py:23 | the scheme is the valid scheme text before the first colon; otherwise the URL has no scheme |
| Repos.SplitNetloc | vr/common/repo.py:23 | after `//`, the network location runs up to the first `/`, `?` or `#` |
| Repos.PathOfUrl | vr/common/repo.py:23 | `scheme://host/path` splits into its lower-cased scheme, the host and the path |
| Repos.HostnameOfPlainHost | vr/common/repo.py:29 | a plain lower-case host is its own hostname |
| Repos.GuessUrlVcs | vr/common/repo.py:18-39 | a git or svn scheme wins; failing that, a `.git` path or the github.com host means git; every guess other than a git or svn scheme is git; only http and https URLs go on to the server probe |
| Repos.GuessUrlVcsSchemeFirst | vr/common/repo.py:25-26 | a git or svn scheme decides, whatever follows it |
| Repos.GuessUrlVcsGitPath | vr/common/repo.py:27-28 | a path ending in `.git` means git, unless the scheme is svn |
| Repos.GuessUrlVcsSchemeExample | vr/common/tests/test_repos.py:37-39 | `git://github.com/heroku/heroku-buildpack-python` is git |
| Repos.GuessUrlVcsSuffixExample | vr/common/tests/test_repos.py:42-44 | `https://github.com/heroku/heroku-buildpack-python.git` is git |
| Repos.FirstPresent | vr/common/repo.py:50 | finds the first candidate present, with no earlier candidate present, or reports none |
| Repos.GuessFolderVcs | vr/common/repo.py:42-54 | `git` exactly when `.git` is listed, `hg` when `.hg` is but `.git` is not, `svn` likewise after both; None when none is listed or listing fails |
| Repos.GuessFromUrl | vr/common/repo.py:34-39 | the probe decides `hg` only for URLs the static rules leave to it |
| Repos.GuessVcsAsWritten | vr/common/repo.py:66-69 | an explicit VCS type wins; otherwise a VCS folder in the working copy decides before the URL, and a URL that can be guessed decides next; the guess as written never yields an empty type |
| Repos.GuessVcsAsWrittenMissesValueError | vr/common/repo.py:66-69 | with no URL and no VCS folder, the code fails in `guess_url_vcs(None)` (on Python 3 at repo.py:27's `.endswith('.git')`) and never reaches its own "not guessable" error |
| Repos.GuessVcs | vr/common/repo.py:66-69 | an explicit type wins, then a VCS folder, then a guess from a given URL; every failure is the "not guessable" error, which happens exactly when no source yields a type |
| Repos.GuessVcsAgrees | vr/common/repo.py:66-69 | the two guesses differ only where the code fails on a missing URL |
| Repos.GetUrl | vr/common/repo.py:90-101 | only hg and git have a remote-URL command (`KeyError` otherwise); it runs inside the folder, so a missing folder raises; the reported URL is the command's output with every newline removed |
| Repos.GetUrlOfOutput | vr/common/tests/test_repos.py:64-72 | a clone whose command prints a URL and a newline reports exactly that URL |
| Repos.CutUrl | vr/common/repo.py:76-82 | the URL is cut at its first `#`: what precedes it, less one trailing `/`, is the URL and holds no `#`; what follows is the fragment, empty when there is no `#`; a URL that did not end in `/` before the `#` comes back unchanged |
| Repos.NewRepo | vr/common/repo.py:59-82 | it succeeds exactly when the VCS is known, the URL is given or the folder exists, and a URL is given or `get_url` can read one; one trailing `/` comes off the folder; the VCS type is the code's own guess; the URL, given or read by `get_url`, is cut at its first `#` into URL and fragment, then loses one trailing `/` and nothing else; the errors come in the source's order: the failure in `guess_url_vcs(None)` when there is no URL and no VCS folder, "not guessable", a missing URL for a missing folder, then no command to read the URL, or an empty URL for a missing folder that `chdir` cannot enter |
| Repos.NewRepoPlainFolder | vr/common/repo.py:66-69 | `Repo('plain-folder')` with no VCS sub-folder fails in `guess_url_vcs(None)`, not with the "not guessable" `ValueError` |
| Repos.UpdateRev | vr/common/repo.py:111-143 | the revision is `rev`, else the URL fragment, else `tip` for hg and `master` for git; other VCS types have no update |
| Repos.UpdateFollowsUrlFragment | vr/common/repo.py:111-119 | a repo made from `url#rev` updates to `rev` when no revision is asked for |
| Repos.VersionHg | vr/common/repo.py:154-156 | the version is the output minus its trailing run of `+` and newline characters |
| Repos.VersionHgOfIdentify | vr/common/repo.py:156 | a changeset id followed by `+` and a newline, or by a newline alone, reads back as the id |
| Repos.VersionGit | vr/common/repo.py:158-161 | the version is the output minus its trailing whitespace |
| Repos.VersionGitOfRevParse | vr/common/repo.py:161 | a commit id followed by a newline reads back as the id |
| Repos.DropGitSuffix | vr/common/repo.py:183 | a trailing `.git` is removed, also just before one final newline |
| Repos.BaseName | vr/common/repo.py:169-183 | the clone's folder name holds no `/` |
| Repos.ClonedNameOf | vr/common/repo.py:180-183 | the last segment of `prefix/name` or `prefix/name.git` is `name` |
| Repos.ClonedNameTrailingSlash | vr/common/repo.py:180-183 | one trailing `/` does not change the folder name a clone gets |
| Repos.ClonedNameOfSlashed | vr/common/repo.py:180-183 | the last segment of `prefix/name/` or `prefix/name.git/` is `name` |
| Repos.BaseNameDropsTrailingSlash | vr/common/repo.py:169-183 | a URL whose stripped, fragment-free part ends in one `/` gets the folder name of that part without the `/` |
| Repos.BaseNameOfCloneUrl | vr/common/repo.py:169-183 | surrounding whitespace, a fragment and a `.git` suffix never reach the folder name |
| Repos.BaseNameExample | vr/common/tests/test_repos.py:47-49 | the `.git` URL of the test gives `heroku-buildpack-python` |
| Repos.BaseNameFragmentExample | vr/common/tests/test_repos.py:52-54 | the same URL with `#123456` gives the same name |
| Repos.BaseNameTrailingSpaceExample | vr/common/tests/test_repos.py:123-126 | the ssh URL with a trailing space gives `velociraptor` |
| Strings.JoinSplit | vr/common/models.py:288 | joining the pieces of a split gives back the string |
| Strings.SplitJoin | vr/common/models.py:288 | splitting a join of separator-free pieces gives back the pieces |
| Strings.SplitCount | vr/common/models.py:288 | a split yields one more piece than there are separators |
| Strings.Partition | vr/common/repo.py:77 | `partition` splits at the first separator, or returns the whole string when there is none |
| Strings.ParseIntOfIntToString | vr/common/models.py:296 | `int(str(n))` is n |
| Strings.ParseIntPlus | vr/common/models.py:296 | a `+` followed by digits reads as the digits' value, as Python's `int()` does |

## Left out

- The SSH, SFTP and sudo plumbing (`_get_connection`, `_read_file`, `_write_file`, `_sudo`) is left out. The subclass hooks `_get_host_nodes` and `_set_host_nodes` are not part of this model. Hosts are abstract per-pool node lists, with write and reload events.
- The Django `settings` defaults for the SSH user, password and temporary directory are left out. They do not affect pool contents.
- The suds client, WSDL loading and SOAP transport are left out. `Remote.Serve` is a stand-in server, and faults are injected per operation.
- Logging (`logger.info`, `log.error`, `log.warning`) is left out. Python's warning filters are also left out: every `warnings.warn` is a trace event.
- The reflection in `import_class` (`__import__`, `getattr`) is replaced by a registry of known balancer classes.
- BalancerConfig.ImportClass: the `ImportError` carries the import path, where the source wraps the caught exception (`ImportError(e)`), whose message the model does not reproduce. Resolution follows Python 2.7, which accepts the level `-1`; on Python 3 every call fails, as `BalancerConfig.ImportClassPython3` states and "## Findings" records, so no chain can be built there.
- BalancerConfig.SshFrom: a `hosts` value that is not a list of text raises `TypeError` when the balancer is built. The source takes any value (base.py:57): a single string would be iterated character by character, one "host" per character (base.py:112, 129), and other values fail only at that loop. The model keeps host names as text, so that misuse is not modelled.
- BalancerConfig.StingrayFrom: a URL that is not text (stingray.py:49 keeps any value), a POOL_PREFIX that is not text, or a GRACE_PERIOD that is not a number, is rejected when the balancer is built. The source fails only later: at the SOAP client, at the string concatenation or at the sleep. Fractional grace periods are not modelled.
- StingrayBalancer.Drain: a negative grace period raises `ValueError` at the sleep, with the sleep's own message. Any other reason for `time.sleep` to fail is left out.
- Models.Retry: the log messages and the real sleep are left out. Each sleep is returned as its length.
- Strings.ParseInt: Python's `int()` also accepts `_` between digits and non-ASCII digits. The model accepts only optional whitespace, a sign and ASCII digits, so names with such ports fall back in the model.
- Repos.UrlSplit: the scheme rule is that of Python 3.9 and later, which takes any valid scheme before the first `:`. Python 2.7 and 3.8 and earlier leave a URL such as `host:80`, whose text after the `:` is all digits, unsplit, so there the guess can differ. `urlsplit` also strips leading control characters and removes tabs and newlines. It also validates bracketed IPv6 hosts and rejects some Unicode network locations. The model does none of this, and its only contract is that path and query hold no delimiters.
- Repos.GuessFromUrl: the HTTP request and the regular-expression test of the `Server` header become a single boolean, `serverIsHg`.
- Repos.NewRepo: whether the folder is a directory, its listing, and the output of the remote-URL command are parameters. The subprocess that produces that output is not modelled, and neither is a command that fails (`raise_for_status`).
- `Repo.clone`, the commands `update` runs, `Repo.run` and `__repr__` are left out. So are the execution of `_update_hg` and `_update_git`: only the revision they choose is modelled.
- Everything else in `vr/common/models.py` is left out:
  - the supervisor XML-RPC `Host` methods, Redis caching and `Proc.start`/`stop`;
  - `Proc.__init__`'s timestamp conversion;
  - the REST client classes (`Velociraptor`, `QueryResult`, the resource classes);
  - `Filter`, whose regular expressions the model does not cover;
  - `as_dict`/`as_yaml` serialisation.
- SshBalancer.DivergenceMessageAsWritten (and SshBalancer.DivergenceMessage): `repr` of a node is modelled as the node in single quotes. That holds for `host:port` nodes, which contain no character `repr` escapes.

## Findings

| source | as written | input that shows it | evidently intended | confidence | as-written member | corrected member |
|---|---|---|---|---|---|---|
| vr/common/balancer/base.py:117-121 | `tmpl % (host, pool, list(host_nodes), list(nodes))` fills "has nodes %s" with the pool and "for pool %s" with the host's node list | host `h1`, pool `web`, host nodes `['a:1']`, others `['b:2']` gives "Host h1 has nodes web for pool ['a:1'], ..." | arguments in the template's order: host, host's nodes, pool, others' nodes | high, not executed | SshBalancer.DivergenceMessageAsWritten | SshBalancer.DivergenceMessage |
| vr/common/repo.py:66-69 | with no `vcs_type`, no VCS folder and `url=None`, `guess_url_vcs(None)` runs. `urlsplit(None)` then fails (TypeError in Python 3 at `.endswith('.git')`, AttributeError in Python 2) | `Repo('plain-folder')`, where the folder exists and has no `.git`, `.hg` or `.svn` | `ValueError('vcs type not guessable ...')` | medium, not executed | Repos.GuessVcsAsWritten | Repos.GuessVcs |
| vr/common/balancer/chained.py:7 | `__import__(module, globals(), locals(), [klass, ], -1)`: the level `-1` (implicit relative import) exists only in Python 2; Python 3 raises `ValueError`, which line 10 wraps in `ImportError` | `import_class('vr.common.balancer.stingray.StingrayBalancer')` on Python 3, which setup.py:82 lists | an absolute import (level 0), which resolves the class | medium, not executed | BalancerConfig.ImportClassPython3 | BalancerConfig.ImportClass |

=== FILE: chained.dfy ===
/**
 * `ChainedBalancer` and the `Balancer` interface it fans out over.
 *
 * A backend is one of the two concrete balancers or a chain of backends.
 * The chain runs each mutating operation on its members in order, on the
 * world the previous member left; the first exception stops the loop and
 * propagates, and the members already run keep their effects.  Its
 * `get_nodes` is the sorted union of every member's answer.
 */
module ChainedBalancer {
  import opened Wrappers
  import opened NodeSets
  import opened Remote
  import SshBalancer
  import StingrayBalancer

  datatype Backend =
    | Ssh(ssh: SshBalancer.SshConfig)
    | Stingray(stingray: StingrayBalancer.StingrayConfig)
    | Chained(members: seq<Backend>)

  /** The mutating operations of the interface, with their arguments. */
  datatype Mutation =
    | AddNodes(nodes: seq<Node>)
    | DeleteNodes(nodes: seq<Node>)
    | DeletePool

  /** A concrete backend's own method for `m`. */
  function Leaf(b: Backend, w: World, m: Mutation, pool: string): Step<()>
    requires !b.Chained?
  {
    match b
    case Ssh(c) =>
      (match m
       case AddNodes(nodes) => SshBalancer.AddNodes(c, w, pool, nodes)
       case DeleteNodes(nodes) => SshBalancer.DeleteNodes(c, w, pool, nodes)
       case DeletePool => SshBalancer.DeletePool(c, w, pool))
    case Stingray(c) =>
      (match m
       case AddNodes(nodes) => StingrayBalancer.AddNodes(c, w, pool, nodes)
       case DeleteNodes(nodes) => StingrayBalancer.DeleteNodes(c, w, pool, nodes)
       case DeletePool => StingrayBalancer.DeletePool(c, w, pool))
  }

  /** Running `m` on `b`: the backend's own method, or the fan-out for a chain. */
  function Apply(b: Backend, w: World, m: Mutation, pool: string): Step<()>
    decreases b
  {
    if b.Chained? then ForEach(b.members, w, m, pool) else Leaf(b, w, m, pool)
  }

  /** `_foreach_balancer`: each member in order; the first failure ends the loop. */
  function ForEach(members: seq<Backend>, w: World, m: Mutation, pool: string): Step<()>
    decreases members
  {
    if |members| == 0 then Step(w, [], Ok(()))
    else
      var first := Apply(members[0], w, m, pool);
      if first.result.Err? then first
      else Then(first, ForEach(members[1..], first.world, m, pool))
  }

  /** Running `next` after `first` succeeded: `next`'s world and result, both traces. */
  function Then<T>(first: Step<()>, next: Step<T>): Step<T>
  {
    Step(next.world, first.trace + next.trace, next.result)
  }

  /** Running `first`, then `next` on its world if it succeeded. */
  function Seq2(first: Step<()>, next: World -> Step<()>): Step<()>
  {
    if first.result.Err? then first else Then(first, next(first.world))
  }

  /** A concrete backend's own `get_nodes`. */
  function LeafRead(b: Backend, w: World, pool: string): (r: Step<seq<Node>>)
    requires !b.Chained?
    ensures r.world == w
  {
    match b
    case Ssh(c) => SshBalancer.GetNodes(c, w, pool)
    case Stingray(c) => StingrayBalancer.GetNodes(c, w, pool)
  }

  /** `get_nodes(pool)` of any backend. */
  function Read(b: Backend, w: World, pool: string): Step<seq<Node>>
    decreases b
  {
    if !b.Chained? then LeafRead(b, w, pool)
    else
      var g := Collect(b.members, w, pool);
      if g.result.Err? then g else Step(g.world, g.trace, Ok(Canon(g.result.value)))
  }

  /** The loop of the chain's `get_nodes`: every member's answer, concatenated in order. */
  function Collect(members: seq<Backend>, w: World, pool: string): Step<seq<Node>>
    decreases members
  {
    if |members| == 0 then Step(w, [], Ok([]))
    else
      var first := Read(members[0], w, pool);
      if first.result.Err? then first
      else
        var rest := Collect(members[1..], first.world, pool);
        if rest.result.Err? then Step(rest.world, first.trace + rest.trace, rest.result)
        else Step(rest.world, first.trace + rest.trace, Ok(first.result.value + rest.result.value))
  }

  /** `delete_pool_if_empty(pool)` as the base class defines it. */
  function DeletePoolIfEmpty(b: Backend, w: World, pool: string): Step<()>
  {
    var g := Read(b, w, pool);
    if g.result.Err? then Step(g.world, g.trace, Err(g.result.error))
    else if |g.result.value| == 0 then Then(Step(g.world, g.trace, Ok(())), Apply(b, g.world, DeletePool, pool))
    else Step(g.world, g.trace, Ok(()))
  }

  // ---------------------------------------------------------------------------
  // Properties
  // ---------------------------------------------------------------------------

  /** `get_nodes` never changes the world, on any backend. */
  lemma {:induction false} ReadKeepsWorld(b: Backend, w: World, pool: string)
    ensures Read(b, w, pool).world == w
    decreases b
  {
    if b.Chained? {
      CollectKeepsWorld(b.members, w, pool);
    }
  }

  lemma {:induction false} CollectKeepsWorld(members: seq<Backend>, w: World, pool: string)
    ensures Collect(members, w, pool).world == w
    decreases members
  {
    if |members| > 0 {
      ReadKeepsWorld(members[0], w, pool);
      CollectKeepsWorld(members[1..], w, pool);
    }
  }

  /** True when every member answers `get_nodes` without raising. */
  predicate AllRead(members: seq<Backend>, w: World, pool: string)
  {
    forall i :: 0 <= i < |members| ==> Read(members[i], w, pool).result.Ok?
  }

  /**
   * The chain's `get_nodes` succeeds exactly when every member's does, and
   * then holds a node exactly when some member reports it.
   */
  lemma {:induction false} CollectIsUnion(members: seq<Backend>, w: World, pool: string)
    ensures Collect(members, w, pool).result.Ok? <==> AllRead(members, w, pool)
    ensures Collect(members, w, pool).result.Ok? ==>
      forall x :: x in Elems(Collect(members, w, pool).result.value) <==>
        exists i :: 0 <= i < |members| && x in Elems(Read(members[i], w, pool).result.value)
    decreases members
  {
    if |members| > 0 {
      var first := Read(members[0], w, pool);
      ReadKeepsWorld(members[0], w, pool);
      CollectIsUnion(members[1..], w, pool);
      var rest := Collect(members[1..], w, pool);
      assert AllRead(members, w, pool) <==> first.result.Ok? && AllRead(members[1..], w, pool) by {
        if first.result.Ok? && AllRead(members[1..], w, pool) {
          forall i | 0 <= i < |members| ensures Read(members[i], w, pool).result.Ok? {
            if i > 0 { assert members[i] == members[1..][i - 1]; }
          }
        }
      }
      if first.result.Ok? && rest.result.Ok? {
        ElemsConcat(first.result.value, rest.result.value);
        forall x ensures x in Elems(Collect(members, w, pool).result.value) <==>
          exists i :: 0 <= i < |members| && x in Elems(Read(members[i], w, pool).result.value)
        {
          if x in Elems(rest.result.value) {
            var j :| 0 <= j < |members[1..]| && x in Elems(Read(members[1..][j], w, pool).result.value);
            assert members[1..][j] == members[j + 1];
          }
          if exists i :: 0 <= i < |members| && x in Elems(Read(members[i], w, pool).result.value) {
            var i :| 0 <= i < |members| && x in Elems(Read(members[i], w, pool).result.value);
            if i > 0 { assert members[i] == members[1..][i - 1]; }
          }
        }
      }
    }
  }

  /** The chain's answer is sorted, duplicate-free, and the union of its members' answers. */
  lemma ChainedReadIsUnion(members: seq<Backend>, w: World, pool: string)
    ensures Read(Chained(members), w, pool).result.Ok? <==> AllRead(members, w, pool)
    ensures var r := Read(Chained(members), w, pool);
      r.result.Ok? ==>
        && Sorted(r.result.value)
        && forall x :: x in Elems(r.result.value) <==>
             exists i :: 0 <= i < |members| && x in Elems(Read(members[i], w, pool).result.value)
  {
    CollectIsUnion(members, w, pool);
  }
  /**
   * The chain inherits `delete_pool_if_empty`: when no member reports a
   * node, `delete_pool` runs on every member in order; when one does, only
   * the reads happen.
   */
  lemma ChainedDeletePoolIfEmpty(members: seq<Backend>, w: World, pool: string)
    requires AllRead(members, w, pool)
    ensures var g := Read(Chained(members), w, pool);
      var r := DeletePoolIfEmpty(Chained(members), w, pool);
      && ((forall i :: 0 <= i < |members| ==> Read(members[i], w, pool).result.value == []) ==>
            r == Then(Step(w, g.trace, Ok(())), ForEach(members, w, DeletePool, pool)))
      && ((exists i :: 0 <= i < |members| && Read(members[i], w, pool).result.value != []) ==>
            r == Step(w, g.trace, Ok(())))
  {
    var g := Read(Chained(members), w, pool);
    ChainedReadIsUnion(members, w, pool);
    ReadKeepsWorld(Chained(members), w, pool);
    EmptyIffNoElems(g.result.value);
    if exists i :: 0 <= i < |members| && Read(members[i], w, pool).result.value != [] {
      var i :| 0 <= i < |members| && Read(members[i], w, pool).result.value != [];
      var v := Read(members[i], w, pool).result.value;
      ElemsNonEmpty(v);
      assert v[0] in Elems(g.result.value);
    } else {
      forall i | 0 <= i < |members| ensures Elems(Read(members[i], w, pool).result.value) == {} {
        EmptyIffNoElems(Read(members[i], w, pool).result.value);
      }
      assert forall x :: x !in Elems(g.result.value);
    }
  }


  /** The chain's answer fails with the error of its first failing member. */
  lemma {:induction false} CollectFirstError(members: seq<Backend>, w: World, pool: string, i: nat)
    requires i < |members| && AllRead(members[..i], w, pool)
    requires Read(members[i], w, pool).result.Err?
    ensures Collect(members, w, pool).result == Err(Read(members[i], w, pool).result.error)
    decreases i
  {
    ReadKeepsWorld(members[0], w, pool);
    if i > 0 {
      assert members[..i][0] == members[0];
      assert members[1..][..i - 1] == members[..i][1..];
      var tail := members[1..][..i - 1];
      forall k | 0 <= k < |tail| ensures Read(tail[k], w, pool).result.Ok? {
        assert tail[k] == members[..i][k + 1];
      }
      assert members[1..][i - 1] == members[i];
      CollectFirstError(members[1..], w, pool, i - 1);
    }
  }

  /** Running the chain `a + b` is running `a`, then (if it succeeded) `b`. */
  lemma {:induction false} ForEachAppend(a: seq<Backend>, b: seq<Backend>, w: World, m: Mutation, pool: string)
    ensures ForEach(a + b, w, m, pool) == Seq2(ForEach(a, w, m, pool), (w': World) => ForEach(b, w', m, pool))
    decreases a
  {
    if |a| == 0 {
      assert a + b == b;
    } else {
      assert (a + b)[0] == a[0];
      assert (a + b)[1..] == a[1..] + b;
      var first := Apply(a[0], w, m, pool);
      if first.result.Ok? {
        var next := (w': World) => ForEach(b, w', m, pool);
        var tail := ForEach(a[1..], first.world, m, pool);
        ForEachAppend(a[1..], b, first.world, m, pool);
        assert ForEach(a + b, w, m, pool) == Then(first, Seq2(tail, next));
        assert ForEach(a, w, m, pool) == Then(first, tail);
        ThenSeq2(first, tail, next);
      }
    }
  }

  /** Prefixing a successful step commutes with running a continuation. */
  lemma ThenSeq2(first: Step<()>, x: Step<()>, next: World -> Step<()>)
    ensures Then(first, Seq2(x, next)) == Seq2(Then(first, x), next)
  {
  }

  /** A chain of chains does what the flat chain of all their members does. */
  lemma ChainOfChains(a: seq<Backend>, b: seq<Backend>, w: World, m: Mutation, pool: string)
    ensures Apply(Chained([Chained(a), Chained(b)]), w, m, pool) == Apply(Chained(a + b), w, m, pool)
  {
    ForEachAppend(a, b, w, m, pool);
    var first := ForEach(a, w, m, pool);
    var pair := [Chained(a), Chained(b)];
    assert Apply(Chained(pair), w, m, pool) == ForEach(pair, w, m, pool);
    assert pair[0] == Chained(a);
    assert Apply(pair[0], w, m, pool) == first;
    if first.result.Ok? {
      ChainOfOne(Chained(b), first.world, m, pool);
      assert pair[1..] == [Chained(b)];
      assert ForEach(pair, w, m, pool) == Then(first, ForEach(b, first.world, m, pool));
    }
  }

  /** A chain of one member is that member. */
  lemma ChainOfOne(b: Backend, w: World, m: Mutation, pool: string)
    ensures Apply(Chained([b]), w, m, pool) == Apply(b, w, m, pool)
  {
    var first := Apply(b, w, m, pool);
    assert Apply(Chained([b]), w, m, pool) == ForEach([b], w, m, pool);
    assert [b][0] == b;
    if first.result.Ok? {
      assert [b][1..] == [];
      assert ForEach([b][1..], first.world, m, pool) == Step(first.world, [], Ok(()));
      assert first.trace + [] == first.trace;
      UnitOk(first.result);
    }
  }

  /**
   * When member `i` fails, the members after it are never run: the chain
   * ends with member `i`'s world and exception, having done what members
   * `0..i` did.
   */
  lemma StopsAtFirstFailure(members: seq<Backend>, w: World, m: Mutation, pool: string, i: nat)
    requires i < |members|
    requires ForEach(members[..i], w, m, pool).result.Ok?
    requires Apply(members[i], ForEach(members[..i], w, m, pool).world, m, pool).result.Err?
    ensures var before := ForEach(members[..i], w, m, pool);
      var failed := Apply(members[i], before.world, m, pool);
      ForEach(members, w, m, pool) == Step(failed.world, before.trace + failed.trace, failed.result)
  {
    var before := ForEach(members[..i], w, m, pool);
    var failed := Apply(members[i], before.world, m, pool);
    assert members == members[..i] + members[i..];
    ForEachAppend(members[..i], members[i..], w, m, pool);
    assert members[i..][0] == members[i];
  }

  /** A chain with no members does nothing and reports no nodes. */
  lemma EmptyChain(w: World, m: Mutation, pool: string)
    ensures Apply(Chained([]), w, m, pool) == Step(w, [], Ok(()))
    ensures Read(Chained([]), w, pool) == Step(w, [], Ok([]))
  {
  }

  /** The Stingray backend's own `delete_pool_if_empty` agrees with the base class's. */
  lemma StingrayOverrideAgrees(c: StingrayBalancer.StingrayConfig, w: World, pool: string)
    ensures StingrayBalancer.DeletePoolIfEmpty(c, w, pool) == DeletePoolIfEmpty(Stingray(c), w, pool)
  {
  }

  /** On a config-file balancer `delete_pool_if_empty` changes nothing: its `delete_pool` is a no-op. */
  lemma SshDeletePoolIfEmptyInert(c: SshBalancer.SshConfig, w: World, pool: string)
    ensures DeletePoolIfEmpty(Ssh(c), w, pool).world == w
    ensures DeletePoolIfEmpty(Ssh(c), w, pool).trace == SshBalancer.GetNodes(c, w, pool).trace
  {
    var g := SshBalancer.GetNodes(c, w, pool);
    assert g.trace + [] == g.trace;
  }
}

=== FILE: config.dfy ===
/**
 * Building balancers from configuration: `import_class` and the
 * constructors of the three balancers.
 *
 * A configuration value is what the YAML settings hold: text, integers,
 * lists and tables.  Which classes an import path can name is a
 * `Registry` (module path to attribute name to the kind of class found
 * there), standing in for Python's module import.
 */
module BalancerConfig {
  import opened Wrappers
  import opened Strings
  import opened Remote
  import SshBalancer
  import StingrayBalancer
  import opened ChainedBalancer

  datatype Value =
    | Text(text: string)
    | Number(n: int)
    | Items(items: seq<Value>)
    | Table(fields: map<string, Value>)

  /** What an import path can resolve to. */
  datatype Kind = SshKind | StingrayKind | ChainedKind | NotABalancer

  type Registry = map<string, map<string, Kind>>

  datatype ConfigError =
    | ImportError(path: Value) // `import_class` wraps every failure in `ImportError`
    | KeyError(key: string)    // a required key is missing
    | TypeError(key: string)   // a value of the wrong shape
    | NotInstantiable(classPath: string)

  const BalancerPackage: string := "vr.common.balancer"
  const ChainedModule: string := BalancerPackage + ".chained"
  const StingrayModule: string := BalancerPackage + ".stingray"
  const BaseModule: string := BalancerPackage + ".base"

  /** The balancer classes of this package. */
  const DefaultRegistry: Registry := map[
    ChainedModule := map["ChainedBalancer" := ChainedKind],
    StingrayModule := map["StingrayBalancer" := StingrayKind, "FixArrayPlugin" := NotABalancer],
    BaseModule := map["Balancer" := NotABalancer, "SshBasedBalancer" := SshKind]]

  /** The dotted path of attribute `klass` of module `modname`. */
  function Qualified(modname: string, klass: string): string
  {
    modname + "." + klass
  }

  /**
   * `import_class(path)`: split at the last dot into module and attribute.
   * A non-text path, an empty module part, an unknown module or a missing
   * attribute all raise `ImportError`.
   */
  function ImportClass(reg: Registry, path: Value): (r: Result<Kind, ConfigError>)
    ensures r.Err? ==> r.error == ImportError(path)
    ensures r.Ok? ==> path.Text?
    ensures r.Ok? ==>
      exists modname, klass :: path.text == Qualified(modname, klass) && '.' !in klass &&
        modname in reg && klass in reg[modname] && r.value == reg[modname][klass]
  {
    if !path.Text? then Err(ImportError(path))
    else
      var (modname, dot, klass) := RPartition(path.text, '.');
      if modname == "" || modname !in reg || klass !in reg[modname] then Err(ImportError(path))
      else Ok(reg[modname][klass])
  }

  /**
   * `import_class(path)` as it runs on Python 3: `__import__` rejects the
   * level `-1` with `ValueError` before it looks anything up, and that is
   * wrapped in `ImportError` like every other failure.
   */
  function ImportClassPython3(reg: Registry, path: Value): (r: Result<Kind, ConfigError>)
    ensures r.Err? && r.error == ImportError(path)
  {
    Err(ImportError(path))
  }

  /** A class that resolves on Python 2.7 fails to import on Python 3. */
  lemma ImportClassPython3Rejects(reg: Registry, modname: string, klass: string)
    requires modname != "" && '.' !in klass
    requires modname in reg && klass in reg[modname]
    ensures ImportClass(reg, Text(Qualified(modname, klass))) == Ok(reg[modname][klass])
    ensures ImportClassPython3(reg, Text(Qualified(modname, klass))).Err?
  {
    ImportClassQualified(reg, modname, klass);
  }

  /** Resolving the path of a registered class finds that class. */
  lemma ImportClassQualified(reg: Registry, modname: string, klass: string)
    requires modname != "" && '.' !in klass
    requires modname in reg && klass in reg[modname]
    ensures ImportClass(reg, Text(Qualified(modname, klass))) == Ok(reg[modname][klass])
  {
    var path := Qualified(modname, klass);
    LastDotAt(modname, klass);
    assert path[..|modname|] == modname;
    assert path[|modname| + 1..] == klass;
  }

  /** The last dot of `module.klass` is the one before `klass` when `klass` has none. */
  lemma LastDotAt(modname: string, klass: string)
    requires '.' !in klass
    ensures '.' in Qualified(modname, klass)
    ensures LastIndexOf(Qualified(modname, klass), '.') == |modname|
  {
    var s := Qualified(modname, klass);
    assert s[|modname|] == '.';
    var i := LastIndexOf(s, '.');
    forall j | i < j < |s| ensures s[j] != '.' {
      assert s[i + 1..][j - i - 1] == s[j];
    }
    forall j | |modname| < j < |s| ensures s[j] != '.' {
      assert s[j] == klass[j - |modname| - 1];
    }
  }

  /** A path with no dot names no module, so it cannot be imported. */
  lemma ImportClassNeedsDot(reg: Registry, path: string)
    requires '.' !in path
    ensures ImportClass(reg, Text(path)) == Err(ImportError(Text(path)))
  {
  }

  /** `config[key]`. */
  function Get(fields: map<string, Value>, key: string): (r: Result<Value, ConfigError>)
    ensures r.Ok? <==> key in fields
    ensures r.Ok? ==> r.value == fields[key]
    ensures r.Err? ==> r.error == KeyError(key)
  {
    if key in fields then Ok(fields[key]) else Err(KeyError(key))
  }

  /** The text of a value that must be text. */
  function AsText(v: Value, key: string): (r: Result<string, ConfigError>)
    ensures r.Ok? <==> v.Text?
    ensures r.Ok? ==> r.value == v.text
  {
    if v.Text? then Ok(v.text) else Err(TypeError(key))
  }

  /** The host names of a value that must be a list of text. */
  function AsHosts(v: Value, key: string): (r: Result<seq<Host>, ConfigError>)
    ensures r.Ok? <==> v.Items? && forall i :: 0 <= i < |v.items| ==> v.items[i].Text?
    ensures r.Ok? ==> |r.value| == |v.items| && forall i :: 0 <= i < |v.items| ==> r.value[i] == v.items[i].text
  {
    if v.Items? && forall i :: 0 <= i < |v.items| ==> v.items[i].Text? then
      Ok(seq(|v.items|, i requires 0 <= i < |v.items| => v.items[i].text))
    else Err(TypeError(key))
  }

  /** `SshBasedBalancer.__init__`: `hosts`, defaulting to `['localhost']`. */
  function SshFrom(fields: map<string, Value>): (r: Result<SshBalancer.SshConfig, ConfigError>)
    ensures "hosts" !in fields ==> r == Ok(SshBalancer.SshConfig(["localhost"]))
    ensures "hosts" in fields ==> (r.Ok? <==> AsHosts(fields["hosts"], "hosts").Ok?)
    ensures "hosts" in fields && r.Ok? ==> r.value.hosts == AsHosts(fields["hosts"], "hosts").value
  {
    if "hosts" !in fields then Ok(SshBalancer.SshConfig(["localhost"]))
    else
      var hosts :- AsHosts(fields["hosts"], "hosts");
      Ok(SshBalancer.SshConfig(hosts))
  }

  /**
   * `StingrayBalancer.__init__`: `URL`, `USER` and `PASSWORD` are required
   * (looked up in that order); `POOL_PREFIX` defaults to `''` and
   * `GRACE_PERIOD` to 2.
   */
  function StingrayFrom(fields: map<string, Value>): (r: Result<StingrayBalancer.StingrayConfig, ConfigError>)
    ensures "URL" !in fields ==> r == Err(KeyError("URL"))
    ensures "URL" in fields && fields["URL"].Text? && "USER" !in fields ==> r == Err(KeyError("USER"))
    ensures "URL" in fields && fields["URL"].Text? && "USER" in fields && "PASSWORD" !in fields ==> r == Err(KeyError("PASSWORD"))
    ensures r.Ok? ==> "URL" in fields && "USER" in fields && "PASSWORD" in fields
    ensures r.Ok? ==> fields["URL"].Text? && r.value.url == fields["URL"].text
    ensures r.Ok? && "POOL_PREFIX" in fields ==> fields["POOL_PREFIX"].Text? && r.value.prefix == fields["POOL_PREFIX"].text
    ensures r.Ok? && "POOL_PREFIX" !in fields ==> r.value.prefix == StingrayBalancer.DefaultPrefix
    ensures r.Ok? && "GRACE_PERIOD" in fields ==> fields["GRACE_PERIOD"].Number? && r.value.grace == fields["GRACE_PERIOD"].n
    ensures r.Ok? && "GRACE_PERIOD" !in fields ==> r.value.grace == StingrayBalancer.DefaultGrace
  {
    var urlValue :- Get(fields, "URL");
    var url :- AsText(urlValue, "URL");
    var _ :- Get(fields, "USER");
    var _ :- Get(fields, "PASSWORD");
    var prefix :- if "POOL_PREFIX" in fields then AsText(fields["POOL_PREFIX"], "POOL_PREFIX") else Ok(StingrayBalancer.DefaultPrefix);
    var grace :-
      if "GRACE_PERIOD" !in fields then Ok(StingrayBalancer.DefaultGrace)
      else if fields["GRACE_PERIOD"].Number? then Ok(fields["GRACE_PERIOD"].n)
      else Err(TypeError("GRACE_PERIOD"));
    Ok(StingrayBalancer.StingrayConfig(url, prefix, grace))
  }

  /** Instantiating a class of kind `k` on configuration `cfg`. */
  function Construct(reg: Registry, k: Kind, path: string, cfg: Value): Result<Backend, ConfigError>
    requires cfg.Table?
    decreases cfg, 1
  {
    match k
    case SshKind =>
      var c :- SshFrom(cfg.fields);
      Ok(Ssh(c))
    case StingrayKind =>
      var c :- StingrayFrom(cfg.fields);
      Ok(Stingray(c))
    case ChainedKind => ChainedFrom(reg, cfg)
    case NotABalancer => Err(NotInstantiable(path))
  }

  /**
   * `ChainedBalancer.__init__`: build each entry of `BALANCERS`, in order.
   * The loop iterates whatever it is given: a string yields one-character
   * strings and a mapping its (text) keys, so either builds an empty chain
   * when empty and otherwise raises `TypeError` at `cfg['BACKEND']` on
   * its first entry; a number is not iterable.
   */
  function ChainedFrom(reg: Registry, cfg: Value): Result<Backend, ConfigError>
    requires cfg.Table?
    decreases cfg, 0
  {
    var list :- Get(cfg.fields, "BALANCERS");
    match list
    case Items(items) =>
      var members :- BuildAll(reg, items);
      Ok(Chained(members))
    case Text(t) => if |t| == 0 then Ok(Chained([])) else Err(TypeError("BACKEND"))
    case Table(f) => if |f| == 0 then Ok(Chained([])) else Err(TypeError("BACKEND"))
    case Number(_) => Err(TypeError("BALANCERS"))
  }

  /** One entry of `BALANCERS`; `cfg['BACKEND']` on anything but a mapping raises `TypeError`. */
  function Build(reg: Registry, cfg: Value): Result<Backend, ConfigError>
    decreases cfg, 3
  {
    if !cfg.Table? then Err(TypeError("BACKEND")) else Instantiate(reg, cfg)
  }

  /** A table entry: `cls = import_class(cfg['BACKEND'])`, then `cls(cfg)`. */
  function Instantiate(reg: Registry, cfg: Value): Result<Backend, ConfigError>
    requires cfg.Table?
    decreases cfg, 2
  {
    var path :- Get(cfg.fields, "BACKEND");
    var k :- ImportClass(reg, path);
    Construct(reg, k, path.text, cfg)
  }

  /** The loop of `ChainedBalancer.__init__`: build each entry in turn; the first failing entry's exception propagates. */
  function BuildAll(reg: Registry, cfgs: seq<Value>): Result<seq<Backend>, ConfigError>
    decreases cfgs, 1
  {
    Gather(Builds(reg, cfgs))
  }

  /** What building each entry gives, entry by entry. */
  function Builds(reg: Registry, cfgs: seq<Value>): (r: seq<Result<Backend, ConfigError>>)
    ensures |r| == |cfgs|
    decreases cfgs, 0
  {
    if |cfgs| == 0 then [] else [Build(reg, cfgs[0])] + Builds(reg, cfgs[1..])
  }

  /** Entry `i` of `Builds` is what building entry `i` gives. */
  lemma {:induction false} BuildsAt(reg: Registry, cfgs: seq<Value>, i: nat)
    requires i < |cfgs|
    ensures Builds(reg, cfgs)[i] == Build(reg, cfgs[i])
    decreases i
  {
    if i > 0 {
      BuildsAt(reg, cfgs[1..], i - 1);
      assert cfgs[1..][i - 1] == cfgs[i];
    }
  }

  /**
   * A loop that appends each result in turn and lets the first exception
   * propagate: the values in order when every result is a value, otherwise
   * the first error.
   */
  function Gather<T, E>(rs: seq<Result<T, E>>): Result<seq<T>, E>
  {
    if |rs| == 0 then Ok([])
    else
      var first :- rs[0];
      var rest :- Gather(rs[1..]);
      Ok([first] + rest)
  }

  /** The results gathered succeed exactly when every one of them does. */
  lemma {:induction false} GatherOk<T, E>(rs: seq<Result<T, E>>)
    ensures Gather(rs).Ok? <==> forall i :: 0 <= i < |rs| ==> rs[i].Ok?
  {
    if |rs| > 0 {
      GatherOk(rs[1..]);
      if rs[0].Ok? && !Gather(rs[1..]).Ok? {
        var j :| 0 <= j < |rs[1..]| && !rs[1..][j].Ok?;
        assert rs[1..][j] == rs[j + 1];
      }
      if forall i :: 0 <= i < |rs| ==> rs[i].Ok? {
        forall j | 0 <= j < |rs[1..]| ensures rs[1..][j].Ok? {
          assert rs[1..][j] == rs[j + 1];
        }
      }
    }
  }

  /** Successfully gathered results keep their number and their order. */
  lemma {:induction false} GatherValues<T, E>(rs: seq<Result<T, E>>)
    requires Gather(rs).Ok?
    ensures |Gather(rs).value| == |rs|
    ensures forall i :: 0 <= i < |rs| ==> rs[i].Ok? && Gather(rs).value[i] == rs[i].value
  {
    if |rs| > 0 {
      GatherValues(rs[1..]);
      var all := Gather(rs).value;
      assert all == [rs[0].value] + Gather(rs[1..]).value;
      forall i | 0 <= i < |rs| ensures rs[i].Ok? && all[i] == rs[i].value {
        if i > 0 {
          assert rs[1..][i - 1] == rs[i];
        }
      }
    }
  }

  /** The error of gathered results is that of the first failing one. */
  lemma {:induction false} GatherFirstError<T, E>(rs: seq<Result<T, E>>, i: nat)
    requires i < |rs| && rs[i].Err?
    requires forall j :: 0 <= j < i ==> rs[j].Ok?
    ensures Gather(rs) == Err(rs[i].error)
    decreases i
  {
    if i > 0 {
      forall j | 0 <= j < i - 1 ensures rs[1..][j].Ok? {
        assert rs[1..][j] == rs[j + 1];
      }
      assert rs[1..][i - 1] == rs[i];
      GatherFirstError(rs[1..], i - 1);
    }
  }

  /** Two successful results gather to their two values. */
  lemma GatherTwo<T, E>(a: Result<T, E>, b: Result<T, E>)
    requires a.Ok? && b.Ok?
    ensures Gather([a, b]) == Ok([a.value, b.value])
  {
    var empty: seq<Result<T, E>> := [];
    assert [b][1..] == empty && Gather(empty) == Ok([]);
    assert [b.value] + [] == [b.value];
    assert Gather([b]) == Ok([b.value]);
    assert [a, b][1..] == [b];
    assert [a.value] + [b.value] == [a.value, b.value];
  }

  /** A chain is built member for member, in configuration order, exactly when every entry builds. */
  lemma BuildAllInOrder(reg: Registry, cfgs: seq<Value>)
    ensures BuildAll(reg, cfgs).Ok? <==> forall i :: 0 <= i < |cfgs| ==> Build(reg, cfgs[i]).Ok?
    ensures BuildAll(reg, cfgs).Ok? ==>
      |BuildAll(reg, cfgs).value| == |cfgs| &&
      forall i :: 0 <= i < |cfgs| ==> BuildAll(reg, cfgs).value[i] == Build(reg, cfgs[i]).value
  {
    var rs := Builds(reg, cfgs);
    forall i | 0 <= i < |cfgs| ensures rs[i] == Build(reg, cfgs[i]) {
      BuildsAt(reg, cfgs, i);
    }
    GatherOk(rs);
    if Gather(rs).Ok? {
      GatherValues(rs);
    }
  }

  /** The exception of a failing chain is that of its first failing entry. */
  lemma BuildAllFirstError(reg: Registry, cfgs: seq<Value>, i: nat)
    requires i < |cfgs| && Build(reg, cfgs[i]).Err?
    requires forall j :: 0 <= j < i ==> Build(reg, cfgs[j]).Ok?
    ensures BuildAll(reg, cfgs) == Err(Build(reg, cfgs[i]).error)
  {
    var rs := Builds(reg, cfgs);
    forall k | 0 <= k < |cfgs| ensures rs[k] == Build(reg, cfgs[k]) {
      BuildsAt(reg, cfgs, k);
    }
    GatherFirstError(rs, i);
  }

  /** A Stingray entry giving only the required keys gets no prefix and a two-second grace period. */
  lemma StingrayDefaults(url: string, user: Value, password: Value)
    ensures StingrayFrom(map["URL" := Text(url), "USER" := user, "PASSWORD" := password])
      == Ok(StingrayBalancer.StingrayConfig(url, "", 2))
  {
  }

  /** Two entries that build give the chain of the two, in order. */
  lemma BuildTwo(reg: Registry, one: Value, two: Value)
    requires Build(reg, one).Ok? && Build(reg, two).Ok?
    ensures BuildAll(reg, [one, two]) == Ok([Build(reg, one).value, Build(reg, two).value])
  {
    var cfgs := [one, two];
    assert [two][1..] == [];
    assert Builds(reg, [two]) == [Build(reg, two)];
    assert cfgs[1..] == [two];
    assert Builds(reg, cfgs) == [Build(reg, one)] + Builds(reg, [two]);
    GatherTwo(Build(reg, one), Build(reg, two));
  }

  /** The package's own balancer classes are where their import paths say. */
  lemma DefaultRegistryResolves()
    ensures ImportClass(DefaultRegistry, Text(Qualified(StingrayModule, "StingrayBalancer"))) == Ok(StingrayKind)
    ensures ImportClass(DefaultRegistry, Text(Qualified(ChainedModule, "ChainedBalancer"))) == Ok(ChainedKind)
  {
    var n := |BalancerPackage| + 1;
    assert StingrayModule[n] == 's' && ChainedModule[n] == 'c' && BaseModule[n] == 'b';
    assert StingrayModule != BaseModule && ChainedModule != BaseModule && ChainedModule != StingrayModule;
    assert '.' !in "StingrayBalancer" && '.' !in "ChainedBalancer";
    ImportClassQualified(DefaultRegistry, StingrayModule, "StingrayBalancer");
    ImportClassQualified(DefaultRegistry, ChainedModule, "ChainedBalancer");
  }

  /** A Stingray entry of a chain, as documented on `ChainedBalancer`. */
  function StingrayEntry(url: string, user: string, password: string, prefix: string): Value
  {
    Table(map["BACKEND" := Text(Qualified(StingrayModule, "StingrayBalancer")), "PASSWORD" := Text(password),
              "POOL_PREFIX" := Text(prefix), "URL" := Text(url), "USER" := Text(user)])
  }

  /** With `URL` and `POOL_PREFIX` given as text, `USER` and `PASSWORD` present and no `GRACE_PERIOD`. */
  lemma StingrayFromGiven(fields: map<string, Value>, url: string, prefix: string)
    requires "URL" in fields && fields["URL"] == Text(url)
    requires "USER" in fields && "PASSWORD" in fields
    requires "POOL_PREFIX" in fields && fields["POOL_PREFIX"] == Text(prefix)
    requires "GRACE_PERIOD" !in fields
    ensures StingrayFrom(fields) == Ok(StingrayBalancer.StingrayConfig(url, prefix, 2))
  {
  }

  /** The keys of a Stingray entry: told apart by their lengths. */
  lemma StingrayEntryFields(url: string, user: string, password: string, prefix: string)
    ensures var f := StingrayEntry(url, user, password, prefix).fields;
      && "BACKEND" in f && f["BACKEND"] == Text(Qualified(StingrayModule, "StingrayBalancer"))
      && "URL" in f && f["URL"] == Text(url)
      && "USER" in f && "PASSWORD" in f
      && "POOL_PREFIX" in f && f["POOL_PREFIX"] == Text(prefix)
      && "GRACE_PERIOD" !in f
  {
    assert |"BACKEND"| == 7 && |"PASSWORD"| == 8 && |"POOL_PREFIX"| == 11 && |"URL"| == 3 && |"USER"| == 4;
    assert |"GRACE_PERIOD"| == 12;
  }

  lemma StingrayEntryBuilds(url: string, user: string, password: string, prefix: string)
    ensures Build(DefaultRegistry, StingrayEntry(url, user, password, prefix))
      == Ok(Stingray(StingrayBalancer.StingrayConfig(url, prefix, 2)))
  {
    var cfg := StingrayEntry(url, user, password, prefix);
    var path := Qualified(StingrayModule, "StingrayBalancer");
    var c := StingrayBalancer.StingrayConfig(url, prefix, 2);
    DefaultRegistryResolves();
    StingrayEntryFields(url, user, password, prefix);
    assert Get(cfg.fields, "BACKEND") == Ok(Text(path));
    StingrayFromGiven(cfg.fields, url, prefix);
    assert Construct(DefaultRegistry, StingrayKind, path, cfg) == Ok(Stingray(c));
    assert Build(DefaultRegistry, cfg) == Construct(DefaultRegistry, StingrayKind, path, cfg);
  }

  /** The chained configuration documented on `ChainedBalancer`: two Stingray planes sharing a prefix. */
  lemma DocumentedChain(url1: string, url2: string)
    ensures var one := StingrayEntry(url1, "user", "secret", "Auto vraptor-");
      var two := StingrayEntry(url2, "other-user", "more-secret", "Auto vraptor-");
      var top := Table(map["BACKEND" := Text(Qualified(ChainedModule, "ChainedBalancer")), "BALANCERS" := Items([one, two])]);
      Build(DefaultRegistry, top) == Ok(Chained([
        Stingray(StingrayBalancer.StingrayConfig(url1, "Auto vraptor-", 2)),
        Stingray(StingrayBalancer.StingrayConfig(url2, "Auto vraptor-", 2))]))
  {
    DefaultRegistryResolves();
    var one := StingrayEntry(url1, "user", "secret", "Auto vraptor-");
    var two := StingrayEntry(url2, "other-user", "more-secret", "Auto vraptor-");
    var path := Qualified(ChainedModule, "ChainedBalancer");
    var top := Table(map["BACKEND" := Text(path), "BALANCERS" := Items([one, two])]);
    var b1 := Stingray(StingrayBalancer.StingrayConfig(url1, "Auto vraptor-", 2));
    var b2 := Stingray(StingrayBalancer.StingrayConfig(url2, "Auto vraptor-", 2));
    StingrayEntryBuilds(url1, "user", "secret", "Auto vraptor-");
    StingrayEntryBuilds(url2, "other-user", "more-secret", "Auto vraptor-");
    BuildTwo(DefaultRegistry, one, two);
    assert top.fields["BACKEND"] == Text(path);
    assert top.fields["BALANCERS"] == Items([one, two]);
    assert ChainedFrom(DefaultRegistry, top) == Ok(Chained([b1, b2]));
    assert Build(DefaultRegistry, top) == Construct(DefaultRegistry, ChainedKind, path, top);
  }

  /** A `hosts` list of strings is the balancer's host list, in order. */
  lemma SshFromHosts(hosts: seq<string>)
    ensures var items := seq(|hosts|, i requires 0 <= i < |hosts| => Text(hosts[i]));
      SshFrom(map["hosts" := Items(items)]) == Ok(SshBalancer.SshConfig(hosts))
  {
    var items := seq(|hosts|, i requires 0 <= i < |hosts| => Text(hosts[i]));
    var fields := map["hosts" := Items(items)];
    assert fields["hosts"] == Items(items);
    var r := AsHosts(Items(items), "hosts");
    assert r.Ok?;
    assert r.value == hosts;
  }

  /**
   * A `BALANCERS` value that is not a list builds a chain only when it is an
   * empty string or an empty mapping, and then the chain is empty.
   */
  lemma ChainedFromNonList(reg: Registry, cfg: Value)
    requires cfg.Table? && "BALANCERS" in cfg.fields && !cfg.fields["BALANCERS"].Items?
    ensures var b := cfg.fields["BALANCERS"];
      ChainedFrom(reg, cfg).Ok? <==> b == Text("") || b == Table(map[])
    ensures ChainedFrom(reg, cfg).Ok? ==> ChainedFrom(reg, cfg) == Ok(Chained([]))
  {
    var b := cfg.fields["BALANCERS"];
    if b.Table? && |b.fields| == 0 {
      assert b.fields == map[];
    }
  }
}

=== FILE: models.dfy ===
/**
 * The pure parts of the supervisor and VR data model: retrying a call,
 * the naming scheme of supervisor procs and swarms, the node a proc
 * serves on, and the validation of a proc's settings.
 *
 * A proc's supervisor name packs six `-`-separated fields,
 * `app-version-config-hash-proc-port`; a swarm's name packs three,
 * `app-config-proc`.
 */
module Models {
  import opened Wrappers
  import opened Strings

  // ---------------------------------------------------------------------------
  // _retry
  // ---------------------------------------------------------------------------

  /** How one call of the retried function ended. */
  datatype Attempt<T> = Returned(value: T) | Raised(error: string)

  datatype RetryError =
    | Reraised(error: string) // the last attempt's exception, re-raised
    | NeverRan                // `RuntimeError('Should never get here!')`

  function Pow2(i: nat): (r: nat)
    ensures r >= 1
  {
    if i == 0 then 1 else 2 * Pow2(i - 1)
  }

  /**
   * `_retry(n, f)`: call `f` up to `n` times, returning the first result;
   * after failed attempt `i` (when another follows) sleep `2 ** i` seconds;
   * re-raise the last failure.  `f(i)` is how the `i`-th call ends.
   * `calls` counts the calls made and `sleeps` lists the waits in order.
   */
  method Retry<T>(n: int, f: nat -> Attempt<T>) returns (r: Result<T, RetryError>, calls: nat, sleeps: seq<nat>)
    ensures n <= 0 ==> r == Err(NeverRan) && calls == 0 && sleeps == []
    ensures n > 0 ==> 1 <= calls <= n && r != Err(NeverRan)
    ensures forall i :: 0 <= i < calls - 1 ==> f(i).Raised?
    ensures r.Ok? ==> f(calls - 1) == Returned(r.value)
    ensures r.Ok? <==> exists i :: 0 <= i < n && f(i).Returned?
    ensures n > 0 && r.Err? ==> calls == n && f(n - 1).Raised? && r == Err(Reraised(f(n - 1).error))
    ensures calls > 0 ==> |sleeps| == calls - 1
    ensures forall i :: 0 <= i < |sleeps| ==> sleeps[i] == Pow2(i)
  {
    calls := 0;
    sleeps := [];
    var i := 0;
    while i < n
      invariant if n > 0 then i < n else i == 0
      invariant calls == i && |sleeps| == i
      invariant forall j :: 0 <= j < i ==> f(j).Raised?
      invariant forall j :: 0 <= j < i ==> sleeps[j] == Pow2(j)
    {
      calls := calls + 1;
      match f(i)
      case Returned(v) =>
        r := Ok(v);
        return;
      case Raised(e) =>
        if i == n - 1 {
          r := Err(Reraised(e));
          return;
        }
        sleeps := sleeps + [Pow2(i)];
      i := i + 1;
    }
    r := Err(NeverRan);
  }

  // ---------------------------------------------------------------------------
  // Hosts and procs
  // ---------------------------------------------------------------------------

  /** `Host.shortname()`: the first of the name's dot-separated pieces. */
  function HostShortname(name: string): (r: string)
    ensures '.' !in r
  {
    Split(name, '.')[0]
  }

  /** The short name is the text before the first dot, or the whole name when it has none. */
  lemma {:induction false} HostShortnameIsPrefix(name: string)
    ensures HostShortname(name) == Partition(name, '.').0
  {
    if '.' in name {
      var (before, _, after) := Partition(name, '.');
      IndexOfAfterPrefix(before, '.', after);
      assert name[..|before|] == before;
    }
  }

  /** The six fields `parse_name` extracts from a proc name. */
  datatype ProcName = ProcName(
    appName: string, version: string, configName: string,
    hash: string, procName: string, port: int)

  const Unknown: string := "UNKNOWN"

  /** What `parse_name` returns for a name it cannot take apart. */
  function Fallback(name: string): ProcName
  {
    ProcName(name, Unknown, Unknown, Unknown, name, 0)
  }

  /**
   * `Proc.parse_name(name)`: six `-`-separated fields whose last is an
   * integer; any other name (the unpacking or `int` raising `ValueError`)
   * gives the fallback.
   */
  function ParseName(name: string): (r: ProcName)
    ensures var parts := Split(name, '-');
      r != Fallback(name) ==>
        |parts| == 6 && ParseInt(parts[5]).Some? &&
        r == ProcName(parts[0], parts[1], parts[2], parts[3], parts[4], ParseInt(parts[5]).value)
    ensures var parts := Split(name, '-');
      |parts| == 6 && ParseInt(parts[5]).Some? ==>
        r == ProcName(parts[0], parts[1], parts[2], parts[3], parts[4], ParseInt(parts[5]).value)
    ensures var parts := Split(name, '-');
      |parts| != 6 || ParseInt(parts[5]).None? ==> r == Fallback(name)
  {
    var parts := Split(name, '-');
    if |parts| != 6 then Fallback(name)
    else match ParseInt(parts[5])
      case None => Fallback(name)
      case Some(port) => ProcName(parts[0], parts[1], parts[2], parts[3], parts[4], port)
  }

  /** Six dash-free fields whose last one `int()` accepts are read back as they are, the port parsed. */
  lemma ParseNameOfFields(fields: seq<string>)
    requires |fields| == 6 && forall k :: 0 <= k < 6 ==> '-' !in fields[k]
    requires ParseInt(fields[5]).Some?
    ensures ParseName(Join(fields, '-'))
      == ProcName(fields[0], fields[1], fields[2], fields[3], fields[4], ParseInt(fields[5]).value)
  {
    SplitJoin(fields, '-');
  }

  /** A port `int()` accepts but `str()` never writes, such as `+7`, still parses: `a-b-c-d-e-+7` has port 7. */
  lemma ParseNameSignedPort()
    ensures ParseName(Join(["a", "b", "c", "d", "e", "+7"], '-')) == ProcName("a", "b", "c", "d", "e", 7)
  {
    var fields := ["a", "b", "c", "d", "e", "+7"];
    PlusSeven();
    DashFreeFields(fields);
    ParseNameOfFields(fields);
  }

  /** `int('+7') == 7`. */
  lemma PlusSeven()
    ensures ParseInt("+7") == Some(7)
  {
    assert "+7" == "+" + "7";
    assert DigitsValue("7") == 7;
    ParseIntPlus("7");
  }

  /** The fields of the signed-port example carry no dash. */
  lemma DashFreeFields(fields: seq<string>)
    requires fields == ["a", "b", "c", "d", "e", "+7"]
    ensures forall k :: 0 <= k < 6 ==> '-' !in fields[k]
  {
    assert fields[5] == ['+', '7'];
  }

  /** The supervisor name a proc is registered under. */
  function SupervisorName(p: ProcName): string
  {
    Join([p.appName, p.version, p.configName, p.hash, p.procName, IntToString(p.port)], '-')
  }

  /** Fields free of `-` and a non-negative port survive the trip through the name. */
  lemma ParseSupervisorName(p: ProcName)
    requires '-' !in p.appName && '-' !in p.version && '-' !in p.configName
    requires '-' !in p.hash && '-' !in p.procName && p.port >= 0
    ensures ParseName(SupervisorName(p)) == p
  {
    var parts := [p.appName, p.version, p.configName, p.hash, p.procName, IntToString(p.port)];
    var digits := IntToString(p.port);
    forall k | 0 <= k < |digits| ensures digits[k] != '-' {
      assert IsDigit(digits[k]);
    }
    SplitJoin(parts, '-');
    ParseIntOfIntToString(p.port);
  }

  /** A name without exactly five dashes is never taken apart. */
  lemma ParseNameNeedsSixFields(name: string)
    requires Count(name, '-') != 5
    ensures ParseName(name) == Fallback(name)
  {
    SplitCount(name, '-');
  }

  /** The name from the proc fixtures, `node_example-v2-local-f96054b7-web-5003`. */
  lemma ParseExampleName()
    ensures ParseName(SupervisorName(ProcName("node_example", "v2", "local", "f96054b7", "web", 5003)))
      == ProcName("node_example", "v2", "local", "f96054b7", "web", 5003)
  {
    var p := ProcName("node_example", "v2", "local", "f96054b7", "web", 5003);
    assert forall k :: 0 <= k < |p.appName| ==> p.appName[k] != '-';
    ParseSupervisorName(p);
  }

  /** `Proc.name_to_shortname(name)`: `app_name-version-proc_name` of the parsed name. */
  function NameToShortname(name: string): string
  {
    var p := ParseName(name);
    p.appName + "-" + p.version + "-" + p.procName
  }

  /** The short name of a well-formed supervisor name keeps its app, version and proc fields. */
  lemma ShortnameOfSupervisorName(p: ProcName)
    requires '-' !in p.appName && '-' !in p.version && '-' !in p.configName
    requires '-' !in p.hash && '-' !in p.procName && p.port >= 0
    ensures NameToShortname(SupervisorName(p)) == p.appName + "-" + p.version + "-" + p.procName
  {
    ParseSupervisorName(p);
  }

  /** An unparsable name's short name repeats it around `UNKNOWN`. */
  lemma ShortnameOfOtherName(name: string)
    requires Count(name, '-') != 5
    ensures NameToShortname(name) == name + "-UNKNOWN-" + name
  {
    ParseNameNeedsSixFields(name);
  }

  /** `Proc.as_node()`: `host:port`, the node identity the balancers use. */
  function AsNode(hostName: string, port: int): string
  {
    hostName + ":" + IntToString(port)
  }

  /** Splitting a node at its last colon gives back the host and, read as an integer, the port. */
  lemma AsNodeSplits(hostName: string, port: int)
    ensures var (h, found, p) := RPartition(AsNode(hostName, port), ':');
      found && h == hostName && ParseInt(p) == Some(port)
  {
    var s := AsNode(hostName, port);
    var digits := IntToString(port);
    forall k | 0 <= k < |digits| ensures digits[k] != ':' {
      if port >= 0 { assert IsDigit(digits[k]); }
      else if k > 0 { assert IsDigit(digits[1..][k - 1]); }
    }
    var (h, found, p) := RPartition(s, ':');
    assert s == hostName + [':'] + digits;
    RPartitionAt(hostName, ':', digits);
    ParseIntOfIntToString(port);
  }

  /** `Proc.jsname`: every dot spelled `dot`, for use in HTML ids. */
  function JsName(name: string): (r: string)
    ensures '.' !in r
    ensures |r| == |name| + 2 * Count(name, '.')
  {
    Replace(name, '.', "dot")
  }

  /** A name without dots is its own `jsname`. */
  lemma JsNameWithoutDots(name: string)
    requires '.' !in name
    ensures JsName(name) == name
  {
    ReplaceAbsent(name, '.', "dot");
  }

  /** `jsname` cannot tell a dot from the letters `dot`. */
  lemma JsNameConflates(a: string, b: string)
    ensures JsName(a + "." + b) == JsName(a + "dot" + b)
  {
    ReplaceConcat(a + ".", b, '.', "dot");
    ReplaceConcat(a, ".", '.', "dot");
    ReplaceConcat(a + "dot", b, '.', "dot");
    ReplaceConcat(a, "dot", '.', "dot");
    assert Replace(".", '.', "dot") == "dot";
    ReplaceAbsent("dot", '.', "dot");
  }

  /** `Proc.id`: `host-name`. */
  function ProcId(hostName: string, name: string): (r: string)
    ensures |r| == |hostName| + 1 + |name|
    ensures r[..|hostName|] == hostName && r[|hostName|] == '-' && r[|hostName| + 1..] == name
  {
    hostName + "-" + name
  }

  /** A dash-free host name can be read back from the proc id, and the proc name after it. */
  lemma ProcIdPartition(hostName: string, name: string)
    requires '-' !in hostName
    ensures Partition(ProcId(hostName, name), '-') == (hostName, true, name)
  {
    assert ProcId(hostName, name) == hostName + ['-'] + name;
    PartitionAt(hostName, '-', name);
  }

  // ---------------------------------------------------------------------------
  // ProcData
  // ---------------------------------------------------------------------------

  /** The attributes `ProcData` reads; all of them are optional. */
  const ProcAttributes: set<string> := {
    "app_name", "app_repo_url", "app_repo_type", "buildpack_url", "buildpack_version",
    "config_name", "env", "host", "port", "version", "release_hash", "settings", "user",
    "proc_name", "app_folder", "build_url", "group", "cmd", "image_url", "image_name",
    "image_md5", "build_md5", "volumes", "mem_limit", "memsw_limit"}

  /** `dct.get(key)`: a missing key and an explicit null both read as `None`. */
  function Lookup<V>(dct: map<string, Option<V>>, key: string): Option<V>
  {
    if key in dct then dct[key] else None
  }

  /**
   * `ProcData(dct)`: every attribute read with `dct.get`; a missing
   * `proc_name` is taken from the older `proc` key; it is an error when
   * neither a proc name nor a `cmd` results.
   */
  function MakeProcData<V>(dct: map<string, Option<V>>): (r: Result<map<string, Option<V>>, string>)
    ensures r.Ok? ==> r.value.Keys == ProcAttributes
    ensures r.Ok? ==> forall a :: a in ProcAttributes && a != "proc_name" ==> r.value[a] == Lookup(dct, a)
    ensures r.Ok? && Lookup(dct, "proc_name").Some? ==> r.value["proc_name"] == Lookup(dct, "proc_name")
    ensures r.Ok? && Lookup(dct, "proc_name").None? ==> r.value["proc_name"] == Lookup(dct, "proc")
    ensures r.Err? <==> Lookup(dct, "proc_name").None? && Lookup(dct, "proc").None? && Lookup(dct, "cmd").None?
  {
    var attrs := map a | a in ProcAttributes :: Lookup(dct, a);
    var attrs := if attrs["proc_name"].None? && "proc" in dct then attrs["proc_name" := dct["proc"]] else attrs;
    if attrs["proc_name"].None? && attrs["cmd"].None? then Err("Must provide either proc_name or cmd")
    else Ok(attrs)
  }

  /** The attributes of a valid `ProcData`, read back as a dict, give the same `ProcData`. */
  lemma ProcDataReloads<V>(dct: map<string, Option<V>>)
    requires MakeProcData(dct).Ok?
    ensures MakeProcData(MakeProcData(dct).value) == MakeProcData(dct)
  {
    var attrs := MakeProcData(dct).value;
    var again := MakeProcData(attrs);
    assert again.Ok?;
    assert again.value == attrs;
  }

  // ---------------------------------------------------------------------------
  // Swarms
  // ---------------------------------------------------------------------------

  /** `Swarm.name`: `app-config-proc`. */
  function SwarmName(app: string, config: string, proc: string): string
  {
    Join([app, config, proc], '-')
  }

  /** `Swarm.by_name`: the three fields of a swarm name; any other count fails to unpack. */
  function SwarmByName(name: string): (r: Result<(string, string, string), string>)
    ensures r.Ok? ==> '-' !in r.value.0 && '-' !in r.value.1 && '-' !in r.value.2
    ensures r.Ok? ==> SwarmName(r.value.0, r.value.1, r.value.2) == name
  {
    var parts := Split(name, '-');
    JoinSplit(name, '-');
    if |parts| != 3 then Err("ValueError")
    else
      assert parts == [parts[0], parts[1], parts[2]];
      Ok((parts[0], parts[1], parts[2]))
  }

  /** A swarm is found again by its name exactly when no field contains `-`. */
  lemma SwarmNameRoundTrip(app: string, config: string, proc: string)
    ensures SwarmByName(SwarmName(app, config, proc)) == Ok((app, config, proc))
      <==> '-' !in app && '-' !in config && '-' !in proc
  {
    if '-' !in app && '-' !in config && '-' !in proc {
      SplitJoin([app, config, proc], '-');
    }
  }

  /** With a `-` inside a field, the name splits into more than three fields and `by_name` raises. */
  lemma SwarmNameWithDashFails(app: string, config: string, proc: string)
    requires '-' in app || '-' in config || '-' in proc
    ensures SwarmByName(SwarmName(app, config, proc)).Err?
  {
    var name := SwarmName(app, config, proc);
    assert name == app + "-" + config + "-" + proc by {
      assert [app, config, proc][1..] == [config, proc];
      assert [config, proc][1..] == [proc];
      assert Join([proc], '-') == proc;
      assert Join([config, proc], '-') == config + ['-'] + proc;
      assert name == app + ['-'] + (config + ['-'] + proc);
    }
    CountConcat(app + "-" + config + "-", proc, '-');
    CountConcat(app + "-" + config, "-", '-');
    CountConcat(app + "-", config, '-');
    CountConcat(app, "-", '-');
    assert Count("-", '-') == 1;
    if '-' in app { CountPresent(app, '-'); }
    if '-' in config { CountPresent(config, '-'); }
    if '-' in proc { CountPresent(proc, '-'); }
    SplitCount(name, '-');
  }
}

=== FILE: nodesets.dfy ===
/**
 * Nodes and sets of nodes.
 *
 * A node is the `"host:port"` string the balancers exchange.  The Python
 * code holds node collections in `set`s and turns them into lists with
 * `list(...)` or `sorted(...)`; the model represents a set of nodes by its
 * canonical list: strictly ascending in Python's string order, hence free
 * of duplicates.  `Canon` turns any list into that form, and two canonical
 * lists are equal exactly when they hold the same nodes, so comparing them
 * is Python's set comparison.
 */
module NodeSets {
  import opened Strings

  type Node = string

  /** The nodes a list holds, regardless of order and repetition. */
  function Elems(s: seq<Node>): set<Node>
  {
    set x | x in s
  }

  lemma ElemsConcat(a: seq<Node>, b: seq<Node>)
    ensures Elems(a + b) == Elems(a) + Elems(b)
  {
    assert forall x :: x in a + b <==> x in a || x in b;
  }

  lemma ElemsNonEmpty(s: seq<Node>)
    ensures |s| > 0 ==> s[0] in Elems(s)
  {
  }

  /** A list is empty exactly when it holds no nodes. */
  lemma EmptyIffNoElems(s: seq<Node>)
    ensures |s| == 0 <==> Elems(s) == {}
  {
    if |s| > 0 {
      assert s[0] in Elems(s);
    }
  }

  /** Strictly ascending in Python's string order. */
  predicate Sorted(s: seq<Node>)
  {
    forall i, j :: 0 <= i < j < |s| ==> Lt(s[i], s[j])
  }

  /** A strictly ascending list names each node once. */
  lemma SortedDistinct(s: seq<Node>, i: int, j: int)
    requires Sorted(s) && 0 <= i < |s| && 0 <= j < |s| && i != j
    ensures s[i] != s[j]
  {
    if i < j {
      if s[i] == s[j] { LtIrreflexive(s[i]); }
    } else {
      if s[i] == s[j] { LtIrreflexive(s[i]); }
    }
  }

  /** Adds `x` to a canonical list, keeping it canonical. */
  function Insert(x: Node, s: seq<Node>): (r: seq<Node>)
    requires Sorted(s)
    ensures Sorted(r)
    ensures Elems(r) == Elems(s) + {x}
    ensures |s| > 0 ==> r[0] == s[0] || r[0] == x
  {
    if |s| == 0 then [x]
    else if x == s[0] then s
    else if Lt(x, s[0]) then
      BelowHead(x, s);
      SortedCons(x, s);
      ElemsConcat([x], s);
      [x] + s
    else
      LtTotal(x, s[0]);
      var t := Insert(x, s[1..]);
      assert Elems(s) == {s[0]} + Elems(s[1..]) by { assert s == [s[0]] + s[1..]; }
      HeadBelowInsert(x, s, t);
      SortedCons(s[0], t);
      ElemsConcat([s[0]], t);
      [s[0]] + t
  }

  /** A node below every node of a canonical list can go in front of it. */
  lemma SortedCons(x: Node, s: seq<Node>)
    requires Sorted(s)
    requires forall j :: 0 <= j < |s| ==> Lt(x, s[j])
    ensures Sorted([x] + s)
  {
    var r := [x] + s;
    forall i, j | 0 <= i < j < |r| ensures Lt(r[i], r[j]) {
      assert r[j] == s[j - 1];
      if i > 0 { assert r[i] == s[i - 1]; }
    }
  }

  /** A node below the head of a canonical list is below all of it. */
  lemma BelowHead(x: Node, s: seq<Node>)
    requires Sorted(s) && |s| > 0 && Lt(x, s[0])
    ensures forall j :: 0 <= j < |s| ==> Lt(x, s[j])
  {
    forall j | 0 < j < |s| ensures Lt(x, s[j]) {
      LtTransitive(x, s[0], s[j]);
    }
  }

  /** The head of a canonical list stays below everything inserted after it. */
  lemma HeadBelowInsert(x: Node, s: seq<Node>, t: seq<Node>)
    requires Sorted(s) && |s| > 0 && Lt(s[0], x)
    requires Elems(t) == Elems(s[1..]) + {x}
    ensures forall j :: 0 <= j < |t| ==> Lt(s[0], t[j])
  {
    forall j | 0 <= j < |t| ensures Lt(s[0], t[j]) {
      assert t[j] in Elems(t);
      if t[j] != x {
        assert t[j] in s[1..];
        var k :| 0 <= k < |s[1..]| && s[1..][k] == t[j];
        assert s[k + 1] == t[j];
      }
    }
  }

  /** `sorted(set(xs))`: the canonical list of the nodes `xs` holds. */
  function Canon(xs: seq<Node>): (r: seq<Node>)
    ensures Sorted(r)
    ensures Elems(r) == Elems(xs)
  {
    if |xs| == 0 then []
    else
      assert Elems(xs) == {xs[0]} + Elems(xs[1..]) by { assert xs == [xs[0]] + xs[1..]; }
      Insert(xs[0], Canon(xs[1..]))
  }

  /** The least node of a non-empty canonical list is its head. */
  lemma SortedHeadIsLeast(s: seq<Node>, x: Node)
    requires Sorted(s) && x in s && x != s[0]
    ensures Lt(s[0], x)
  {
    var k :| 0 <= k < |s| && s[k] == x;
  }

  /** Two canonical lists with the same nodes are the same list. */
  lemma {:induction false} SortedUnique(a: seq<Node>, b: seq<Node>)
    requires Sorted(a) && Sorted(b)
    requires Elems(a) == Elems(b)
    ensures a == b
    decreases |a|
  {
    if |a| == 0 {
      ElemsNonEmpty(b);
    } else {
      assert a[0] in Elems(b);
      assert |b| > 0;
      if a[0] != b[0] {
        assert b[0] in Elems(a);
        SortedHeadIsLeast(a, b[0]);
        SortedHeadIsLeast(b, a[0]);
        LtAsymmetric(a[0], b[0]);
      }
      assert Elems(a[1..]) == Elems(b[1..]) by {
        assert a == [a[0]] + a[1..] && b == [b[0]] + b[1..];
        forall x | x in a[1..] ensures x in b[1..] {
          var k :| 0 <= k < |a[1..]| && a[1..][k] == x;
          SortedDistinct(a, 0, k + 1);
          assert x in Elems(b);
          var m :| 0 <= m < |b| && b[m] == x;
          assert b[1..][m - 1] == x;
        }
        forall x | x in b[1..] ensures x in a[1..] {
          var k :| 0 <= k < |b[1..]| && b[1..][k] == x;
          SortedDistinct(b, 0, k + 1);
          assert x in Elems(a);
          var m :| 0 <= m < |a| && a[m] == x;
          assert a[1..][m - 1] == x;
        }
      }
      SortedUnique(a[1..], b[1..]);
    }
  }

  /** Canonical lists compare equal exactly when their nodes do: list equality is set equality. */
  lemma CanonEqual(xs: seq<Node>, ys: seq<Node>)
    ensures Canon(xs) == Canon(ys) <==> Elems(xs) == Elems(ys)
  {
    if Elems(xs) == Elems(ys) {
      SortedUnique(Canon(xs), Canon(ys));
    }
  }

  /** A list already canonical is its own canonical form. */
  lemma CanonOfSorted(s: seq<Node>)
    requires Sorted(s)
    ensures Canon(s) == s
  {
    SortedUnique(Canon(s), s);
  }

  /** The members of `a` that are not in `b`, in `a`'s order. */
  function Without(a: seq<Node>, b: seq<Node>): (r: seq<Node>)
    ensures Elems(r) == Elems(a) - Elems(b)
  {
    if |a| == 0 then []
    else
      assert Elems(a) == {a[0]} + Elems(a[1..]) by { assert a == [a[0]] + a[1..]; }
      ElemsConcat(if a[0] in b then [] else [a[0]], Without(a[1..], b));
      (if a[0] in b then [] else [a[0]]) + Without(a[1..], b)
  }

  /** The members of `a` that are also in `b`, in `a`'s order. */
  function Within(a: seq<Node>, b: seq<Node>): (r: seq<Node>)
    ensures Elems(r) == Elems(a) * Elems(b)
  {
    if |a| == 0 then []
    else
      assert Elems(a) == {a[0]} + Elems(a[1..]) by { assert a == [a[0]] + a[1..]; }
      ElemsConcat(if a[0] in b then [a[0]] else [], Within(a[1..], b));
      (if a[0] in b then [a[0]] else []) + Within(a[1..], b)
  }

  /** `set(a).union(b)` as a canonical list. */
  function Union(a: seq<Node>, b: seq<Node>): (r: seq<Node>)
    ensures Sorted(r)
    ensures Elems(r) == Elems(a) + Elems(b)
  {
    ElemsConcat(a, b);
    Canon(a + b)
  }

  /** `set(a).difference(b)` as a canonical list. */
  function Difference(a: seq<Node>, b: seq<Node>): (r: seq<Node>)
    ensures Sorted(r)
    ensures Elems(r) == Elems(a) - Elems(b)
  {
    Canon(Without(a, b))
  }

  /** `set(a).intersection(b)` as a canonical list. */
  function Intersection(a: seq<Node>, b: seq<Node>): (r: seq<Node>)
    ensures Sorted(r)
    ensures Elems(r) == Elems(a) * Elems(b)
  {
    Canon(Within(a, b))
  }
}

=== FILE: remote.dfy ===
/**
 * The remote systems the balancers drive, as plain values.
 *
 * - A config-file balancer host holds, per pool, the node list last written
 *   to its config file.  A host missing from `World.hosts` cannot be reached:
 *   every connection to it fails.
 * - A Stingray control plane (keyed by its SOAP endpoint URL) holds, per
 *   pool, its member list and the members it has disabled.  `faults` lets the
 *   remote answer any call of a given kind with a fault instead (a transport
 *   error, a concurrent deletion, ...); the model never assumes a call
 *   succeeds.  A URL missing from `World.planes` cannot be reached.
 *
 * Every balancer operation maps a `World` to a `Step`: the new world, the
 * ordered trace of what it did, and its result or the exception it raised.
 * The trace lists every mutating remote call issued (whether or not it
 * succeeded), every warning and every sleep; reads are not recorded.
 */
module Remote {
  import opened Wrappers
  import opened NodeSets

  type Host = string
  type Url = string

  /** The Stingray pool operations the balancer issues. */
  datatype SoapOp = addNodes | addPool | disableNodes | removeNodes | deletePool | getNodes

  /** What a remote call can raise. */
  datatype Fault =
    | UnknownPool(pool: string)    // Stingray's "Unknown pool" fault
    | Transport(endpoint: string)  // the host or endpoint could not be reached
    | ServerFault(message: string) // any other fault the remote reports
    | Malformed                    // a reply whose shape the client cannot index
    | ValueError(message: string)  // an exception raised in the client itself

  datatype Event =
    | Write(host: Host, pool: string, nodes: seq<Node>)  // replace a host's node list for a pool
    | Reload(host: Host)                                 // the host's privileged config reload
    | Warn(host: Host, message: string)                  // `warnings.warn` about a divergent host
    | Call(url: Url, op: SoapOp, pool: string, nodes: seq<Node>) // a mutating SOAP call
    | Sleep(seconds: int)                                // the grace period between disable and remove

  datatype Server = Server(
    pools: map<string, seq<Node>>,
    disabled: set<(string, Node)>,
    faults: map<SoapOp, Fault>)

  datatype World = World(
    hosts: map<Host, map<string, seq<Node>>>,
    planes: map<Url, Server>)

  /** The effect of one operation: new world, what it did, and how it ended. */
  datatype Step<+T> = Step(world: World, trace: seq<Event>, result: Result<T, Fault>)

  predicate IsUnknownPool(r: Result<(), Fault>)
  {
    r.Err? && r.error.UnknownPool?
  }

  // ---------------------------------------------------------------------------
  // Config-file hosts
  // ---------------------------------------------------------------------------

  /** The node set a host's config file declares for `pool` (empty when the pool has no entry). */
  function FileNodes(w: World, h: Host, pool: string): (r: seq<Node>)
    requires h in w.hosts
    ensures Sorted(r)
  {
    if pool in w.hosts[h] then Canon(w.hosts[h][pool]) else []
  }

  /** Reading a host's node set; fails when the host cannot be reached. */
  function ReadHost(w: World, h: Host, pool: string): (r: Result<seq<Node>, Fault>)
    ensures r.Ok? <==> h in w.hosts
    ensures r.Ok? ==> r.value == FileNodes(w, h, pool)
    ensures r.Err? ==> r.error == Transport(h)
  {
    if h in w.hosts then Ok(FileNodes(w, h, pool)) else Err(Transport(h))
  }

  /** Overwriting a host's node list for `pool`. */
  function WriteHost(w: World, h: Host, pool: string, nodes: seq<Node>): (r: Result<World, Fault>)
    ensures r.Ok? <==> h in w.hosts
    ensures r.Ok? ==> r.value.planes == w.planes && r.value.hosts.Keys == w.hosts.Keys
    ensures r.Ok? ==> r.value.hosts[h] == w.hosts[h][pool := nodes]
    ensures r.Ok? ==> forall g :: g in w.hosts && g != h ==> r.value.hosts[g] == w.hosts[g]
    ensures r.Err? ==> r.error == Transport(h)
  {
    if h in w.hosts then Ok(w.(hosts := w.hosts[h := w.hosts[h][pool := nodes]]))
    else Err(Transport(h))
  }

  // ---------------------------------------------------------------------------
  // Stingray control planes
  // ---------------------------------------------------------------------------

  /** The disabled-marks for `nodes` in pool `name`. */
  function Marks(name: string, nodes: seq<Node>): set<(string, Node)>
  {
    set n | n in nodes :: (name, n)
  }

  /** How a control plane answers one call: its new state and the arrays it returns. */
  function Serve(s: Server, op: SoapOp, name: string, nodes: seq<Node>): (r: (Server, Result<seq<seq<Node>>, Fault>))
    ensures op in s.faults ==> r == (s, Err(s.faults[op]))
    ensures op !in s.faults && op != addPool && name !in s.pools ==> r == (s, Err(UnknownPool(name)))
    ensures r.1.Err? ==> r.0 == s
    ensures op == getNodes ==> r.0 == s
  {
    if op in s.faults then (s, Err(s.faults[op]))
    else if op == addPool then
      if name in s.pools then (s, Err(ServerFault("Pool already exists")))
      else (s.(pools := s.pools[name := Canon(nodes)]), Ok([]))
    else if name !in s.pools then (s, Err(UnknownPool(name)))
    else
      var members := s.pools[name];
      match op
      case addNodes =>
        (s.(pools := s.pools[name := members + Canon(Without(nodes, members))]), Ok([]))
      case disableNodes =>
        (s.(disabled := s.disabled + Marks(name, nodes)), Ok([]))
      case removeNodes =>
        (s.(pools := s.pools[name := Without(members, nodes)],
            disabled := s.disabled - Marks(name, nodes)), Ok([]))
      case deletePool =>
        (s.(pools := s.pools - {name},
            disabled := set m | m in s.disabled && m.0 != name), Ok([]))
      case getNodes =>
        (s, Ok([members]))
  }

  /** Sending one SOAP call to the plane at `url`; an unknown URL cannot be reached. */
  function Soap(w: World, url: Url, op: SoapOp, name: string, nodes: seq<Node>): (r: (World, Result<seq<seq<Node>>, Fault>))
    ensures url !in w.planes ==> r == (w, Err(Transport(url)))
    ensures r.1.Err? ==> r.0 == w
    ensures r.0.hosts == w.hosts
    ensures op == getNodes ==> r.0 == w
  {
    if url !in w.planes then (w, Err(Transport(url)))
    else
      var (s, res) := Serve(w.planes[url], op, name, nodes);
      if res.Err? then (w, res) else (w.(planes := w.planes[url := s]), res)
  }
}

=== FILE: repo.dfy ===
/**
 * The string handling of the repository helper: guessing a version
 * control system from a URL or a folder listing, the folder name a clone
 * of a URL gets, how a `Repo` normalises its folder and URL, which
 * revision an update checks out, and how a version string is read from
 * the tool's output.
 *
 * The file system, subprocesses and the network are parameters: a
 * listing of the folder (or `None` when listing fails), whether the
 * folder is a directory, the text the VCS prints for the remote URL, and
 * whether an HTTP probe of the URL finds Mercurial's server.
 */
module Repos {
  import opened Wrappers
  import opened Strings

  // ---------------------------------------------------------------------------
  // Python's truthiness of optional strings
  // ---------------------------------------------------------------------------

  /** `None` and `''` are both false in a Python `or`. */
  predicate Truthy(s: Option<string>)
  {
    s.Some? && s.value != ""
  }

  /** Drops one trailing `/`, as `if s.endswith('/'): s = s[:-1]` does. */
  function DropTrailingSlash(s: string): (r: string)
    ensures EndsWith(s, "/") ==> r + "/" == s
    ensures !EndsWith(s, "/") ==> r == s
  {
    if EndsWith(s, "/") then s[..|s| - 1] else s
  }

  // ---------------------------------------------------------------------------
  // urlsplit
  // ---------------------------------------------------------------------------

  predicate IsAsciiLetter(c: char)
  {
    'a' <= c <= 'z' || 'A' <= c <= 'Z'
  }

  /** The characters a URL scheme may use after its leading letter. */
  predicate IsSchemeChar(c: char)
  {
    IsAsciiLetter(c) || IsDigit(c) || c == '+' || c == '-' || c == '.'
  }

  predicate ValidScheme(s: string)
  {
    |s| > 0 && IsAsciiLetter(s[0]) && forall k :: 0 <= k < |s| ==> IsSchemeChar(s[k])
  }

  /**
   * The scheme step of `urlsplit`: the text before the first `:` when it
   * is a valid scheme, and the rest of the URL after that colon.
   */
  function SplitScheme(url: string): (r: (string, string))
    ensures r.0 != "" ==> ValidScheme(r.0) && url == r.0 + ":" + r.1 && ':' !in r.0
    ensures r.0 == "" ==> r.1 == url && (':' in url ==> !ValidScheme(url[..IndexOf(url, ':')]))
  {
    if ':' in url then
      var i := IndexOf(url, ':');
      if ValidScheme(url[..i]) then
        assert url == url[..i] + ":" + url[i + 1..];
        (url[..i], url[i + 1..])
      else ("", url)
    else ("", url)
  }

  predicate IsNetlocEnd(c: char)
  {
    c == '/' || c == '?' || c == '#'
  }

  /** The index of the first `/`, `?` or `#` in `s`, or `|s|` when there is none. */
  function NetlocEnd(s: string): (i: nat)
    ensures i <= |s|
    ensures forall k :: 0 <= k < i ==> !IsNetlocEnd(s[k])
    ensures i < |s| ==> IsNetlocEnd(s[i])
  {
    if |s| == 0 || IsNetlocEnd(s[0]) then 0 else 1 + NetlocEnd(s[1..])
  }

  /** The network location step of `urlsplit`: after a leading `//`, up to the first `/`, `?` or `#`. */
  function SplitNetloc(rest: string): (r: (string, string))
    ensures StartsWith(rest, "//") ==> rest == "//" + r.0 + r.1
    ensures forall k :: 0 <= k < |r.0| ==> !IsNetlocEnd(r.0[k])
    ensures StartsWith(rest, "//") && r.1 != "" ==> IsNetlocEnd(r.1[0])
    ensures !StartsWith(rest, "//") ==> r == ("", rest)
  {
    if StartsWith(rest, "//") then
      var tail := rest[2..];
      var i := NetlocEnd(tail);
      assert rest == "//" + tail[..i] + tail[i..];
      (tail[..i], tail[i..])
    else ("", rest)
  }

  /** The five parts `urllib.parse.urlsplit` returns; the scheme is lower-cased. */
  datatype SplitUrl = SplitUrl(scheme: string, netloc: string, path: string, query: string, fragment: string)

  function UrlSplit(url: string): (u: SplitUrl)
    ensures '#' !in u.path && '?' !in u.path && '#' !in u.query
  {
    var (scheme, rest) := SplitScheme(url);
    var (netloc, rest) := SplitNetloc(rest);
    var (beforeFragment, _, fragment) := Partition(rest, '#');
    var (path, _, query) := Partition(beforeFragment, '?');
    SplitUrl(Lower(scheme), netloc, path, query, fragment)
  }

  /** The `hostname` of a split URL: no user info, no port, no IPv6 brackets, lower-cased before any `%` zone. */
  function Hostname(netloc: string): (r: Option<string>)
    ensures r.Some? ==> r.value != "" && '@' !in r.value
  {
    var (_, _, hostinfo) := RPartition(netloc, '@');
    var (_, bracketed, inside) := Partition(hostinfo, '[');
    var host := if bracketed then Partition(inside, ']').0 else Partition(hostinfo, ':').0;
    if host == "" then None
    else
      var (name, hasZone, zone) := Partition(host, '%');
      Some(Lower(name) + (if hasZone then "%" + zone else ""))
  }

  /** A valid scheme holds no colon. */
  lemma SchemeHasNoColon(scheme: string)
    requires ValidScheme(scheme)
    ensures ':' !in scheme
  {
    forall k | 0 <= k < |scheme| ensures scheme[k] != ':' {
      assert IsSchemeChar(scheme[k]);
    }
  }

  /** A URL that starts with a valid scheme and a colon loses exactly that prefix to the scheme step. */
  lemma SplitSchemeAt(scheme: string, rest: string)
    requires ValidScheme(scheme)
    ensures SplitScheme(scheme + ":" + rest) == (scheme, rest)
  {
    var url := scheme + ":" + rest;
    SchemeHasNoColon(scheme);
    PartitionAt(scheme, ':', rest);
    assert url[..IndexOf(url, ':')] == scheme;
    assert url[IndexOf(url, ':') + 1..] == rest;
  }

  /** `//host` followed by a delimiter-free host ends the network location at the delimiter. */
  lemma SplitNetlocAt(host: string, path: string)
    requires forall k :: 0 <= k < |host| ==> !IsNetlocEnd(host[k])
    requires |path| > 0 && IsNetlocEnd(path[0])
    ensures SplitNetloc("//" + host + path) == (host, path)
  {
    var rest := "//" + host + path;
    assert StartsWith(rest, "//");
    assert rest[2..] == host + path;
    NetlocEndAt(host, path);
    assert (host + path)[..|host|] == host && (host + path)[|host|..] == path;
  }

  lemma {:induction false} NetlocEndAt(host: string, path: string)
    requires forall k :: 0 <= k < |host| ==> !IsNetlocEnd(host[k])
    requires |path| > 0 && IsNetlocEnd(path[0])
    ensures NetlocEnd(host + path) == |host|
  {
    if |host| > 0 {
      assert (host + path)[1..] == host[1..] + path;
      NetlocEndAt(host[1..], path);
    }
  }

  /** A URL that starts with a valid scheme and a colon splits to that scheme, lower-cased. */
  lemma SchemeOfUrl(scheme: string, rest: string)
    requires ValidScheme(scheme)
    ensures UrlSplit(scheme + ":" + rest).scheme == Lower(scheme)
  {
    SplitSchemeAt(scheme, rest);
  }

  /** `scheme://host/path` splits into its host and path when neither holds a delimiter. */
  lemma PathOfUrl(scheme: string, host: string, path: string)
    requires ValidScheme(scheme)
    requires forall k :: 0 <= k < |host| ==> !IsNetlocEnd(host[k])
    requires |path| > 0 && path[0] == '/' && '?' !in path && '#' !in path
    ensures UrlSplit(scheme + "://" + host + path) == SplitUrl(Lower(scheme), host, path, "", "")
  {
    var rest := "//" + host + path;
    assert scheme + "://" + host + path == scheme + ":" + rest;
    SplitSchemeAt(scheme, rest);
    SplitNetlocAt(host, path);
  }

  /** A host name in lower case with no user, port or zone is its own `hostname`. */
  lemma HostnameOfPlainHost(host: string)
    requires host != ""
    requires '@' !in host && '[' !in host && ':' !in host && '%' !in host
    requires forall k :: 0 <= k < |host| ==> !('A' <= host[k] <= 'Z')
    ensures Hostname(host) == Some(host)
  {
    var lowered := Lower(host);
    assert forall i :: 0 <= i < |host| ==> lowered[i] == host[i];
    assert lowered == host;
    assert Partition(host, '%') == (host, false, "");
    assert lowered + "" == host;
  }

  // ---------------------------------------------------------------------------
  // guess_url_vcs and guess_folder_vcs
  // ---------------------------------------------------------------------------

  /**
   * What the URL alone says about its VCS.  `AskServer` stands for the
   * HTTP probe the source makes for `http`/`https` URLs it cannot place.
   */
  datatype UrlGuess = Guessed(vcs: string) | AskServer | NoGuess

  /** `guess_url_vcs`, up to the network probe: scheme first, then a `.git` path, then GitHub. */
  function GuessUrlVcs(url: string): (g: UrlGuess)
    ensures var u := UrlSplit(url);
      (u.scheme == "git" || u.scheme == "svn" ==> g == Guessed(u.scheme)) &&
      (g.Guessed? <==> u.scheme == "git" || u.scheme == "svn" || EndsWith(u.path, ".git") || Hostname(u.netloc) == Some("github.com")) &&
      (g.Guessed? ==> g.vcs in {"git", "svn"}) &&
      (g.Guessed? && u.scheme != "git" && u.scheme != "svn" ==> g == Guessed("git")) &&
      (g == AskServer <==> !g.Guessed? && (u.scheme == "http" || u.scheme == "https"))
  {
    var u := UrlSplit(url);
    if u.scheme in {"git", "svn"} then Guessed(u.scheme)
    else if EndsWith(u.path, ".git") then Guessed("git")
    else if Hostname(u.netloc) == Some("github.com") then Guessed("git")
    else if u.scheme in {"http", "https"} then AskServer
    else NoGuess
  }

  /** The scheme decides before the path does: `svn://host/x.git` is Subversion. */
  lemma GuessUrlVcsSchemeFirst(scheme: string, rest: string)
    requires ValidScheme(scheme) && (Lower(scheme) == "git" || Lower(scheme) == "svn")
    ensures GuessUrlVcs(scheme + ":" + rest) == Guessed(Lower(scheme))
  {
    SchemeOfUrl(scheme, rest);
  }

  /** A path ending in `.git` makes a git URL whatever the host. */
  lemma GuessUrlVcsGitPath(scheme: string, host: string, path: string)
    requires ValidScheme(scheme) && Lower(scheme) != "svn"
    requires forall k :: 0 <= k < |host| ==> !IsNetlocEnd(host[k])
    requires |path| > 0 && path[0] == '/' && '?' !in path && '#' !in path && EndsWith(path, ".git")
    ensures GuessUrlVcs(scheme + "://" + host + path) == Guessed("git")
  {
    PathOfUrl(scheme, host, path);
  }

  /** The URL of the repository's own scheme detection test. */
  lemma GuessUrlVcsSchemeExample()
    ensures GuessUrlVcs("git" + ":" + "//github.com/heroku/heroku-buildpack-python") == Guessed("git")
  {
    var rest := "//github.com/heroku/heroku-buildpack-python";
    assert ValidScheme("git") by {
      assert IsSchemeChar('g') && IsSchemeChar('i') && IsSchemeChar('t');
    }
    var lowered := Lower("git");
    assert lowered[0] == 'g' && lowered[1] == 'i' && lowered[2] == 't';
    assert lowered == "git";
    GuessUrlVcsSchemeFirst("git", rest);
  }

  /** The URL of the repository's own `.git` suffix detection test. */
  lemma GuessUrlVcsSuffixExample()
    ensures GuessUrlVcs("https" + "://" + "github.com" + "/heroku/heroku-buildpack-python.git") == Guessed("git")
  {
    HttpsScheme();
    GitHubHost();
    BuildpackPath();
    GuessUrlVcsGitPath("https", "github.com", "/heroku/heroku-buildpack-python.git");
  }

  lemma HttpsScheme()
    ensures ValidScheme("https") && Lower("https") != "svn"
  {
    assert IsSchemeChar('h') && IsSchemeChar('t') && IsSchemeChar('p') && IsSchemeChar('s');
    assert Lower("https")[0] == 'h';
  }

  lemma GitHubHost()
    ensures forall k :: 0 <= k < |"github.com"| ==> !IsNetlocEnd("github.com"[k])
  {
  }

  lemma BuildpackPath()
    ensures var path := "/heroku/heroku-buildpack-python.git";
      |path| > 0 && path[0] == '/' && '?' !in path && '#' !in path && EndsWith(path, ".git")
  {
    var path := "/heroku/heroku-buildpack-python.git";
    assert forall k :: 0 <= k < |path| ==> path[k] != '?' && path[k] != '#';
    assert path[|path| - 4..] == ".git";
  }

  /** The VCS folders `guess_folder_vcs` looks for, in order of preference. */
  const VcsFolders: seq<string> := [".git", ".hg", ".svn"]

  /** The index of the first candidate present in `contents`. */
  function FirstPresent(candidates: seq<string>, contents: set<string>): (r: Option<nat>)
    ensures r.Some? ==> r.value < |candidates| && candidates[r.value] in contents
    ensures r.Some? ==> forall j :: 0 <= j < r.value ==> candidates[j] !in contents
    ensures r.None? ==> forall j :: 0 <= j < |candidates| ==> candidates[j] !in contents
  {
    if |candidates| == 0 then None
    else if candidates[0] in contents then Some(0)
    else match FirstPresent(candidates[1..], contents)
      case None => None
      case Some(i) => Some(i + 1)
  }

  /**
   * `guess_folder_vcs`: the first of `.git`, `.hg`, `.svn` in the folder's
   * listing, without its dot; `None` when there is none or the listing
   * fails (`listing == None`).
   */
  function GuessFolderVcs(listing: Option<set<string>>): (r: Option<string>)
    ensures listing.None? ==> r.None?
    ensures listing.Some? ==>
      (r == Some("git") <==> ".git" in listing.value) &&
      (r == Some("hg") <==> ".git" !in listing.value && ".hg" in listing.value) &&
      (r == Some("svn") <==> ".git" !in listing.value && ".hg" !in listing.value && ".svn" in listing.value) &&
      (r.None? <==> ".git" !in listing.value && ".hg" !in listing.value && ".svn" !in listing.value)
  {
    match listing
    case None => None
    case Some(contents) =>
      assert VcsFolders[0] == ".git" && VcsFolders[1] == ".hg" && VcsFolders[2] == ".svn";
      match FirstPresent(VcsFolders, contents)
      case None => None
      case Some(i) =>
        assert i == 0 || i == 1 || i == 2;
        assert VcsFolders[i][1..] == ["git", "hg", "svn"][i];
        Some(VcsFolders[i][1..])
  }

  // ---------------------------------------------------------------------------
  // Repo
  // ---------------------------------------------------------------------------

  /** What the outside world tells a `Repo` about itself. */
  datatype Surroundings = Surroundings(
    listing: Option<set<string>>, // `os.listdir(folder)`, `None` on `OSError`
    isDir: bool,                  // `os.path.isdir(folder)`
    remoteOutput: string,         // what `hg paths default` / `git config --get remote.origin.url` print
    serverIsHg: bool)             // whether the HTTP probe of the URL finds Mercurial's server

  datatype RepoError =
    | NotGuessable     // `ValueError('vcs type not guessable ...')`
    | NeedsUrl         // `ValueError('Must provide repo url if folder does not exist')`
    | NoUrlCommand     // `KeyError`: no command reads the remote URL of this VCS
    | NoUpdate         // `AttributeError`: no `_update_<vcs>` for this VCS
    | UrlNotText       // `guess_url_vcs(None)` failing on what `urlsplit(None)` gives
    | NoFolder         // `OSError`: `chdir(folder)` into a folder that does not exist

  datatype Repo = Repo(folder: string, vcsType: string, url: string, fragment: string)

  /** The URL's own guess, completed by the HTTP probe. */
  function GuessFromUrl(url: string, env: Surroundings): (r: Option<string>)
    ensures r.Some? ==> r.value in {"git", "svn", "hg"}
    ensures r == Some("hg") <==> GuessUrlVcs(url) == AskServer && env.serverIsHg
  {
    match GuessUrlVcs(url)
    case Guessed(vcs) => Some(vcs)
    case AskServer => if env.serverIsHg then Some("hg") else None
    case NoGuess => None
  }

  /**
   * `vcs_type or guess_folder_vcs(folder) or guess_url_vcs(url)` as
   * written: with no URL the last step is `guess_url_vcs(None)`, which
   * fails before the "not guessable" error can be raised (on Python 3 at
   * `parsed.path.endswith('.git')`, since `urlsplit(None)` yields bytes;
   * on Python 2 inside `urlsplit`).
   */
  function GuessVcsAsWritten(url: Option<string>, vcsType: Option<string>, env: Surroundings): (r: Result<string, RepoError>)
    ensures r.Ok? ==> r.value != ""
    ensures Truthy(vcsType) ==> r == Ok(vcsType.value)
    ensures !Truthy(vcsType) && GuessFolderVcs(env.listing).Some? ==> r == Ok(GuessFolderVcs(env.listing).value)
    ensures !Truthy(vcsType) && GuessFolderVcs(env.listing).None? && url.Some? && GuessFromUrl(url.value, env).Some? ==>
      r == Ok(GuessFromUrl(url.value, env).value)
  {
    if Truthy(vcsType) then Ok(vcsType.value)
    else match GuessFolderVcs(env.listing)
      case Some(vcs) => Ok(vcs)
      case None =>
        if url.None? then Err(UrlNotText)
        else match GuessFromUrl(url.value, env)
          case Some(vcs) => Ok(vcs)
          case None => Err(NotGuessable)
  }

  /** A folder with no VCS sub-folder and no URL escapes the "not guessable" error. */
  lemma GuessVcsAsWrittenMissesValueError()
    ensures GuessVcsAsWritten(None, None, Surroundings(Some({}), true, "", false)) == Err(UrlNotText)
  {
  }

  /** The guess as the error message intends it: every failure to guess is `NotGuessable`. */
  function GuessVcs(url: Option<string>, vcsType: Option<string>, env: Surroundings): (r: Result<string, RepoError>)
    ensures r.Ok? ==> r.value != ""
    ensures Truthy(vcsType) ==> r == Ok(vcsType.value)
    ensures r.Err? ==> r.error == NotGuessable
    ensures !Truthy(vcsType) && GuessFolderVcs(env.listing).Some? ==> r == Ok(GuessFolderVcs(env.listing).value)
    ensures !Truthy(vcsType) && GuessFolderVcs(env.listing).None? && url.Some? && GuessFromUrl(url.value, env).Some? ==>
      r == Ok(GuessFromUrl(url.value, env).value)
    ensures r.Err? <==> !Truthy(vcsType) && GuessFolderVcs(env.listing).None?
                        && (url.None? || GuessFromUrl(url.value, env).None?)
  {
    if Truthy(vcsType) then Ok(vcsType.value)
    else match GuessFolderVcs(env.listing)
      case Some(vcs) => Ok(vcs)
      case None =>
        if url.None? then Err(NotGuessable)
        else match GuessFromUrl(url.value, env)
          case Some(vcs) => Ok(vcs)
          case None => Err(NotGuessable)
  }

  /** The two guesses agree except where the one as written fails on a missing URL. */
  lemma GuessVcsAgrees(url: Option<string>, vcsType: Option<string>, env: Surroundings)
    ensures GuessVcsAsWritten(url, vcsType, env) != Err(UrlNotText) ==> GuessVcsAsWritten(url, vcsType, env) == GuessVcs(url, vcsType, env)
    ensures GuessVcsAsWritten(url, vcsType, env) == Err(UrlNotText) <==> GuessVcs(url, vcsType, env).Err? && url.None?
  {
  }

  /**
   * `get_url`: the remote URL the VCS reports, with its newlines removed.
   * Only hg and git have a command, and it runs inside the folder, so a
   * missing folder makes `chdir` raise.
   */
  function GetUrl(vcs: string, env: Surroundings): (r: Result<string, RepoError>)
    ensures r.Ok? <==> (vcs == "hg" || vcs == "git") && env.isDir
    ensures r.Ok? ==> r.value == Replace(env.remoteOutput, '\n', "")
    ensures r.Ok? ==> '\n' !in r.value && |r.value| == |env.remoteOutput| - Count(env.remoteOutput, '\n')
    ensures r == Err(NoUrlCommand) <==> vcs != "hg" && vcs != "git"
    ensures r == Err(NoFolder) <==> (vcs == "hg" || vcs == "git") && !env.isDir
  {
    if vcs != "hg" && vcs != "git" then Err(NoUrlCommand)
    else if !env.isDir then Err(NoFolder)
    else Ok(Replace(env.remoteOutput, '\n', ""))
  }

  /** A clone whose command prints a newline-free URL and a newline reports that URL. */
  lemma GetUrlOfOutput(vcs: string, u: string, env: Surroundings)
    requires vcs == "hg" || vcs == "git"
    requires env.isDir && '\n' !in u && env.remoteOutput == u + "\n"
    ensures GetUrl(vcs, env) == Ok(u)
  {
    ReplaceConcat(u, "\n", '\n', "");
    ReplaceAbsent(u, '\n', "");
    var nl := "\n";
    assert nl[1..] == "" && Replace(nl, '\n', "") == "";
    assert u + "" == u;
  }

  /**
   * `given` cut at its first `#` into `url` and `fragment`, with one
   * trailing `/` taken off the part before the `#`: `url` keeps no `#`, and
   * a `given` that did not end that part in `/` is `url` unchanged.
   */
  predicate CutsInto(given: string, url: string, fragment: string)
  {
    && '#' !in url
    && ('#' in given ==>
          given == url + "/#" + fragment || (given == url + "#" + fragment && !EndsWith(url, "/")))
    && ('#' !in given ==>
          fragment == "" && (given == url + "/" || (given == url && !EndsWith(url, "/"))))
  }

  /** `url.partition('#')`, then one trailing `/` off the part before the `#`. */
  function CutUrl(given: string): (r: (string, string))
    ensures CutsInto(given, r.0, r.1)
  {
    var (beforeFragment, _, fragment) := Partition(given, '#');
    var plain := DropTrailingSlash(beforeFragment);
    assert '#' !in plain;
    assert EndsWith(beforeFragment, "/") ==>
      beforeFragment + "#" + fragment == plain + "/#" + fragment;
    (plain, fragment)
  }

  /**
   * `Repo(folder, url, vcs_type)`: one trailing `/` off the folder, the
   * VCS named or guessed as the code guesses it (so a missing URL with no
   * VCS folder fails in `guess_url_vcs`), the URL given or read from the clone,
   * split at its first `#` into URL and fragment, and one trailing `/` off
   * the URL.
   */
  function NewRepo(folder: string, url: Option<string>, vcsType: Option<string>, env: Surroundings): (r: Result<Repo, RepoError>)
    ensures r.Ok? && EndsWith(folder, "/") ==> r.value.folder + "/" == folder
    ensures r.Ok? && !EndsWith(folder, "/") ==> r.value.folder == folder
    ensures r.Ok? ==> GuessVcsAsWritten(url, vcsType, env) == Ok(r.value.vcsType)
    ensures r.Ok? && Truthy(url) ==> CutsInto(url.value, r.value.url, r.value.fragment)
    ensures r.Ok? <==>
      GuessVcsAsWritten(url, vcsType, env).Ok? && (url.Some? || env.isDir) &&
      (Truthy(url) || GetUrl(GuessVcsAsWritten(url, vcsType, env).value, env).Ok?)
    ensures r.Err? ==> r.error != NoUpdate
    ensures GuessVcsAsWritten(url, vcsType, env).Err? ==> r == Err(GuessVcsAsWritten(url, vcsType, env).error)
    ensures r == Err(UrlNotText) <==> !Truthy(vcsType) && GuessFolderVcs(env.listing).None? && url.None?
    ensures r == Err(NotGuessable) <==>
      !Truthy(vcsType) && GuessFolderVcs(env.listing).None? && url.Some? && GuessFromUrl(url.value, env).None?
    ensures r == Err(NeedsUrl) <==> GuessVcsAsWritten(url, vcsType, env).Ok? && url.None? && !env.isDir
    ensures r == Err(NoUrlCommand) <==>
      GuessVcsAsWritten(url, vcsType, env).Ok? && (url.Some? || env.isDir) && !Truthy(url) &&
      GetUrl(GuessVcsAsWritten(url, vcsType, env).value, env) == Err(NoUrlCommand)
    ensures r == Err(NoFolder) <==>
      GuessVcsAsWritten(url, vcsType, env).Ok? && url == Some("") && !env.isDir &&
      GuessVcsAsWritten(url, vcsType, env).value in {"hg", "git"}
    ensures r.Ok? && !Truthy(url) ==>
      GetUrl(r.value.vcsType, env).Ok? && CutsInto(GetUrl(r.value.vcsType, env).value, r.value.url, r.value.fragment)
  {
    var folder := DropTrailingSlash(folder);
    var vcs :- GuessVcsAsWritten(url, vcsType, env);
    if url.None? && !env.isDir then Err(NeedsUrl)
    else
      var given :- if Truthy(url) then Ok(url.value) else GetUrl(vcs, env);
      var (plain, fragment) := CutUrl(given);
      Ok(Repo(folder, vcs, plain, fragment))
  }

  /** `Repo('plain-folder')` on a folder with no VCS sub-folder fails in `guess_url_vcs(None)`, not with the "not guessable" error. */
  lemma NewRepoPlainFolder()
    ensures NewRepo("plain-folder", None, None, Surroundings(Some({"README"}), true, "", false)) == Err(UrlNotText)
  {
    assert GuessFolderVcs(Some({"README"})).None?;
  }

  /**
   * The revision `update(rev)` checks out: `rev or fragment`, and failing
   * both `tip` for Mercurial and `master` for git; other VCS types have no
   * update method.
   */
  function UpdateRev(repo: Repo, rev: Option<string>): (r: Result<string, RepoError>)
    ensures r.Ok? <==> repo.vcsType == "hg" || repo.vcsType == "git"
    ensures r.Err? ==> r.error == NoUpdate
    ensures r.Ok? ==> r.value != ""
    ensures r.Ok? && Truthy(rev) ==> r.value == rev.value
    ensures r.Ok? && !Truthy(rev) && repo.fragment != "" ==> r.value == repo.fragment
    ensures r.Ok? && !Truthy(rev) && repo.fragment == "" ==> r.value == (if repo.vcsType == "hg" then "tip" else "master")
  {
    var chosen := if Truthy(rev) then rev else if repo.fragment != "" then Some(repo.fragment) else None;
    if repo.vcsType == "hg" then Ok(if Truthy(chosen) then chosen.value else "tip")
    else if repo.vcsType == "git" then Ok(if Truthy(chosen) then chosen.value else "master")
    else Err(NoUpdate)
  }

  /** A repo made from `url#rev` updates to `rev` when no revision is asked for. */
  lemma UpdateFollowsUrlFragment(folder: string, base: string, rev: string, vcs: string, env: Surroundings)
    requires '#' !in base && rev != ""
    requires vcs == "hg" || vcs == "git"
    ensures NewRepo(folder, Some(base + "#" + rev), Some(vcs), env).Ok?
    ensures UpdateRev(NewRepo(folder, Some(base + "#" + rev), Some(vcs), env).value, None) == Ok(rev)
  {
    PartitionAt(base, '#', rev);
  }

  // ---------------------------------------------------------------------------
  // Versions
  // ---------------------------------------------------------------------------

  /** `_version_hg`: `hg identify -i` output without its trailing `+` (uncommitted changes) and newlines. */
  function VersionHg(output: string): (r: string)
    ensures |r| <= |output| && r == output[..|r|]
    ensures forall i :: |r| <= i < |output| ==> output[i] in {'+', '\n'}
    ensures |r| > 0 ==> r[|r| - 1] !in {'+', '\n'}
  {
    RStripChars(output, {'+', '\n'})
  }

  /** `_version_git`: `git rev-parse HEAD` output without trailing whitespace. */
  function VersionGit(output: string): (r: string)
    ensures |r| <= |output| && r == output[..|r|]
    ensures forall i :: |r| <= i < |output| ==> IsSpace(output[i])
    ensures |r| > 0 ==> !IsSpace(r[|r| - 1])
  {
    TrimRight(output, IsSpace)
  }

  /** Trimming a string followed by characters all dropped gives the string back. */
  lemma {:induction false} TrimRightPadded(s: string, pad: string, drop: char -> bool)
    requires |s| > 0 ==> !drop(s[|s| - 1])
    requires forall k :: 0 <= k < |pad| ==> drop(pad[k])
    ensures TrimRight(s + pad, drop) == s
    decreases |pad|
  {
    if |pad| == 0 {
      assert s + pad == s;
    } else {
      assert (s + pad)[..|s + pad| - 1] == s + pad[..|pad| - 1];
      TrimRightPadded(s, pad[..|pad| - 1], drop);
    }
  }

  /** A changeset id survives `hg identify`'s `+` marker and newline. */
  lemma VersionHgOfIdentify(rev: string, dirty: bool)
    requires |rev| > 0 ==> rev[|rev| - 1] !in {'+', '\n'}
    ensures VersionHg(rev + (if dirty then "+\n" else "\n")) == rev
  {
    TrimRightPadded(rev, if dirty then "+\n" else "\n", c => c in {'+', '\n'});
  }

  /** A commit id survives the newline `git rev-parse` ends with. */
  lemma VersionGitOfRevParse(rev: string)
    requires |rev| > 0 ==> !IsSpace(rev[|rev| - 1])
    ensures VersionGit(rev + "\n") == rev
  {
    TrimRightPadded(rev, "\n", IsSpace);
  }

  // ---------------------------------------------------------------------------
  // basename
  // ---------------------------------------------------------------------------

  /** `re.sub(r'\.git$', '', s)`: `$` also matches before one final newline. */
  function DropGitSuffix(s: string): (r: string)
    ensures EndsWith(s, ".git") ==> r + ".git" == s
    ensures !EndsWith(s, ".git") && EndsWith(s, ".git\n") ==> |r| == |s| - 4 && r[..|r| - 1] + ".git\n" == s && r[|r| - 1] == '\n'
    ensures !EndsWith(s, ".git") && !EndsWith(s, ".git\n") ==> r == s
  {
    if EndsWith(s, ".git") then s[..|s| - 4]
    else if EndsWith(s, ".git\n") then s[..|s| - 5] + "\n"
    else s
  }

  /** The folder name a clone of an unpadded, fragment-free URL gets. */
  function ClonedName(u: string): (r: string)
    ensures '/' !in r
  {
    SegmentName(DropTrailingSlash(u))
  }

  /** The last `/`-separated segment of `s`, without a trailing `.git`. */
  function SegmentName(s: string): (r: string)
    ensures '/' !in r
  {
    var parts := Split(s, '/');
    var last := parts[|parts| - 1];
    assert '/' !in last;
    DropGitSuffix(last)
  }

  /**
   * `basename(url)`: the folder a clone of `url` gets.  The URL is
   * stripped, cut at its first `#`, relieved of one trailing `/`; its last
   * `/`-separated segment loses a trailing `.git`.
   */
  function BaseName(url: string): (r: string)
    ensures '/' !in r
  {
    ClonedName(Partition(Strip(url), '#').0)
  }

  /** The last piece of a split is the text after the last separator. */
  lemma {:induction false} SplitLast(h: string, c: char, t: string)
    requires c !in t
    ensures var parts := Split(h + [c] + t, c); parts[|parts| - 1] == t
    decreases |h|
  {
    if c in h {
      var s := h + [c] + t;
      var i := IndexOf(h, c);
      assert s[i] == c && s[..i] == h[..i];
      IndexOfFirst(s, c, i);
      assert s[i + 1..] == h[i + 1..] + [c] + t;
      SplitLast(h[i + 1..], c, t);
      SplitStep(s, c, i);
    } else {
      SplitLastOnly(h, c, t);
    }
  }

  /** A split at the first separator ends with the pieces of the rest. */
  lemma SplitStep(s: string, c: char, i: nat)
    requires i < |s| && s[i] == c && c !in s[..i]
    ensures var rest := Split(s[i + 1..], c); var parts := Split(s, c);
      parts[|parts| - 1] == rest[|rest| - 1]
  {
    IndexOfFirst(s, c, i);
    var rest := Split(s[i + 1..], c);
    assert Split(s, c) == [s[..i]] + rest;
  }

  /** With one separator, the last piece is what follows it. */
  lemma SplitLastOnly(h: string, c: char, t: string)
    requires c !in h && c !in t
    ensures var parts := Split(h + [c] + t, c); parts[|parts| - 1] == t
  {
    var s := h + [c] + t;
    IndexOfAfterPrefix(h, c, t);
    assert s[..|h|] == h && s[|h| + 1..] == t;
    assert Split(s, c) == [h] + Split(t, c);
  }

  /** Stripping keeps a string whose ends are not whitespace, whatever whitespace surrounds it. */
  lemma {:induction false} StripPadded(left: string, s: string, right: string)
    requires |s| > 0 && !IsSpace(s[0]) && !IsSpace(s[|s| - 1])
    requires forall k :: 0 <= k < |left| ==> IsSpace(left[k])
    requires forall k :: 0 <= k < |right| ==> IsSpace(right[k])
    ensures Strip(left + s + right) == s
    decreases |left|
  {
    if |left| == 0 {
      assert left + s + right == s + right;
      assert TrimLeft(s + right, IsSpace) == s + right;
      TrimRightPadded(s, right, IsSpace);
    } else {
      assert (left + s + right)[1..] == left[1..] + s + right;
      StripPadded(left[1..], s, right);
    }
  }

  /** One trailing `/` does not change the folder name a clone gets. */
  lemma ClonedNameTrailingSlash(u: string)
    requires !EndsWith(u, "/")
    ensures ClonedName(u + "/") == ClonedName(u)
  {
    DropTrailingSlashOnce(u);
  }

  /** Dropping the trailing `/` of `u + "/"` gives `u`, which keeps its own end. */
  lemma DropTrailingSlashOnce(u: string)
    requires !EndsWith(u, "/")
    ensures DropTrailingSlash(u + "/") == u && DropTrailingSlash(u) == u
  {
    var v := u + "/";
    assert v[|v| - 1..] == "/";
    assert v[..|v| - 1] == u;
  }

  /** The last segment of `prefix/name.git/`, or of `prefix/name/`, is the name. */
  lemma ClonedNameOfSlashed(prefix: string, name: string, suffix: string)
    requires name != "" && '/' !in name && '\n' !in name && !EndsWith(name, ".git")
    requires suffix == "" || suffix == ".git"
    ensures ClonedName(prefix + "/" + name + suffix + "/") == name
  {
    var u := prefix + "/" + name + suffix;
    var segment := name + suffix;
    assert u == prefix + "/" + segment;
    assert u[|u| - 1] == segment[|segment| - 1];
    assert '/' !in segment;
    ClonedNameTrailingSlash(u);
    ClonedNameOf(prefix, name, suffix);
  }

  /** The last segment of `prefix/name.git`, or of `prefix/name`, is the name. */
  lemma ClonedNameOf(prefix: string, name: string, suffix: string)
    requires name != "" && '/' !in name && '\n' !in name && !EndsWith(name, ".git")
    requires suffix == "" || suffix == ".git"
    ensures ClonedName(prefix + "/" + name + suffix) == name
  {
    var segment := name + suffix;
    var u := prefix + "/" + segment;
    assert prefix + "/" + name + suffix == u;
    assert '/' !in segment;
    assert u[|u| - 1] == segment[|segment| - 1];
    assert !EndsWith(u, "/");
    SplitLast(prefix, '/', segment);
    if suffix == ".git" {
      assert EndsWith(segment, ".git");
      assert segment[..|segment| - 4] == name;
    } else {
      assert segment == name;
      assert !EndsWith(name, ".git\n") by {
        assert name[|name| - 1] != '\n';
      }
    }
  }

  /** Cutting at the first `#` keeps a `#`-free head, whether or not a fragment follows. */
  lemma CutFragment(core: string, tail: string)
    requires '#' !in core
    requires tail == "" || tail[0] == '#'
    ensures Partition(core + tail, '#').0 == core
  {
    if tail == "" {
      assert core + tail == core;
    } else {
      PartitionAt(core, '#', tail[1..]);
      assert core + tail == core + ['#'] + tail[1..];
    }
  }

  /**
   * The folder name of a clone URL is its last path segment without
   * `.git`, whatever whitespace surrounds the URL and whatever fragment
   * follows it.
   */
  lemma BaseNameOfCloneUrl(left: string, prefix: string, name: string, suffix: string, tail: string, right: string)
    requires forall k :: 0 <= k < |left| ==> IsSpace(left[k])
    requires forall k :: 0 <= k < |right| ==> IsSpace(right[k])
    requires |prefix| > 0 && !IsSpace(prefix[0]) && '#' !in prefix
    requires name != "" && '/' !in name && '#' !in name && '\n' !in name && !EndsWith(name, ".git")
    requires suffix == "" || suffix == ".git"
    requires tail == "" || (tail[0] == '#' && !IsSpace(tail[|tail| - 1]))
    requires tail == "" ==> !IsSpace(name[|name| - 1])
    ensures BaseName(left + prefix + "/" + name + suffix + tail + right) == name
  {
    var url := left + prefix + "/" + name + suffix + tail + right;
    var core := prefix + "/" + name + suffix;
    assert url == left + (core + tail) + right;
    assert '#' !in core by {
      assert core == prefix + ['/'] + (name + suffix);
      assert '#' !in name + suffix;
    }
    StripCloneUrl(left, prefix, name, suffix, tail, right);
    BaseNameOfStripped(url, core, tail);
    ClonedNameOf(prefix, name, suffix);
  }

  /** A URL that strips to a `#`-free head and a fragment is named after its head. */
  lemma BaseNameOfStripped(url: string, core: string, tail: string)
    requires Strip(url) == core + tail
    requires '#' !in core
    requires tail == "" || tail[0] == '#'
    ensures BaseName(url) == ClonedName(core)
  {
    CutFragment(core, tail);
  }

  /**
   * A URL whose stripped, fragment-free part ends in one `/` gets the same
   * folder name as the URL without that `/`.
   */
  lemma BaseNameDropsTrailingSlash(url: string, core: string, tail: string)
    requires Strip(url) == core + "/" + tail
    requires '#' !in core && !EndsWith(core, "/")
    requires tail == "" || tail[0] == '#'
    ensures BaseName(url) == ClonedName(core)
  {
    assert '#' !in core + "/";
    BaseNameOfStripped(url, core + "/", tail);
    ClonedNameTrailingSlash(core);
  }

  /** Stripping a clone URL removes exactly the surrounding whitespace. */
  lemma StripCloneUrl(left: string, prefix: string, name: string, suffix: string, tail: string, right: string)
    requires forall k :: 0 <= k < |left| ==> IsSpace(left[k])
    requires forall k :: 0 <= k < |right| ==> IsSpace(right[k])
    requires |prefix| > 0 && !IsSpace(prefix[0]) && name != ""
    requires suffix == "" || suffix == ".git"
    requires tail != "" ==> !IsSpace(tail[|tail| - 1])
    requires tail == "" ==> !IsSpace(name[|name| - 1])
    ensures var s := prefix + "/" + name + suffix + tail; Strip(left + s + right) == s
  {
    var segment := name + suffix;
    var core := prefix + "/" + name + suffix;
    assert core == prefix + ['/'] + segment;
    var s := core + tail;
    assert s[0] == prefix[0];
    assert segment[|segment| - 1] == (if suffix == "" then name[|name| - 1] else 't');
    assert s[|s| - 1] == (if tail == "" then segment[|segment| - 1] else tail[|tail| - 1]);
    StripPadded(left, s, right);
  }

  /** The plain URL of the repository's own `basename` test. */
  lemma BaseNameExample()
    ensures BaseName("https://github.com/heroku" + "/" + "heroku-buildpack-python" + ".git") == "heroku-buildpack-python"
  {
    var name := "heroku-buildpack-python";
    assert name[|name| - 4..] != ".git";
    var github := "https://github.com/heroku";
    BaseNameOfCloneUrl("", github, name, ".git", "", "");
    assert "" + github == github;
    var url := github + "/" + name + ".git";
    assert url + "" == url;
    assert url + "" + "" == url;
  }

  /** The URL with a fragment from the repository's own `basename` tests. */
  lemma BaseNameFragmentExample()
    ensures BaseName("https://github.com/heroku" + "/" + "heroku-buildpack-python" + ".git" + "#123456") == "heroku-buildpack-python"
  {
    var name := "heroku-buildpack-python";
    assert name[|name| - 4..] != ".git";
    var github := "https://github.com/heroku";
    BaseNameOfCloneUrl("", github, name, ".git", "#123456", "");
    assert "" + github == github;
    var url := github + "/" + name + ".git" + "#123456";
    assert url + "" == url;
  }

  /** The URL with a trailing space from the repository's own `basename` tests. */
  lemma BaseNameTrailingSpaceExample()
    ensures BaseName("ssh://hg@bitbucket.org/yougov" + "/" + "velociraptor" + " ") == "velociraptor"
  {
    var vr := "velociraptor";
    assert vr[|vr| - 4..] != ".git";
    var bitbucket := "ssh://hg@bitbucket.org/yougov";
    BaseNameOfCloneUrl("", bitbucket, vr, "", "", " ");
    assert "" + bitbucket == bitbucket;
    var clone := bitbucket + "/" + vr;
    assert clone + "" == clone;
    assert clone + "" + "" == clone;
  }
}

=== FILE: soap.dfy ===
/**
 * `FixArrayPlugin.marshalled`: the repair applied to each outgoing SOAP
 * envelope before the Stingray client sends it.
 *
 * The SOAP library marshals an array of arrays without the SOAP-ENC array
 * annotations the control plane needs.  For the node-list commands the
 * plugin declares the `xsd` prefix and labels the command's array argument
 * as a one-row `xsd:list` whose row is an `xsd:list` of its own length.
 *
 * An element is its local name, its attributes and its children; looking a
 * child up by name finds the first one so named, as the SOAP library does.
 */
module SoapMarshal {
  import opened Wrappers
  import opened Strings
  import opened Remote

  datatype Elem = Elem(name: string, attrs: map<string, string>, children: seq<Elem>)

  /** The envelope: its namespace prefix declarations and its children (`Header`, `Body`). */
  datatype Envelope = Envelope(prefixes: map<string, string>, children: seq<Elem>)

  /** Why marshalling stopped: the element the plugin reached for was not there. */
  datatype MarshalError =
    | NoBody                 // the envelope has no `Body`
    | NoCommand              // the `Body` is empty
    | NoArray(child: string) // the command lacks its array argument
    | NoRow                  // the array argument has no row

  /** The commands whose array-of-arrays argument needs the annotations. */
  const Affected: seq<string> := [
    "addNodes", "addDrainingNodes", "removeNodes", "removeDrainingNodes",
    "disableNodes", "enableNodes", "addPool"]

  const XsdNamespace: string := "http://www.w3.org/1999/XMLSchema"
  const ArrayTypeAttr: string := "SOAP-ENC:arrayType"
  const TypeAttr: string := "xsi:type"
  const ArrayType: string := "SOAP-ENC:Array"
  const ListPrefix: string := "xsd:list["

  /** The argument holding the node array: `nodes` for `addPool` and `disableNodes`, `values` otherwise. */
  function ArrayChild(command: string): string
  {
    if command == "addPool" || command == "disableNodes" then "nodes" else "values"
  }

  /** The `arrayType` tag of an `xsd:list` of `n` items. */
  function ListLabel(n: nat): string
  {
    ListPrefix + IntToString(n) + "]"
  }

  /** The position of the first element named `name`. */
  function Find(children: seq<Elem>, name: string): (r: Option<nat>)
    ensures r.Some? ==> r.value < |children| && children[r.value].name == name
    ensures r.Some? ==> forall k :: 0 <= k < r.value ==> children[k].name != name
    ensures r.None? ==> forall k :: 0 <= k < |children| ==> children[k].name != name
  {
    if |children| == 0 then None
    else if children[0].name == name then Some(0)
    else match Find(children[1..], name)
      case None => None
      case Some(i) => Some(i + 1)
  }

  /** Sets the two array attributes of `e`, replacing any earlier values. */
  function MarkArray(e: Elem, tag: string): (r: Elem)
    ensures r.name == e.name && r.children == e.children
    ensures r.attrs.Keys == e.attrs.Keys + {ArrayTypeAttr, TypeAttr}
    ensures ArrayTypeAttr in r.attrs && TypeAttr in r.attrs
    ensures r.attrs[ArrayTypeAttr] == tag && r.attrs[TypeAttr] == ArrayType
    ensures forall k :: k in e.attrs && k != ArrayTypeAttr && k != TypeAttr ==> r.attrs[k] == e.attrs[k]
  {
    e.(attrs := e.attrs[ArrayTypeAttr := tag][TypeAttr := ArrayType])
  }

  /** Labels the array argument as one row, and its first row with its own length. */
  function FixRows(values: Elem): (r: Result<Elem, MarshalError>)
    ensures r.Err? <==> |values.children| == 0
    ensures r.Ok? ==>
      && r.value.name == values.name
      && |r.value.children| == |values.children|
      && ArrayTypeAttr in r.value.attrs && r.value.attrs[ArrayTypeAttr] == ListLabel(1)
      && ArrayTypeAttr in r.value.children[0].attrs
      && r.value.children[0].attrs[ArrayTypeAttr] == ListLabel(|values.children[0].children|)
      && r.value.children[0].children == values.children[0].children
      && r.value.children[1..] == values.children[1..]
    ensures r.Ok? ==>
      && r.value.attrs == MarkArray(values, ListLabel(1)).attrs
      && r.value.children[0] == MarkArray(values.children[0], ListLabel(|values.children[0].children|))
  {
    if |values.children| == 0 then Err(NoRow)
    else
      var item := values.children[0];
      Ok(MarkArray(values, ListLabel(1)).(children := [MarkArray(item, ListLabel(|item.children|))] + values.children[1..]))
  }

  /**
   * `marshalled(context)`: the repaired envelope, or the lookup that failed.
   * What the plugin has already changed before it raises is
   * `MarshalledInPlace`.
   */
  function Marshalled(env: Envelope): (r: Result<Envelope, MarshalError>)
    ensures Find(env.children, "Body").None? ==> r == Err(NoBody)
    ensures r.Ok? ==> |r.value.children| == |env.children|
    ensures r.Ok? ==> forall k :: 0 <= k < |env.children| ==> r.value.children[k].name == env.children[k].name
    ensures r.Ok? && r.value != env ==> r.value.prefixes == env.prefixes["xsd" := XsdNamespace]
  {
    match Find(env.children, "Body")
    case None => Err(NoBody)
    case Some(b) =>
      var body := env.children[b];
      if |body.children| == 0 then Err(NoCommand)
      else
        var command := body.children[0];
        if command.name !in Affected then Ok(env)
        else
          var arg := ArrayChild(command.name);
          match Find(command.children, arg)
          case None => Err(NoArray(arg))
          case Some(v) =>
            match FixRows(command.children[v])
            case Err(e) => Err(e)
            case Ok(fixed) =>
              var command' := command.(children := command.children[v := fixed]);
              var body' := body.(children := body.children[0 := command']);
              Ok(Envelope(env.prefixes["xsd" := XsdNamespace], env.children[b := body']))
  }

  /**
   * The envelope as `marshalled` leaves it in place, whether or not it
   * raises: `xsd` is declared before the array argument is looked up, and
   * the argument is labelled before its first row is read.
   */
  function MarshalledInPlace(env: Envelope): (e: Envelope)
    ensures Marshalled(env).Ok? ==> e == Marshalled(env).value
    ensures Marshalled(env) == Err(NoBody) || Marshalled(env) == Err(NoCommand) ==> e == env
    ensures Marshalled(env).Err? && Marshalled(env).error.NoArray? ==>
      e == env.(prefixes := env.prefixes["xsd" := XsdNamespace])
    ensures Marshalled(env) == Err(NoRow) ==>
      var b := Find(env.children, "Body").value;
      var cmd := env.children[b].children[0];
      var v := Find(cmd.children, ArrayChild(cmd.name)).value;
      e == Rebuilt(env, b, v, MarkArray(cmd.children[v], ListLabel(1)))
  {
    match Find(env.children, "Body")
    case None => env
    case Some(b) =>
      var body := env.children[b];
      if |body.children| == 0 || body.children[0].name !in Affected then env
      else
        var cmd := body.children[0];
        match Find(cmd.children, ArrayChild(cmd.name))
        case None => env.(prefixes := env.prefixes["xsd" := XsdNamespace])
        case Some(v) =>
          var values := cmd.children[v];
          if |values.children| == 0 then Rebuilt(env, b, v, MarkArray(values, ListLabel(1)))
          else Rebuilt(env, b, v, FixRows(values).value)
  }

  /** The command an envelope carries, when it has a non-empty `Body`. */
  function Command(env: Envelope): Option<Elem>
  {
    match Find(env.children, "Body")
    case None => None
    case Some(b) =>
      if |env.children[b].children| == 0 then None else Some(env.children[b].children[0])
  }

  /** A command outside the affected list is sent exactly as marshalled. */
  lemma UnaffectedUnchanged(env: Envelope)
    requires Command(env).Some? && Command(env).value.name !in Affected
    ensures Marshalled(env) == Ok(env)
  {
  }

  /**
   * For an affected command, a successful repair declares `xsd`, labels the
   * array argument as one row and that row with its item count.
   */
  lemma AffectedLabelled(env: Envelope)
    requires Command(env).Some? && Command(env).value.name in Affected
    requires Marshalled(env).Ok?
    ensures var cmd := Command(env).value;
      var out := Marshalled(env).value;
      var arg := ArrayChild(cmd.name);
      && out.prefixes == env.prefixes["xsd" := XsdNamespace]
      && Command(out).Some? && Command(out).value.name == cmd.name
      && Find(cmd.children, arg).Some?
      && var v := Find(cmd.children, arg).value;
         var row := cmd.children[v].children[0];
         && Find(Command(out).value.children, arg) == Some(v)
         && Command(out).value.children[v].attrs[ArrayTypeAttr] == ListLabel(1)
         && Command(out).value.children[v].attrs[TypeAttr] == ArrayType
         && Command(out).value.children[v].children[0].attrs[ArrayTypeAttr] == ListLabel(|row.children|)
         && Command(out).value.children[v].children[0].attrs[TypeAttr] == ArrayType
  {
    var b := Find(env.children, "Body").value;
    var out := Marshalled(env).value;
    var cmd := Command(env).value;
    var v := Find(cmd.children, ArrayChild(cmd.name)).value;
    var fixed := FixRows(cmd.children[v]).value;
    var cmd' := cmd.(children := cmd.children[v := fixed]);
    FindAfterRename(env.children, b, out.children[b], "Body");
    FindAfterRename(cmd.children, v, fixed, ArrayChild(cmd.name));
    assert Command(out) == Some(cmd');
  }

  /** Replacing an element by one of the same name does not move any lookup. */
  lemma {:induction false} FindAfterRename(children: seq<Elem>, i: nat, e: Elem, name: string)
    requires i < |children| && e.name == children[i].name
    ensures Find(children[i := e], name) == Find(children, name)
  {
    if |children| > 0 && children[0].name != name && i > 0 {
      assert children[i := e][1..] == children[1..][i - 1 := e];
      FindAfterRename(children[1..], i - 1, e, name);
    }
  }

  /** Marking an element twice with the same tag is marking it once. */
  lemma MarkArrayTwice(e: Elem, tag: string)
    ensures MarkArray(MarkArray(e, tag), tag) == MarkArray(e, tag)
  {
    assert MarkArray(MarkArray(e, tag), tag).attrs == MarkArray(e, tag).attrs;
  }

  /** Relabelling an array argument already labelled changes nothing. */
  lemma FixRowsIdempotent(values: Elem)
    requires FixRows(values).Ok?
    ensures FixRows(FixRows(values).value) == FixRows(values)
  {
    var item := values.children[0];
    var fixed := FixRows(values).value;
    MarkArrayTwice(values, ListLabel(1));
    MarkArrayTwice(item, ListLabel(|item.children|));
    assert fixed.children[0] == MarkArray(item, ListLabel(|item.children|));
    assert [fixed.children[0]] + fixed.children[1..] == fixed.children;
    assert MarkArray(fixed, ListLabel(1)).(children := fixed.children) == fixed;
  }

  /** The envelope with the array argument at `v` of the command in `Body` (at `b`) replaced by `fixed`. */
  function Rebuilt(env: Envelope, b: nat, v: nat, fixed: Elem): Envelope
    requires b < |env.children| && |env.children[b].children| > 0
    requires v < |env.children[b].children[0].children|
  {
    var body := env.children[b];
    var cmd := body.children[0];
    Envelope(env.prefixes["xsd" := XsdNamespace],
      env.children[b := body.(children := body.children[0 := cmd.(children := cmd.children[v := fixed])])])
  }

  /** Where the lookups of an affected command land, `marshalled` replaces exactly the array argument. */
  lemma MarshalledAt(env: Envelope, b: nat, v: nat)
    requires Find(env.children, "Body") == Some(b) && |env.children[b].children| > 0
    requires var cmd := env.children[b].children[0];
      cmd.name in Affected && Find(cmd.children, ArrayChild(cmd.name)) == Some(v) && FixRows(cmd.children[v]).Ok?
    ensures Marshalled(env) == Ok(Rebuilt(env, b, v, FixRows(env.children[b].children[0].children[v]).value))
  {
  }

  /** Repairing an already repaired envelope changes nothing: the plugin is idempotent. */
  lemma MarshalledIdempotent(env: Envelope)
    requires Marshalled(env).Ok?
    ensures Marshalled(Marshalled(env).value) == Marshalled(env)
  {
    var b := Find(env.children, "Body").value;
    var body := env.children[b];
    assert |body.children| > 0;
    var cmd := body.children[0];
    if cmd.name in Affected {
      var arg := ArrayChild(cmd.name);
      var v := Find(cmd.children, arg).value;
      var fixed := FixRows(cmd.children[v]).value;
      MarshalledAt(env, b, v);
      var out := Rebuilt(env, b, v, fixed);
      var cmd' := cmd.(children := cmd.children[v := fixed]);
      var body' := body.(children := body.children[0 := cmd']);
      FindAfterRename(env.children, b, body', "Body");
      FindAfterRename(cmd.children, v, fixed, arg);
      FixRowsIdempotent(cmd.children[v]);
      MarshalledAt(out, b, v);
      RebuiltTwice(env, b, v, fixed);
    }
  }

  /** Putting the same argument back into a rebuilt envelope changes nothing. */
  lemma RebuiltTwice(env: Envelope, b: nat, v: nat, fixed: Elem)
    requires b < |env.children| && |env.children[b].children| > 0
    requires v < |env.children[b].children[0].children|
    ensures Rebuilt(Rebuilt(env, b, v, fixed), b, v, fixed) == Rebuilt(env, b, v, fixed)
  {
    var out := Rebuilt(env, b, v, fixed);
    var body := env.children[b];
    var cmd := body.children[0];
    var cmd' := cmd.(children := cmd.children[v := fixed]);
    var body' := body.(children := body.children[0 := cmd']);
    assert out.children[b] == body';
    assert body'.children[0] == cmd';
    assert cmd'.children[v := fixed] == cmd'.children;
    assert body'.children[0 := cmd'] == body'.children;
    assert out.children[b := body'] == out.children;
    assert out.prefixes["xsd" := XsdNamespace] == out.prefixes;
  }

  /** The length in an `xsd:list[n]` tag, read back as Python's `int` would. */
  function LabelCount(tag: string): Option<int>
  {
    if |tag| > |ListPrefix| && tag[..|ListPrefix|] == ListPrefix && tag[|tag| - 1] == ']' then
      ParseInt(tag[|ListPrefix|..|tag| - 1])
    else None
  }

  /** The row tag states the row's item count exactly. */
  lemma LabelCountOfListLabel(n: nat)
    ensures LabelCount(ListLabel(n)) == Some(n)
  {
    var tag := ListLabel(n);
    assert tag[..|ListPrefix|] == ListPrefix;
    assert tag[|ListPrefix|..|tag| - 1] == IntToString(n);
    ParseIntOfIntToString(n);
  }

  /** The SOAP method each balancer operation invokes. */
  function MethodName(op: SoapOp): string
  {
    match op
    case addNodes => "addNodes"
    case addPool => "addPool"
    case disableNodes => "disableNodes"
    case removeNodes => "removeNodes"
    case deletePool => "deletePool"
    case getNodes => "getNodes"
  }

  /**
   * Of the calls the balancer makes, exactly the four that carry a node
   * array are repaired, and the array argument is `nodes` for `addPool` and
   * `disableNodes` and `values` for the others.
   */
  lemma RepairedOps(op: SoapOp)
    ensures MethodName(op) in Affected <==> op in {addNodes, addPool, disableNodes, removeNodes}
    ensures MethodName(op) in Affected ==>
      (ArrayChild(MethodName(op)) == "nodes" <==> op in {addPool, disableNodes})
  {
    match op
    case deletePool =>
      assert |MethodName(op)| == 10;
      assert |Affected| == 7;
      assert |Affected[0]| == 8 && |Affected[1]| == 16 && |Affected[2]| == 11 && |Affected[3]| == 19;
      assert |Affected[4]| == 12 && |Affected[5]| == 11 && |Affected[6]| == 7;
    case getNodes =>
      assert MethodName(op)[0] == 'g';
      assert |Affected| == 7;
      assert Affected[0][0] == 'a' && Affected[1][0] == 'a' && Affected[2][0] == 'r' && Affected[3][0] == 'r';
      assert Affected[4][0] == 'd' && Affected[5][0] == 'e' && Affected[6][0] == 'a';
    case addNodes =>
      assert Affected[0] == "addNodes";
      assert MethodName(op)[3] != 'P';
    case addPool =>
      assert Affected[6] == "addPool";
    case disableNodes =>
      assert Affected[4] == "disableNodes";
    case removeNodes =>
      assert Affected[2] == "removeNodes";
      assert MethodName(op)[0] != 'a' && MethodName(op)[0] != 'd';
  }
}

=== FILE: ssh.dfy ===
/**
 * `SshBasedBalancer`: a balancer configured by rewriting a config file on
 * each of several hosts and reloading it there.
 *
 * Reading a host's node set (`_get_host_nodes`) and replacing it
 * (`_set_host_nodes`) are `Remote.ReadHost` and `Remote.WriteHost`; the
 * privileged reload is `ReloadHost`.  Hosts are visited strictly in the
 * configured order, and the first failure stops the operation with every
 * earlier host's change left in place.
 */
module SshBalancer {
  import opened Wrappers
  import opened Strings
  import opened NodeSets
  import opened Remote

  /** `hosts` defaults to `['localhost']` when the config omits it. */
  datatype SshConfig = SshConfig(hosts: seq<Host>)

  /** Running the host's reload command; fails when the host cannot be reached. */
  function ReloadHost(w: World, h: Host): (r: Result<(), Fault>)
    ensures r.Ok? <==> h in w.hosts
  {
    if h in w.hosts then Ok(()) else Err(Transport(h))
  }

  // ---------------------------------------------------------------------------
  // The divergence warning
  // ---------------------------------------------------------------------------

  /** `repr(s)` for a node string (quotes only; the nodes carry no characters repr escapes). */
  function Repr(s: string): string
  {
    "'" + s + "'"
  }

  /** `repr(list(nodes))`. */
  function ListRepr(nodes: seq<Node>): string
  {
    "[" + ReprItems(nodes) + "]"
  }

  function ReprItems(nodes: seq<Node>): string
  {
    if |nodes| == 0 then ""
    else if |nodes| == 1 then Repr(nodes[0])
    else Repr(nodes[0]) + ", " + ReprItems(nodes[1..])
  }

  /**
   * The warning text exactly as the source formats it: the arguments are
   * passed in the order host, pool, host's nodes, others' nodes, while the
   * template expects host, host's nodes, pool, others' nodes.
   */
  function DivergenceMessageAsWritten(h: Host, pool: string, hostNodes: seq<Node>, others: seq<Node>): (m: string)
    ensures StartsWith(m, "Host " + h + " has nodes " + pool)
  {
    var m := "Host " + h + " has nodes " + pool + " for pool " + ListRepr(hostNodes)
      + ", but other hosts have " + ListRepr(others);
    assert m[..|"Host " + h + " has nodes " + pool|] == "Host " + h + " has nodes " + pool;
    m
  }

  /** The warning text with the arguments in the template's order. */
  function DivergenceMessage(h: Host, pool: string, hostNodes: seq<Node>, others: seq<Node>): (m: string)
    ensures StartsWith(m, "Host " + h + " has nodes " + ListRepr(hostNodes) + " for pool " + pool + ", ")
    ensures EndsWith(m, "other hosts have " + ListRepr(others))
  {
    var head := "Host " + h + " has nodes " + ListRepr(hostNodes) + " for pool " + pool + ", ";
    var tail := "other hosts have " + ListRepr(others);
    var m := head + "but " + tail;
    assert m[..|head|] == head;
    assert m[|m| - |tail|..] == tail;
    m
  }

  /** Unless the pool name itself starts with `[`, the source's text differs from the intended one. */
  lemma DivergenceMessageMisplacesPool(h: Host, pool: string, hostNodes: seq<Node>, others: seq<Node>)
    requires |pool| == 0 || pool[0] != '['
    ensures DivergenceMessageAsWritten(h, pool, hostNodes, others) != DivergenceMessage(h, pool, hostNodes, others)
  {
    var lead := "Host " + h + " has nodes ";
    var k := |lead|;
    var written := DivergenceMessageAsWritten(h, pool, hostNodes, others);
    var intended := DivergenceMessage(h, pool, hostNodes, others);
    assert intended == lead + ListRepr(hostNodes) + " for pool " + pool + ", but other hosts have " + ListRepr(others);
    assert intended[k] == '[';
    assert written == lead + pool + " for pool " + ListRepr(hostNodes) + ", but other hosts have " + ListRepr(others);
    assert written[k] == if |pool| == 0 then ' ' else pool[0];
  }

  // ---------------------------------------------------------------------------
  // get_nodes
  // ---------------------------------------------------------------------------

  /**
   * The read loop of `get_nodes` over `hosts`, left to right: the first
   * host's set is taken as is; every later host whose set differs from the
   * union read so far is warned about and merged in.
   */
  function Scan(w: World, hosts: seq<Host>, pool: string): (r: Step<Option<seq<Node>>>)
    ensures r.world == w
    ensures r.result.Ok? ==> (r.result.value.None? <==> |hosts| == 0)
    decreases |hosts|
  {
    if |hosts| == 0 then Step(w, [], Ok(None))
    else
      var prev := Scan(w, hosts[..|hosts| - 1], pool);
      var h := hosts[|hosts| - 1];
      if prev.result.Err? then prev
      else match ReadHost(w, h, pool)
        case Err(e) => Step(w, prev.trace, Err(e))
        case Ok(hostNodes) =>
          match prev.result.value
          case None => Step(w, prev.trace, Ok(Some(hostNodes)))
          case Some(nodes) =>
            if hostNodes != nodes then
              Step(w, prev.trace + [Warn(h, DivergenceMessageAsWritten(h, pool, hostNodes, nodes))],
                   Ok(Some(Union(nodes, hostNodes))))
            else Step(w, prev.trace, Ok(Some(nodes)))
  }

  /** `get_nodes(pool)`: the pool's members as the hosts report them. */
  function GetNodes(c: SshConfig, w: World, pool: string): (r: Step<seq<Node>>)
    ensures r.world == w
  {
    var s := Scan(w, c.hosts, pool);
    match s.result
    case Err(e) => Step(w, s.trace, Err(e))
    case Ok(None) => Step(w, s.trace, Ok([]))
    case Ok(Some(nodes)) => Step(w, s.trace, Ok(nodes))
  }

  // ---------------------------------------------------------------------------
  // Reference definitions for get_nodes
  // ---------------------------------------------------------------------------

  predicate Reachable(w: World, hosts: seq<Host>)
  {
    forall i :: 0 <= i < |hosts| ==> hosts[i] in w.hosts
  }

  /** Every host's node set, one after another. */
  function Gathered(w: World, hosts: seq<Host>, pool: string): seq<Node>
    requires Reachable(w, hosts)
    decreases |hosts|
  {
    if |hosts| == 0 then []
    else Gathered(w, hosts[..|hosts| - 1], pool) + FileNodes(w, hosts[|hosts| - 1], pool)
  }

  /** The number of hosts whose set differs from the union of the hosts before them. */
  function Divergent(w: World, hosts: seq<Host>, pool: string): nat
    requires Reachable(w, hosts)
    decreases |hosts|
  {
    if |hosts| <= 1 then 0
    else
      var before := hosts[..|hosts| - 1];
      Divergent(w, before, pool)
        + (if FileNodes(w, hosts[|hosts| - 1], pool) != Canon(Gathered(w, before, pool)) then 1 else 0)
  }

  /** All hosts report the same set. */
  predicate Agree(w: World, hosts: seq<Host>, pool: string)
    requires Reachable(w, hosts)
  {
    forall i :: 0 <= i < |hosts| ==> FileNodes(w, hosts[i], pool) == FileNodes(w, hosts[0], pool)
  }

  predicate AllWarnings(trace: seq<Event>)
  {
    forall k :: 0 <= k < |trace| ==> trace[k].Warn?
  }

  lemma {:induction false} GatheredHolds(w: World, hosts: seq<Host>, pool: string, x: Node)
    requires Reachable(w, hosts)
    ensures x in Gathered(w, hosts, pool) <==> exists i :: 0 <= i < |hosts| && x in FileNodes(w, hosts[i], pool)
    decreases |hosts|
  {
    if |hosts| > 0 {
      var before := hosts[..|hosts| - 1];
      GatheredHolds(w, before, pool, x);
      ElemsConcat(Gathered(w, before, pool), FileNodes(w, hosts[|hosts| - 1], pool));
      assert x in Gathered(w, hosts, pool) <==> x in Gathered(w, before, pool) || x in FileNodes(w, hosts[|hosts| - 1], pool);
      if x in Gathered(w, hosts, pool) && x !in Gathered(w, before, pool) {
        assert x in FileNodes(w, hosts[|hosts| - 1], pool);
      }
      if exists i :: 0 <= i < |hosts| && x in FileNodes(w, hosts[i], pool) {
        var i :| 0 <= i < |hosts| && x in FileNodes(w, hosts[i], pool);
        if i < |hosts| - 1 {
          assert hosts[i] == before[i];
        }
      }
    }
  }

  /** The read loop computes the union of every host's set and warns once per divergent host. */
  lemma {:induction false} ScanIsUnion(w: World, hosts: seq<Host>, pool: string)
    requires Reachable(w, hosts)
    ensures |hosts| > 0 ==> Scan(w, hosts, pool).result == Ok(Some(Canon(Gathered(w, hosts, pool))))
    ensures |Scan(w, hosts, pool).trace| == Divergent(w, hosts, pool)
    ensures AllWarnings(Scan(w, hosts, pool).trace)
    decreases |hosts|
  {
    if |hosts| > 0 {
      var before := hosts[..|hosts| - 1];
      assert Reachable(w, before);
      ScanIsUnion(w, before, pool);
      if |before| == 0 {
        ScanFirst(w, hosts, pool);
      } else {
        ScanNext(w, hosts, pool);
      }
    }
  }

  /** The first host's set is taken as it is, without a warning. */
  lemma ScanFirst(w: World, hosts: seq<Host>, pool: string)
    requires Reachable(w, hosts) && |hosts| == 1
    ensures Scan(w, hosts, pool) == Step(w, [], Ok(Some(Canon(Gathered(w, hosts, pool)))))
  {
    var hostNodes := FileNodes(w, hosts[0], pool);
    assert Scan(w, hosts[..0], pool) == Step(w, [], Ok(None));
    assert Gathered(w, hosts[..0], pool) == [];
    assert Gathered(w, hosts, pool) == hostNodes;
    CanonOfSorted(hostNodes);
  }

  /** A later host is merged into the union read so far, with a warning when its set differs. */
  lemma ScanNext(w: World, hosts: seq<Host>, pool: string)
    requires Reachable(w, hosts) && |hosts| > 1
    requires Reachable(w, hosts[..|hosts| - 1])
    requires Scan(w, hosts[..|hosts| - 1], pool).result == Ok(Some(Canon(Gathered(w, hosts[..|hosts| - 1], pool))))
    ensures var before := hosts[..|hosts| - 1];
      var h := hosts[|hosts| - 1];
      var nodes := Canon(Gathered(w, before, pool));
      var hostNodes := FileNodes(w, h, pool);
      && Scan(w, hosts, pool).result == Ok(Some(Canon(Gathered(w, hosts, pool))))
      && Scan(w, hosts, pool).trace == Scan(w, before, pool).trace
           + (if hostNodes != nodes then [Warn(h, DivergenceMessageAsWritten(h, pool, hostNodes, nodes))] else [])
  {
    var before := hosts[..|hosts| - 1];
    var h := hosts[|hosts| - 1];
    var hostNodes := FileNodes(w, h, pool);
    var nodes := Canon(Gathered(w, before, pool));
    var prev := Scan(w, before, pool);
    var all := Canon(Gathered(w, hosts, pool));
    assert ReadHost(w, h, pool) == Ok(hostNodes);
    assert Gathered(w, hosts, pool) == Gathered(w, before, pool) + hostNodes;
    ElemsConcat(Gathered(w, before, pool), hostNodes);
    if hostNodes != nodes {
      assert Scan(w, hosts, pool) == Step(w, prev.trace + [Warn(h, DivergenceMessageAsWritten(h, pool, hostNodes, nodes))],
                                          Ok(Some(Union(nodes, hostNodes))));
      SortedUnique(Union(nodes, hostNodes), all);
    } else {
      assert Scan(w, hosts, pool) == Step(w, prev.trace, Ok(Some(nodes)));
      SortedUnique(nodes, all);
    }
  }

  /** A read fails exactly when some host cannot be reached; a mismatch never makes it fail. */
  lemma {:induction false} ScanFails(w: World, hosts: seq<Host>, pool: string)
    ensures Scan(w, hosts, pool).result.Ok? <==> Reachable(w, hosts)
    ensures Scan(w, hosts, pool).result.Err? ==> Scan(w, hosts, pool).result.error.Transport?
    decreases |hosts|
  {
    if |hosts| > 0 {
      var before := hosts[..|hosts| - 1];
      ScanFails(w, before, pool);
      if Reachable(w, before) && hosts[|hosts| - 1] in w.hosts {
        assert Reachable(w, hosts) by {
          forall i | 0 <= i < |hosts| ensures hosts[i] in w.hosts {
            if i < |hosts| - 1 { assert hosts[i] == before[i]; }
          }
        }
      }
      if !Reachable(w, before) {
        var i :| 0 <= i < |before| && before[i] !in w.hosts;
        assert hosts[i] !in w.hosts;
      }
    }
  }

  /** Hosts that all report `s` gather, as a set, exactly `s`. */
  lemma AgreeingGather(w: World, hosts: seq<Host>, pool: string, s: seq<Node>)
    requires Reachable(w, hosts) && |hosts| > 0 && Sorted(s)
    requires forall i :: 0 <= i < |hosts| ==> FileNodes(w, hosts[i], pool) == s
    ensures Canon(Gathered(w, hosts, pool)) == s
  {
    forall x ensures x in Gathered(w, hosts, pool) <==> x in s {
      GatheredHolds(w, hosts, pool, x);
      if x in s { assert FileNodes(w, hosts[0], pool) == s; }
    }
    CanonEqual(Gathered(w, hosts, pool), s);
    CanonOfSorted(s);
  }

  /** Hosts agree exactly when all but the last agree and the last reports the first's set. */
  lemma AgreeExtend(w: World, hosts: seq<Host>, pool: string)
    requires Reachable(w, hosts) && |hosts| > 1
    ensures Reachable(w, hosts[..|hosts| - 1])
    ensures Agree(w, hosts, pool) <==>
      && Agree(w, hosts[..|hosts| - 1], pool)
      && FileNodes(w, hosts[|hosts| - 1], pool) == FileNodes(w, hosts[0], pool)
  {
    var before := hosts[..|hosts| - 1];
    var s := FileNodes(w, hosts[0], pool);
    assert before[0] == hosts[0];
    if Agree(w, before, pool) && FileNodes(w, hosts[|hosts| - 1], pool) == s {
      forall i | 0 <= i < |hosts| ensures FileNodes(w, hosts[i], pool) == s {
        if i < |hosts| - 1 { assert hosts[i] == before[i]; }
      }
    }
    if Agree(w, hosts, pool) {
      forall i | 0 <= i < |before| ensures FileNodes(w, before[i], pool) == s {
        assert before[i] == hosts[i];
      }
    }
  }

  /** No warning is issued exactly when all hosts agree. */
  lemma {:induction false} NoDivergenceIffAgree(w: World, hosts: seq<Host>, pool: string)
    requires Reachable(w, hosts)
    ensures Divergent(w, hosts, pool) == 0 <==> Agree(w, hosts, pool)
    decreases |hosts|
  {
    if |hosts| > 1 {
      var before := hosts[..|hosts| - 1];
      var s := FileNodes(w, hosts[0], pool);
      AgreeExtend(w, hosts, pool);
      NoDivergenceIffAgree(w, before, pool);
      if Agree(w, before, pool) {
        assert before[0] == hosts[0];
        AgreeingGather(w, before, pool, s);
      }
    }
  }

  /** `get_nodes` fails exactly when some host cannot be reached, and then with a transport error. */
  lemma GetNodesFails(c: SshConfig, w: World, pool: string)
    ensures GetNodes(c, w, pool).result.Ok? <==> Reachable(w, c.hosts)
    ensures !Reachable(w, c.hosts) ==> GetNodes(c, w, pool).result.error.Transport?
  {
    ScanFails(w, c.hosts, pool);
  }

  /** `get_nodes` returns the canonical union of every host's set; with no hosts, the empty list. */
  lemma GetNodesIsUnion(c: SshConfig, w: World, pool: string)
    requires Reachable(w, c.hosts)
    ensures GetNodes(c, w, pool).result == Ok(Canon(Gathered(w, c.hosts, pool)))
    ensures forall x :: x in GetNodes(c, w, pool).result.value <==>
      exists i :: 0 <= i < |c.hosts| && x in FileNodes(w, c.hosts[i], pool)
    ensures |c.hosts| == 0 ==> GetNodes(c, w, pool).result == Ok([])
  {
    ScanFails(w, c.hosts, pool);
    ScanIsUnion(w, c.hosts, pool);
    forall x ensures x in Canon(Gathered(w, c.hosts, pool)) <==> x in Gathered(w, c.hosts, pool) {
      assert x in Canon(Gathered(w, c.hosts, pool)) <==> x in Elems(Canon(Gathered(w, c.hosts, pool)));
    }
    forall x ensures x in Gathered(w, c.hosts, pool) <==> exists i :: 0 <= i < |c.hosts| && x in FileNodes(w, c.hosts[i], pool) {
      GatheredHolds(w, c.hosts, pool, x);
    }
  }

  /** `get_nodes` warns once for each host whose set differs from the union of the hosts before it, and only with warnings. */
  lemma GetNodesWarnings(c: SshConfig, w: World, pool: string)
    requires Reachable(w, c.hosts)
    ensures |GetNodes(c, w, pool).trace| == Divergent(w, c.hosts, pool)
    ensures AllWarnings(GetNodes(c, w, pool).trace)
    ensures GetNodes(c, w, pool).trace == [] <==> Agree(w, c.hosts, pool)
  {
    ScanIsUnion(w, c.hosts, pool);
    NoDivergenceIffAgree(w, c.hosts, pool);
  }

  /** When every host reports the same set, `get_nodes` returns it without a warning. */
  lemma GetNodesWhenAgreeing(c: SshConfig, w: World, pool: string)
    requires Reachable(w, c.hosts) && |c.hosts| > 0 && Agree(w, c.hosts, pool)
    ensures GetNodes(c, w, pool) == Step(w, [], Ok(FileNodes(w, c.hosts[0], pool)))
  {
    GetNodesWarnings(c, w, pool);
    ScanIsUnion(w, c.hosts, pool);
    AgreeingGather(w, c.hosts, pool, FileNodes(w, c.hosts[0], pool));
  }

  // ---------------------------------------------------------------------------
  // add_nodes
  // ---------------------------------------------------------------------------

  /** The writes and reloads of `add_nodes`: the same list to every host, each followed by its reload. */
  function Rewrites(hosts: seq<Host>, pool: string, nodes: seq<Node>): seq<Event>
  {
    if |hosts| == 0 then []
    else [Write(hosts[0], pool, nodes), Reload(hosts[0])] + Rewrites(hosts[1..], pool, nodes)
  }

  /** With the first host reachable, all hosts are reachable exactly when the rest are, in any world with the same hosts. */
  lemma ReachableRest(w: World, w1: World, hosts: seq<Host>)
    requires |hosts| > 0 && hosts[0] in w.hosts && w1.hosts.Keys == w.hosts.Keys
    ensures Reachable(w, hosts) <==> Reachable(w1, hosts[1..])
  {
    if Reachable(w1, hosts[1..]) {
      forall i | 0 <= i < |hosts| ensures hosts[i] in w.hosts {
        if i > 0 { assert hosts[i] == hosts[1..][i - 1]; }
      }
    }
    if Reachable(w, hosts) {
      forall i | 0 <= i < |hosts[1..]| ensures hosts[1..][i] in w1.hosts {
        assert hosts[1..][i] == hosts[i + 1];
      }
    }
  }

  /** Writes `nodes` as the pool's list on each host in turn, reloading each after its write. */
  function WriteAll(w: World, hosts: seq<Host>, pool: string, nodes: seq<Node>): (r: Step<()>)
    ensures r.world.planes == w.planes && r.world.hosts.Keys == w.hosts.Keys
    ensures r.result.Ok? <==> Reachable(w, hosts)
    ensures r.result.Ok? ==> r.trace == Rewrites(hosts, pool, nodes)
    ensures r.result.Ok? ==> forall h :: h in hosts ==> r.world.hosts[h] == w.hosts[h][pool := nodes]
    ensures forall h :: h in w.hosts && h !in hosts ==> r.world.hosts[h] == w.hosts[h]
    decreases |hosts|
  {
    if |hosts| == 0 then Step(w, [], Ok(()))
    else
      var h := hosts[0];
      match WriteHost(w, h, pool, nodes)
      case Err(e) =>
        assert !Reachable(w, hosts);
        Step(w, [Write(h, pool, nodes)], Err(e))
      case Ok(w1) =>
        match ReloadHost(w1, h)
        case Err(e) => Step(w1, [Write(h, pool, nodes), Reload(h)], Err(e))
        case Ok(_) =>
          var rest := WriteAll(w1, hosts[1..], pool, nodes);
          ReachableRest(w, w1, hosts);
          Step(rest.world, [Write(h, pool, nodes), Reload(h)] + rest.trace, rest.result)
  }

  /**
   * `add_nodes(pool, nodes)`: reads the pool (warning as `get_nodes` does),
   * then writes `get_nodes(pool) | nodes` to every host, reloading each.
   */
  function AddNodes(c: SshConfig, w: World, pool: string, nodes: seq<Node>): (r: Step<()>)
    ensures r.world.planes == w.planes && r.world.hosts.Keys == w.hosts.Keys
    ensures r.result.Ok? <==> Reachable(w, c.hosts)
    ensures r.result.Ok? ==>
      && GetNodes(c, w, pool).result.Ok?
      && var before := GetNodes(c, w, pool);
         var merged := Union(before.result.value, nodes);
         && Elems(merged) == Elems(before.result.value) + Elems(nodes)
         && r.trace == before.trace + Rewrites(c.hosts, pool, merged)
         && forall h :: h in c.hosts ==> r.world.hosts[h] == w.hosts[h][pool := merged]
    ensures forall h :: h in w.hosts && h !in c.hosts ==> r.world.hosts[h] == w.hosts[h]
  {
    var g := GetNodes(c, w, pool);
    ScanFails(w, c.hosts, pool);
    match g.result
    case Err(e) => Step(w, g.trace, Err(e))
    case Ok(current) =>
      var wr := WriteAll(w, c.hosts, pool, Union(current, nodes));
      Step(wr.world, g.trace + wr.trace, wr.result)
  }

  /** After `add_nodes` every host holds the old union plus the new nodes: nothing a host had is removed. */
  lemma AddNodesKeepsMembers(c: SshConfig, w: World, pool: string, nodes: seq<Node>)
    requires AddNodes(c, w, pool, nodes).result.Ok?
    ensures forall i :: 0 <= i < |c.hosts| ==>
      var h := c.hosts[i];
      && Elems(FileNodes(AddNodes(c, w, pool, nodes).world, h, pool))
         == Elems(GetNodes(c, w, pool).result.value) + Elems(nodes)
      && Elems(FileNodes(w, h, pool)) <= Elems(FileNodes(AddNodes(c, w, pool, nodes).world, h, pool))
      && Elems(nodes) <= Elems(FileNodes(AddNodes(c, w, pool, nodes).world, h, pool))
  {
    var r := AddNodes(c, w, pool, nodes);
    var merged := Union(GetNodes(c, w, pool).result.value, nodes);
    GetNodesIsUnion(c, w, pool);
    forall i | 0 <= i < |c.hosts|
      ensures Elems(FileNodes(r.world, c.hosts[i], pool)) == Elems(merged)
      ensures Elems(FileNodes(w, c.hosts[i], pool)) <= Elems(merged)
    {
      var h := c.hosts[i];
      assert h in c.hosts;
      assert r.world.hosts[h][pool] == merged;
      CanonOfSorted(merged);
      forall x | x in FileNodes(w, h, pool) ensures x in GetNodes(c, w, pool).result.value {
      }
    }
  }

  /** After a successful `add_nodes`, every host's file holds exactly the merged list, so a read agrees with no warning. */
  lemma GetNodesAfterAdd(c: SshConfig, w: World, pool: string, nodes: seq<Node>)
    requires AddNodes(c, w, pool, nodes).result.Ok?
    ensures var merged := Union(GetNodes(c, w, pool).result.value, nodes);
      var once := AddNodes(c, w, pool, nodes).world;
      && (forall h :: h in c.hosts ==> once.hosts[h][pool] == merged)
      && GetNodes(c, once, pool).trace == []
      && GetNodes(c, once, pool).result.Ok?
      && Union(GetNodes(c, once, pool).result.value, nodes) == merged
  {
    var merged := Union(GetNodes(c, w, pool).result.value, nodes);
    var once := AddNodes(c, w, pool, nodes).world;
    assert Reachable(once, c.hosts);
    CanonOfSorted(merged);
    if |c.hosts| > 0 {
      forall i | 0 <= i < |c.hosts| ensures FileNodes(once, c.hosts[i], pool) == merged {
        assert c.hosts[i] in c.hosts;
      }
      GetNodesWhenAgreeing(c, once, pool);
      SortedUnique(Union(merged, nodes), merged);
    } else {
      GetNodesIsUnion(c, w, pool);
      GetNodesIsUnion(c, once, pool);
      GetNodesWarnings(c, once, pool);
    }
  }

  /** Rewriting every listed host's pool with the list it already holds changes nothing. */
  lemma RewriteSame(before: map<Host, map<string, seq<Node>>>, after: map<Host, map<string, seq<Node>>>,
                    hosts: seq<Host>, pool: string, nodes: seq<Node>)
    requires after.Keys == before.Keys
    requires forall h :: h in hosts ==> h in before && pool in before[h] && before[h][pool] == nodes
    requires forall h :: h in hosts ==> after[h] == before[h][pool := nodes]
    requires forall h :: h in before && h !in hosts ==> after[h] == before[h]
    ensures after == before
  {
    forall h | h in before ensures after[h] == before[h] {
      if h in hosts {
        assert before[h][pool := nodes] == before[h];
      }
    }
  }

  /** Repeating `add_nodes` with the same nodes leaves every host as it was, with no warning. */
  lemma AddNodesIdempotent(c: SshConfig, w: World, pool: string, nodes: seq<Node>)
    requires AddNodes(c, w, pool, nodes).result.Ok?
    ensures var once := AddNodes(c, w, pool, nodes).world;
      var twice := AddNodes(c, once, pool, nodes);
      && twice.result.Ok?
      && twice.world == once
      && twice.trace == Rewrites(c.hosts, pool, Union(GetNodes(c, w, pool).result.value, nodes))
  {
    var merged := Union(GetNodes(c, w, pool).result.value, nodes);
    var once := AddNodes(c, w, pool, nodes).world;
    GetNodesAfterAdd(c, w, pool, nodes);
    var twice := AddNodes(c, once, pool, nodes);
    assert Reachable(once, c.hosts);
    RewriteSame(once.hosts, twice.world.hosts, c.hosts, pool, merged);
  }

  // ---------------------------------------------------------------------------
  // delete_nodes
  // ---------------------------------------------------------------------------

  /** A trace made of one write of `pool` and then one reload per host, in host order. */
  predicate PairedRewrites(trace: seq<Event>, hosts: seq<Host>, pool: string)
    decreases |hosts|
  {
    if |hosts| == 0 then trace == []
    else
      && |trace| >= 2
      && trace[0].Write? && trace[0].host == hosts[0] && trace[0].pool == pool
      && trace[1] == Reload(hosts[0])
      && PairedRewrites(trace[2..], hosts[1..], pool)
  }

  /** Per host, in order: read that host's own set, write it back without `nodes`, reload. */
  function DeleteFrom(w: World, hosts: seq<Host>, pool: string, nodes: seq<Node>): (r: Step<()>)
    ensures r.world.planes == w.planes && r.world.hosts.Keys == w.hosts.Keys
    ensures r.result.Ok? <==> Reachable(w, hosts)
    ensures forall h :: h in w.hosts && h !in hosts ==> r.world.hosts[h] == w.hosts[h]
    decreases |hosts|
  {
    if |hosts| == 0 then Step(w, [], Ok(()))
    else
      var h := hosts[0];
      match ReadHost(w, h, pool)
      case Err(e) => Step(w, [], Err(e))
      case Ok(current) =>
        var correct := Difference(current, nodes);
        match WriteHost(w, h, pool, correct)
        case Err(e) => Step(w, [Write(h, pool, correct)], Err(e))
        case Ok(w1) =>
          match ReloadHost(w1, h)
          case Err(e) => Step(w1, [Write(h, pool, correct), Reload(h)], Err(e))
          case Ok(_) =>
            var rest := DeleteFrom(w1, hosts[1..], pool, nodes);
            ReachableRest(w, w1, hosts);
            Step(rest.world, [Write(h, pool, correct), Reload(h)] + rest.trace, rest.result)
  }

  /** Removing the same nodes twice removes them once. */
  lemma DifferenceTwice(a: seq<Node>, nodes: seq<Node>)
    ensures Difference(Difference(a, nodes), nodes) == Difference(a, nodes)
  {
    SortedUnique(Difference(Difference(a, nodes), nodes), Difference(a, nodes));
  }

  /** Each listed host ends up with its own former set minus `nodes`; the trace pairs one write with one reload per host. */
  lemma DeleteFromEffect(w: World, hosts: seq<Host>, pool: string, nodes: seq<Node>)
    requires Reachable(w, hosts)
    ensures PairedRewrites(DeleteFrom(w, hosts, pool, nodes).trace, hosts, pool)
    ensures forall h :: h in hosts ==>
      DeleteFrom(w, hosts, pool, nodes).world.hosts[h] == w.hosts[h][pool := Difference(FileNodes(w, h, pool), nodes)]
  {
    DeleteFromTrace(w, hosts, pool, nodes);
    DeleteFromWorld(w, hosts, pool, nodes);
  }

  /** Writing the first host keeps the remaining hosts reachable. */
  lemma ReachableAfterWrite(w: World, hosts: seq<Host>, pool: string, nodes: seq<Node>)
    requires Reachable(w, hosts) && |hosts| > 0
    ensures WriteHost(w, hosts[0], pool, nodes).Ok?
    ensures Reachable(WriteHost(w, hosts[0], pool, nodes).value, hosts[1..])
  {
    ReachableRest(w, WriteHost(w, hosts[0], pool, nodes).value, hosts);
  }

  /** The trace of a delete over reachable hosts is one write and one reload per host, in order. */
  lemma {:induction false} DeleteFromTrace(w: World, hosts: seq<Host>, pool: string, nodes: seq<Node>)
    requires Reachable(w, hosts)
    ensures PairedRewrites(DeleteFrom(w, hosts, pool, nodes).trace, hosts, pool)
    decreases |hosts|
  {
    if |hosts| > 0 {
      var correct := Difference(FileNodes(w, hosts[0], pool), nodes);
      ReachableAfterWrite(w, hosts, pool, correct);
      var w1 := WriteHost(w, hosts[0], pool, correct).value;
      DeleteFromTrace(w1, hosts[1..], pool, nodes);
      DeleteFromFirst(w, hosts, pool, nodes);
      assert DeleteFrom(w, hosts, pool, nodes).trace[2..] == DeleteFrom(w1, hosts[1..], pool, nodes).trace;
    }
  }

  /** A delete over reachable hosts leaves each host with its own former set minus `nodes`. */
  lemma {:induction false} DeleteFromWorld(w: World, hosts: seq<Host>, pool: string, nodes: seq<Node>)
    requires Reachable(w, hosts)
    ensures forall h :: h in hosts ==>
      DeleteFrom(w, hosts, pool, nodes).world.hosts[h] == w.hosts[h][pool := Difference(FileNodes(w, h, pool), nodes)]
    decreases |hosts|
  {
    if |hosts| > 0 {
      var h := hosts[0];
      var correct := Difference(FileNodes(w, h, pool), nodes);
      ReachableAfterWrite(w, hosts, pool, correct);
      var w1 := WriteHost(w, h, pool, correct).value;
      DeleteFromWorld(w1, hosts[1..], pool, nodes);
      DeleteFromFirst(w, hosts, pool, nodes);
      var r := DeleteFrom(w, hosts, pool, nodes);
      forall g | g in hosts
        ensures r.world.hosts[g] == w.hosts[g][pool := Difference(FileNodes(w, g, pool), nodes)]
      {
        if g == h {
          if g in hosts[1..] {
            CanonOfSorted(correct);
            assert FileNodes(w1, g, pool) == correct;
            DifferenceTwice(FileNodes(w, h, pool), nodes);
          }
        } else {
          assert g in hosts[1..];
        }
      }
    }
  }

  /** With the first host reachable, its write and reload come first, then the rest of the hosts. */
  lemma DeleteFromFirst(w: World, hosts: seq<Host>, pool: string, nodes: seq<Node>)
    requires Reachable(w, hosts) && |hosts| > 0
    ensures var h := hosts[0];
      var correct := Difference(FileNodes(w, h, pool), nodes);
      && WriteHost(w, h, pool, correct).Ok?
      && var rest := DeleteFrom(WriteHost(w, h, pool, correct).value, hosts[1..], pool, nodes);
         DeleteFrom(w, hosts, pool, nodes) == Step(rest.world, [Write(h, pool, correct), Reload(h)] + rest.trace, rest.result)
  {
    var h := hosts[0];
    var correct := Difference(FileNodes(w, h, pool), nodes);
    assert ReadHost(w, h, pool) == Ok(FileNodes(w, h, pool));
    var w1 := WriteHost(w, h, pool, correct).value;
    assert ReloadHost(w1, h).Ok?;
  }

  /** `delete_nodes(pool, nodes)`: every host loses `nodes` from its own set; `delete_pool_if_empty` is not called. */
  function DeleteNodes(c: SshConfig, w: World, pool: string, nodes: seq<Node>): (r: Step<()>)
    ensures r.world.planes == w.planes && r.world.hosts.Keys == w.hosts.Keys
    ensures r.result.Ok? <==> Reachable(w, c.hosts)
    ensures forall h :: h in w.hosts && h !in c.hosts ==> r.world.hosts[h] == w.hosts[h]
  {
    DeleteFrom(w, c.hosts, pool, nodes)
  }

  /**
   * After `delete_nodes` each host holds its own former set minus `nodes`,
   * its other pools untouched; the trace is one write and one reload per
   * host and nothing else.
   */
  lemma DeleteNodesEffect(c: SshConfig, w: World, pool: string, nodes: seq<Node>)
    requires Reachable(w, c.hosts)
    ensures PairedRewrites(DeleteNodes(c, w, pool, nodes).trace, c.hosts, pool)
    ensures forall h :: h in c.hosts ==>
      && DeleteNodes(c, w, pool, nodes).world.hosts[h] == w.hosts[h][pool := Difference(FileNodes(w, h, pool), nodes)]
      && Elems(FileNodes(DeleteNodes(c, w, pool, nodes).world, h, pool)) == Elems(FileNodes(w, h, pool)) - Elems(nodes)
  {
    DeleteFromEffect(w, c.hosts, pool, nodes);
    var r := DeleteNodes(c, w, pool, nodes);
    forall h | h in c.hosts
      ensures Elems(FileNodes(r.world, h, pool)) == Elems(FileNodes(w, h, pool)) - Elems(nodes)
    {
      CanonOfSorted(Difference(FileNodes(w, h, pool), nodes));
    }
  }

  /** A `PairedRewrites` trace holds only writes and reloads: no SOAP call, sleep or warning. */
  lemma {:induction false} PairedRewritesOnly(trace: seq<Event>, hosts: seq<Host>, pool: string)
    requires PairedRewrites(trace, hosts, pool)
    ensures |trace| == 2 * |hosts|
    ensures forall k :: 0 <= k < |trace| ==> trace[k].Write? || trace[k].Reload?
    decreases |hosts|
  {
    if |hosts| > 0 {
      PairedRewritesOnly(trace[2..], hosts[1..], pool);
      forall k | 2 <= k < |trace| ensures trace[k].Write? || trace[k].Reload? {
        assert trace[k] == trace[2..][k - 2];
      }
    }
  }

  /** Deleting nodes no host has leaves every host's set as it was. */
  lemma DeleteAbsentNodes(c: SshConfig, w: World, pool: string, nodes: seq<Node>)
    requires Reachable(w, c.hosts)
    requires forall i :: 0 <= i < |c.hosts| ==> Elems(FileNodes(w, c.hosts[i], pool)) !! Elems(nodes)
    ensures DeleteNodes(c, w, pool, nodes).result.Ok?
    ensures forall i :: 0 <= i < |c.hosts| ==>
      FileNodes(DeleteNodes(c, w, pool, nodes).world, c.hosts[i], pool) == FileNodes(w, c.hosts[i], pool)
  {
    var r := DeleteNodes(c, w, pool, nodes);
    DeleteNodesEffect(c, w, pool, nodes);
    forall i | 0 <= i < |c.hosts| ensures FileNodes(r.world, c.hosts[i], pool) == FileNodes(w, c.hosts[i], pool) {
      var h := c.hosts[i];
      assert h in c.hosts;
      SortedUnique(FileNodes(r.world, h, pool), FileNodes(w, h, pool));
    }
  }

  /** The default `delete_pool` is a no-op: no call, no change. */
  function DeletePool(c: SshConfig, w: World, pool: string): (r: Step<()>)
    ensures r == Step(w, [], Ok(()))
  {
    Step(w, [], Ok(()))
  }
}

=== FILE: stingray.dfy ===
/**
 * `StingrayBalancer`: a balancer driving one Stingray control plane over
 * SOAP.
 *
 * Every call names the pool as `pool_prefix + pool`.  The "Unknown pool"
 * fault is the typed `Fault.UnknownPool`: it makes `add_nodes` create the
 * pool, and `get_nodes`, `delete_nodes` and `delete_pool` treat it as an
 * empty pool or a no-op.  Every other fault propagates.
 */
module StingrayBalancer {
  import opened Wrappers
  import opened NodeSets
  import opened Remote

  /** `POOL_PREFIX` defaults to `''` and `GRACE_PERIOD` to 2 (seconds). */
  datatype StingrayConfig = StingrayConfig(url: Url, prefix: string, grace: int)

  const DefaultPrefix: string := ""
  const DefaultGrace: int := 2

  /** The name the control plane knows the pool by. */
  function PoolName(c: StingrayConfig, pool: string): string
  {
    c.prefix + pool
  }

  /** True when every SOAP call in `trace` goes to `url` and names the pool `name`. */
  predicate CallsName(trace: seq<Event>, url: Url, name: string)
  {
    forall k :: 0 <= k < |trace| && trace[k].Call? ==> trace[k].url == url && trace[k].pool == name
  }

  /** The members the plane lists for `name`, or none when it has no such pool. */
  function Members(s: Server, name: string): seq<Node>
  {
    if name in s.pools then s.pools[name] else []
  }

  /** `_call_node_func(func, pool, nodes)`: one SOAP call on the prefixed pool with the nodes wrapped as a one-row array. */
  function CallNodeFunc(c: StingrayConfig, w: World, op: SoapOp, pool: string, nodes: seq<Node>): (r: Step<()>)
    requires op != getNodes
    ensures r.trace == [Call(c.url, op, PoolName(c, pool), nodes)]
    ensures r.result.Err? ==> r.world == w
    ensures c.url !in w.planes ==> r.result == Err(Transport(c.url))
    ensures c.url in w.planes && op in w.planes[c.url].faults ==> r.result == Err(w.planes[c.url].faults[op])
    ensures r.world.hosts == w.hosts && r.world.planes.Keys == w.planes.Keys
    ensures forall u :: u in w.planes && u != c.url ==> r.world.planes[u] == w.planes[u]
  {
    var (w1, res) := Soap(w, c.url, op, PoolName(c, pool), nodes);
    Step(w1, [Call(c.url, op, PoolName(c, pool), nodes)], if res.Ok? then Ok(()) else Err(res.error))
  }

  // ---------------------------------------------------------------------------
  // get_nodes
  // ---------------------------------------------------------------------------

  /** `get_nodes(pool)`: the first row of `getNodes([prefix + pool])`; "Unknown pool" reads as empty. */
  function GetNodes(c: StingrayConfig, w: World, pool: string): (r: Step<seq<Node>>)
    ensures r.world == w && r.trace == []
    ensures c.url !in w.planes ==> r.result == Err(Transport(c.url))
    ensures c.url in w.planes && getNodes !in w.planes[c.url].faults ==>
      r.result == Ok(Members(w.planes[c.url], PoolName(c, pool)))
    ensures c.url in w.planes && getNodes in w.planes[c.url].faults ==>
      var f := w.planes[c.url].faults[getNodes];
      r.result == if f.UnknownPool? then Ok([]) else Err(f)
  {
    var (_, res) := Soap(w, c.url, getNodes, PoolName(c, pool), []);
    match res
    case Err(UnknownPool(_)) => Step(w, [], Ok([]))
    case Err(e) => Step(w, [], Err(e))
    case Ok(rows) =>
      if |rows| == 0 then Step(w, [], Err(Malformed)) else Step(w, [], Ok(rows[0]))
  }

  // ---------------------------------------------------------------------------
  // add_nodes / add_pool
  // ---------------------------------------------------------------------------

  /** `add_pool(pool, nodes)`: `addPool` with the prefixed name. */
  function AddPool(c: StingrayConfig, w: World, pool: string, nodes: seq<Node>): (r: Step<()>)
    ensures r.trace == [Call(c.url, addPool, PoolName(c, pool), nodes)]
  {
    CallNodeFunc(c, w, addPool, pool, nodes)
  }

  /** `add_nodes(pool, nodes)`: `addNodes`, falling back to `add_pool` on "Unknown pool". */
  function AddNodes(c: StingrayConfig, w: World, pool: string, nodes: seq<Node>): (r: Step<()>)
    ensures |r.trace| >= 1 && r.trace[0] == Call(c.url, addNodes, PoolName(c, pool), nodes)
    ensures var first := CallNodeFunc(c, w, addNodes, pool, nodes);
      if IsUnknownPool(first.result) then
        && r.trace == [Call(c.url, addNodes, PoolName(c, pool), nodes), Call(c.url, addPool, PoolName(c, pool), nodes)]
        && r.result == CallNodeFunc(c, w, addPool, pool, nodes).result
      else
        && r.trace == [Call(c.url, addNodes, PoolName(c, pool), nodes)]
        && r.result == first.result
    ensures CallsName(r.trace, c.url, PoolName(c, pool))
  {
    var first := CallNodeFunc(c, w, addNodes, pool, nodes);
    if IsUnknownPool(first.result) then
      var second := AddPool(c, first.world, pool, nodes);
      Step(second.world, first.trace + second.trace, second.result)
    else first
  }

  /** After a successful `add_nodes` the pool exists and holds its former members plus `nodes`. */
  lemma AddNodesMembers(c: StingrayConfig, w: World, pool: string, nodes: seq<Node>)
    requires AddNodes(c, w, pool, nodes).result.Ok?
    ensures c.url in w.planes
    ensures var after := AddNodes(c, w, pool, nodes).world.planes[c.url];
      && PoolName(c, pool) in after.pools
      && Elems(after.pools[PoolName(c, pool)]) == Elems(Members(w.planes[c.url], PoolName(c, pool))) + Elems(nodes)
  {
    var name := PoolName(c, pool);
    var s := w.planes[c.url];
    if name in s.pools && addNodes !in s.faults {
      ElemsConcat(s.pools[name], Canon(Without(nodes, s.pools[name])));
    }
  }

  /** With a plane that does not fault `addNodes`, a second identical `add_nodes` succeeds and changes nothing. */
  lemma AddNodesIdempotent(c: StingrayConfig, w: World, pool: string, nodes: seq<Node>)
    requires AddNodes(c, w, pool, nodes).result.Ok?
    requires c.url in w.planes && addNodes !in w.planes[c.url].faults
    ensures var once := AddNodes(c, w, pool, nodes).world;
      var twice := AddNodes(c, once, pool, nodes);
      && twice.result.Ok?
      && twice.world == once
      && twice.trace == [Call(c.url, addNodes, PoolName(c, pool), nodes)]
  {
    var name := PoolName(c, pool);
    var once := AddNodes(c, w, pool, nodes).world;
    AddNodesMembers(c, w, pool, nodes);
    var s := once.planes[c.url];
    assert addNodes !in s.faults;
    AddKnownNodes(s, name, nodes);
    assert once.planes[c.url := s] == once.planes;
    assert Soap(once, c.url, addNodes, name, nodes) == (once, Ok([]));
  }

  /** Adding nodes a pool already holds leaves the plane as it is. */
  lemma AddKnownNodes(s: Server, name: string, nodes: seq<Node>)
    requires addNodes !in s.faults && name in s.pools
    requires Elems(nodes) <= Elems(s.pools[name])
    ensures Serve(s, addNodes, name, nodes) == (s, Ok([]))
  {
    EmptyIffNoElems(Without(nodes, s.pools[name]));
    assert s.pools[name] + Canon([]) == s.pools[name];
    assert s.pools[name := s.pools[name]] == s.pools;
  }

  // ---------------------------------------------------------------------------
  // delete_pool / delete_pool_if_empty
  // ---------------------------------------------------------------------------

  /** `delete_pool(pool)`: `deletePool`; "Unknown pool" is a no-op. */
  function DeletePool(c: StingrayConfig, w: World, pool: string): (r: Step<()>)
    ensures r.trace == [Call(c.url, deletePool, PoolName(c, pool), [])]
    ensures r.result.Err? ==> r.world == w && !r.result.error.UnknownPool?
    ensures c.url !in w.planes ==> r.result == Err(Transport(c.url))
    ensures r.world.planes.Keys == w.planes.Keys
    ensures r.result.Ok? && c.url in w.planes && deletePool !in w.planes[c.url].faults ==>
      PoolName(c, pool) !in r.world.planes[c.url].pools
    ensures c.url in w.planes && deletePool in w.planes[c.url].faults ==>
      var f := w.planes[c.url].faults[deletePool];
      r.world == w && r.result == if f.UnknownPool? then Ok(()) else Err(f)
    ensures c.url in w.planes && deletePool !in w.planes[c.url].faults && PoolName(c, pool) !in w.planes[c.url].pools ==>
      r.world == w && r.result == Ok(())
  {
    var d := CallNodeFunc(c, w, deletePool, pool, []);
    if IsUnknownPool(d.result) then Step(d.world, d.trace, Ok(())) else d
  }

  /** `delete_pool_if_empty(pool)`: delete exactly when `get_nodes(pool)` is empty. */
  function DeletePoolIfEmpty(c: StingrayConfig, w: World, pool: string): (r: Step<()>)
    ensures var g := GetNodes(c, w, pool);
      && (g.result.Err? ==> r == Step(w, [], Err(g.result.error)))
      && (g.result == Ok([]) ==> r == DeletePool(c, w, pool))
      && (g.result.Ok? && g.result.value != [] ==> r == Step(w, [], Ok(())))
  {
    var g := GetNodes(c, w, pool);
    match g.result
    case Err(e) => Step(w, [], Err(e))
    case Ok(nodes) => if |nodes| == 0 then DeletePool(c, w, pool) else Step(w, [], Ok(()))
  }

  // ---------------------------------------------------------------------------
  // delete_nodes
  // ---------------------------------------------------------------------------

  /** Disable, wait out the grace period, remove; "Unknown pool" ends the sequence quietly. */
  function Drain(c: StingrayConfig, w: World, pool: string, doomed: seq<Node>): (r: Step<()>)
    ensures |r.trace| >= 1 && r.trace[0] == Call(c.url, disableNodes, PoolName(c, pool), doomed)
    ensures r.result.Err? ==> !r.result.error.UnknownPool?
    ensures CallsName(r.trace, c.url, PoolName(c, pool))
    ensures var d := CallNodeFunc(c, w, disableNodes, pool, doomed);
      d.result.Err? ==>
        && r.world == w
        && r.trace == [Call(c.url, disableNodes, PoolName(c, pool), doomed)]
        && (r.result.Err? <==> !IsUnknownPool(d.result))
        && (r.result.Err? ==> r.result == d.result)
    ensures var d := CallNodeFunc(c, w, disableNodes, pool, doomed);
      d.result.Ok? && c.grace < 0 ==>
        r.world == d.world && r.trace == d.trace && r.result.Err? && r.result.error.ValueError?
    ensures var d := CallNodeFunc(c, w, disableNodes, pool, doomed);
      d.result.Ok? && c.grace >= 0 ==>
        var rm := CallNodeFunc(c, d.world, removeNodes, pool, doomed);
        && r.world == rm.world
        && r.trace == d.trace + [Sleep(c.grace)] + rm.trace
        && (r.result.Err? <==> rm.result.Err? && !IsUnknownPool(rm.result))
        && (r.result.Err? ==> r.result == rm.result)
  {
    var d := CallNodeFunc(c, w, disableNodes, pool, doomed);
    if d.result.Err? then
      if IsUnknownPool(d.result) then Step(d.world, d.trace, Ok(())) else d
    else if c.grace < 0 then
      Step(d.world, d.trace, Err(ValueError("sleep length must be non-negative")))
    else
      var rm := CallNodeFunc(c, d.world, removeNodes, pool, doomed);
      var trace := d.trace + [Sleep(c.grace)] + rm.trace;
      if rm.result.Err? && !IsUnknownPool(rm.result) then Step(rm.world, trace, rm.result)
      else Step(rm.world, trace, Ok(()))
  }

  /**
   * `delete_nodes(pool, nodes)`: narrow `nodes` to current members; with
   * none left, do nothing; otherwise drain them and clean up an emptied pool.
   */
  function DeleteNodes(c: StingrayConfig, w: World, pool: string, nodes: seq<Node>): (r: Step<()>)
    ensures var g := GetNodes(c, w, pool);
      && (g.result.Err? ==> r == Step(w, [], Err(g.result.error)))
      && (g.result.Ok? && Elems(g.result.value) !! Elems(nodes) ==> r == Step(w, [], Ok(())))
    ensures var g := GetNodes(c, w, pool);
      g.result.Ok? && !(Elems(g.result.value) !! Elems(nodes)) ==>
        var drained := Drain(c, w, pool, Intersection(g.result.value, nodes));
        && (drained.result.Err? ==> r == drained)
        && (drained.result.Ok? ==>
              var cleanup := DeletePoolIfEmpty(c, drained.world, pool);
              r == Step(cleanup.world, drained.trace + cleanup.trace, cleanup.result))
    ensures CallsName(r.trace, c.url, PoolName(c, pool))
  {
    var g := GetNodes(c, w, pool);
    match g.result
    case Err(e) => Step(w, [], Err(e))
    case Ok(existing) =>
      var doomed := Intersection(existing, nodes);
      if |doomed| == 0 then
        IntersectionEmptyIff(existing, nodes);
        Step(w, [], Ok(()))
      else
        assert !(Elems(existing) !! Elems(nodes)) by { assert doomed[0] in Elems(doomed); }
        var drained := Drain(c, w, pool, doomed);
        if drained.result.Err? then drained
        else
          var cleanup := DeletePoolIfEmpty(c, drained.world, pool);
          var r := Step(cleanup.world, drained.trace + cleanup.trace, cleanup.result);
          CallsNameConcat(drained.trace, cleanup.trace, c.url, PoolName(c, pool));
          r
  }

  /** Two traces that each call only `url` about `name` do so end to end. */
  lemma CallsNameConcat(a: seq<Event>, b: seq<Event>, url: Url, name: string)
    requires CallsName(a, url, name) && CallsName(b, url, name)
    ensures CallsName(a + b, url, name)
  {
    assert forall k :: |a| <= k < |a + b| ==> (a + b)[k] == b[k - |a|];
  }

  /** Two node lists have an empty intersection exactly when they share no node. */
  lemma IntersectionEmptyIff(a: seq<Node>, b: seq<Node>)
    ensures |Intersection(a, b)| == 0 <==> Elems(a) !! Elems(b)
  {
    EmptyIffNoElems(Intersection(a, b));
    if !(Elems(a) !! Elems(b)) {
      var x :| x in Elems(a) && x in Elems(b);
      assert x in Elems(Intersection(a, b));
    }
  }

  /** Two node lists that share a node have a non-empty intersection. */
  lemma SharedNode(a: seq<Node>, b: seq<Node>)
    requires !(Elems(a) !! Elems(b))
    ensures |Intersection(a, b)| > 0
  {
    var x :| x in Elems(a) && x in Elems(b);
    assert x in Elems(Intersection(a, b));
  }

  /**
   * Deleting nodes of which at least one is a member, with no fault on the
   * calls involved: the pool's share of them is disabled, waited on, then
   * removed.
   */
  lemma DeleteNodesDrainOrder(c: StingrayConfig, w: World, pool: string, nodes: seq<Node>)
    requires c.url in w.planes && c.grace >= 0
    requires var s := w.planes[c.url];
      getNodes !in s.faults && disableNodes !in s.faults && removeNodes !in s.faults
    requires PoolName(c, pool) in w.planes[c.url].pools
    requires !(Elems(w.planes[c.url].pools[PoolName(c, pool)]) !! Elems(nodes))
    ensures var name := PoolName(c, pool);
      var doomed := Intersection(w.planes[c.url].pools[name], nodes);
      var r := DeleteNodes(c, w, pool, nodes);
      && |doomed| > 0
      && |r.trace| >= 3
      && r.trace[..3] == [Call(c.url, disableNodes, name, doomed), Sleep(c.grace), Call(c.url, removeNodes, name, doomed)]
  {
    var name := PoolName(c, pool);
    var doomed := Intersection(w.planes[c.url].pools[name], nodes);
    SharedNode(w.planes[c.url].pools[name], nodes);
    assert GetNodes(c, w, pool).result == Ok(w.planes[c.url].pools[name]);
    var drained := Drain(c, w, pool, doomed);
    var expected := [Call(c.url, disableNodes, name, doomed), Sleep(c.grace), Call(c.url, removeNodes, name, doomed)];
    assert drained.trace == expected;
    assert drained.result.Ok?;
    var cleanup := DeletePoolIfEmpty(c, drained.world, pool);
    assert DeleteNodes(c, w, pool, nodes) == Step(cleanup.world, drained.trace + cleanup.trace, cleanup.result);
  }

  /**
   * On a plane that faults nothing, deleting at least one current member
   * succeeds and leaves the pool without `nodes`, deleting it once empty.
   * (With no current member named, `delete_nodes` returns before the
   * cleanup, so an already empty pool survives it.)
   */
  lemma DeleteNodesEffect(c: StingrayConfig, w: World, pool: string, nodes: seq<Node>)
    requires c.url in w.planes && c.grace >= 0 && w.planes[c.url].faults == map[]
    requires PoolName(c, pool) in w.planes[c.url].pools
    requires !(Elems(w.planes[c.url].pools[PoolName(c, pool)]) !! Elems(nodes))
    ensures var name := PoolName(c, pool);
      var r := DeleteNodes(c, w, pool, nodes);
      var left := Elems(w.planes[c.url].pools[name]) - Elems(nodes);
      && r.result.Ok?
      && (left == {} <==> name !in r.world.planes[c.url].pools)
      && (left != {} ==> Elems(r.world.planes[c.url].pools[name]) == left)
  {
    var name := PoolName(c, pool);
    var members := w.planes[c.url].pools[name];
    var doomed := Intersection(members, nodes);
    SharedNode(members, nodes);
    var drained := Drain(c, w, pool, doomed);
    var after := drained.world.planes[c.url];
    assert after.pools[name] == Without(members, doomed);
    assert Elems(after.pools[name]) == Elems(members) - Elems(nodes);
    EmptyIffNoElems(after.pools[name]);
  }

  /**
   * A fault other than "Unknown pool" on `disableNodes` is raised by
   * `delete_nodes` itself: nothing is slept, removed or cleaned up.
   */
  lemma DeleteNodesDisableFault(c: StingrayConfig, w: World, pool: string, nodes: seq<Node>)
    requires c.url in w.planes
    requires var s := w.planes[c.url];
      getNodes !in s.faults && disableNodes in s.faults && !s.faults[disableNodes].UnknownPool?
    requires PoolName(c, pool) in w.planes[c.url].pools
    requires !(Elems(w.planes[c.url].pools[PoolName(c, pool)]) !! Elems(nodes))
    ensures var name := PoolName(c, pool);
      var doomed := Intersection(w.planes[c.url].pools[name], nodes);
      DeleteNodes(c, w, pool, nodes)
        == Step(w, [Call(c.url, disableNodes, name, doomed)], Err(w.planes[c.url].faults[disableNodes]))
  {
    var name := PoolName(c, pool);
    var doomed := Intersection(w.planes[c.url].pools[name], nodes);
    SharedNode(w.planes[c.url].pools[name], nodes);
    assert GetNodes(c, w, pool).result == Ok(w.planes[c.url].pools[name]);
    assert Drain(c, w, pool, doomed).result.Err?;
  }

  /**
   * A fault other than "Unknown pool" on `removeNodes`, after the disable
   * and the sleep, is raised by `delete_nodes`: no cleanup follows.
   */
  lemma DeleteNodesRemoveFault(c: StingrayConfig, w: World, pool: string, nodes: seq<Node>)
    requires c.url in w.planes && c.grace >= 0
    requires var s := w.planes[c.url];
      && getNodes !in s.faults && disableNodes !in s.faults
      && removeNodes in s.faults && !s.faults[removeNodes].UnknownPool?
    requires PoolName(c, pool) in w.planes[c.url].pools
    requires !(Elems(w.planes[c.url].pools[PoolName(c, pool)]) !! Elems(nodes))
    ensures var name := PoolName(c, pool);
      var doomed := Intersection(w.planes[c.url].pools[name], nodes);
      var r := DeleteNodes(c, w, pool, nodes);
      && r.result == Err(w.planes[c.url].faults[removeNodes])
      && r.trace == [Call(c.url, disableNodes, name, doomed), Sleep(c.grace), Call(c.url, removeNodes, name, doomed)]
  {
    var name := PoolName(c, pool);
    var doomed := Intersection(w.planes[c.url].pools[name], nodes);
    SharedNode(w.planes[c.url].pools[name], nodes);
    assert GetNodes(c, w, pool).result == Ok(w.planes[c.url].pools[name]);
    var d := CallNodeFunc(c, w, disableNodes, pool, doomed);
    assert d.result.Ok?;
    assert d.world.planes[c.url].faults == w.planes[c.url].faults;
    assert Drain(c, w, pool, doomed).result.Err?;
  }

  /**
   * An "Unknown pool" fault on `disableNodes` is swallowed, and
   * `delete_nodes` goes on to `delete_pool_if_empty`, whose calls end the
   * trace and whose outcome is the result.
   */
  lemma DeleteNodesUnknownPoolCleans(c: StingrayConfig, w: World, pool: string, nodes: seq<Node>)
    requires c.url in w.planes
    requires var s := w.planes[c.url];
      getNodes !in s.faults && disableNodes in s.faults && s.faults[disableNodes].UnknownPool?
    requires PoolName(c, pool) in w.planes[c.url].pools
    requires !(Elems(w.planes[c.url].pools[PoolName(c, pool)]) !! Elems(nodes))
    ensures var name := PoolName(c, pool);
      var doomed := Intersection(w.planes[c.url].pools[name], nodes);
      var cleanup := DeletePoolIfEmpty(c, w, pool);
      DeleteNodes(c, w, pool, nodes)
        == Step(cleanup.world, [Call(c.url, disableNodes, name, doomed)] + cleanup.trace, cleanup.result)
  {
    var name := PoolName(c, pool);
    var doomed := Intersection(w.planes[c.url].pools[name], nodes);
    SharedNode(w.planes[c.url].pools[name], nodes);
    assert GetNodes(c, w, pool).result == Ok(w.planes[c.url].pools[name]);
    var drained := Drain(c, w, pool, doomed);
    assert drained == Step(w, [Call(c.url, disableNodes, name, doomed)], Ok(()));
  }
}

=== FILE: strings.dfy ===
/**
 * The handful of Python `str` operations the model relies on, over
 * `string` (a sequence of code points): `split` on one separator, `join`,
 * `partition`/`rpartition`, `replace`, `strip`/`rstrip`, `lower`,
 * `endswith`, `int(...)` and `str(int)`, and the code-point ordering
 * Python uses to compare strings.
 */
module Strings {
  import opened Wrappers

  // ---------------------------------------------------------------------------
  // Searching and splitting on a single separator character
  // ---------------------------------------------------------------------------

  /** Position of the first `c` in `s`. */
  function IndexOf(s: string, c: char): (i: nat)
    requires c in s
    ensures i < |s| && s[i] == c
    ensures c !in s[..i]
  {
    if s[0] == c then 0 else 1 + IndexOf(s[1..], c)
  }

  /** Position of the last `c` in `s`. */
  function LastIndexOf(s: string, c: char): (i: nat)
    requires c in s
    ensures i < |s| && s[i] == c
    ensures c !in s[i + 1..]
  {
    if s[|s| - 1] == c then |s| - 1
    else
      assert c in s[..|s| - 1] by {
        var k :| 0 <= k < |s| && s[k] == c;
        assert s[..|s| - 1][k] == c;
      }
      LastIndexOf(s[..|s| - 1], c)
  }

  /** Python's `s.split(c)` for a one-character separator. */
  function Split(s: string, c: char): (parts: seq<string>)
    ensures |parts| >= 1
    ensures forall k :: 0 <= k < |parts| ==> c !in parts[k]
    decreases |s|
  {
    if c !in s then [s]
    else
      var i := IndexOf(s, c);
      [s[..i]] + Split(s[i + 1..], c)
  }

  /** Python's `c.join(parts)`. */
  function Join(parts: seq<string>, c: char): string
  {
    if |parts| == 0 then ""
    else if |parts| == 1 then parts[0]
    else parts[0] + [c] + Join(parts[1..], c)
  }

  /** Joining the pieces of a split gives back the original string. */
  lemma {:induction false} JoinSplit(s: string, c: char)
    ensures Join(Split(s, c), c) == s
    decreases |s|
  {
    if c in s {
      var i := IndexOf(s, c);
      var rest := Split(s[i + 1..], c);
      assert Split(s, c) == [s[..i]] + rest;
      JoinCons(s[..i], rest, c);
      JoinSplit(s[i + 1..], c);
      assert s == s[..i] + [c] + s[i + 1..];
    }
  }

  /** A join of more than one piece starts with the first piece and a separator. */
  lemma JoinCons(p: string, rest: seq<string>, c: char)
    requires |rest| >= 1
    ensures Join([p] + rest, c) == p + [c] + Join(rest, c)
  {
    assert ([p] + rest)[1..] == rest;
  }

  /** The first separator in `p + [c] + t` sits right after a separator-free `p`. */
  lemma {:induction false} IndexOfAfterPrefix(p: string, c: char, t: string)
    requires c !in p
    ensures c in p + [c] + t
    ensures IndexOf(p + [c] + t, c) == |p|
  {
    var s := p + [c] + t;
    assert s[|p|] == c;
    if |p| > 0 {
      assert s[1..] == p[1..] + [c] + t;
      IndexOfAfterPrefix(p[1..], c, t);
    }
  }

  /** Splitting after a separator-free prefix yields the prefix, then the pieces of the rest. */
  lemma SplitAt(p: string, c: char, t: string)
    requires c !in p
    ensures Split(p + [c] + t, c) == [p] + Split(t, c)
  {
    var s := p + [c] + t;
    IndexOfAfterPrefix(p, c, t);
    assert s[..|p|] == p;
    assert s[|p| + 1..] == t;
  }

  /** Splitting a join of separator-free pieces gives back the pieces. */
  lemma {:induction false} SplitJoin(parts: seq<string>, c: char)
    requires |parts| >= 1
    requires forall k :: 0 <= k < |parts| ==> c !in parts[k]
    ensures Split(Join(parts, c), c) == parts
    decreases |parts|
  {
    if |parts| > 1 {
      var t := Join(parts[1..], c);
      assert [parts[0]] + parts[1..] == parts;
      JoinCons(parts[0], parts[1..], c);
      SplitAt(parts[0], c, t);
      SplitJoin(parts[1..], c);
    } else {
      assert Join(parts, c) == parts[0];
    }
  }

  /** Python's `s.partition(c)`: the text before the first `c`, whether `c` occurs, and the text after it. */
  function Partition(s: string, c: char): (r: (string, bool, string))
    ensures r.1 <==> c in s
    ensures r.1 ==> s == r.0 + [c] + r.2 && c !in r.0
    ensures !r.1 ==> r.0 == s && r.2 == ""
  {
    if c in s then
      var i := IndexOf(s, c);
      assert s == s[..i] + [c] + s[i + 1..];
      (s[..i], true, s[i + 1..])
    else (s, false, "")
  }

  /** Python's `s.rpartition(c)`: split at the last `c`; with no `c` everything lands in the third part. */
  function RPartition(s: string, c: char): (r: (string, bool, string))
    ensures r.1 <==> c in s
    ensures r.1 ==> s == r.0 + [c] + r.2 && c !in r.2
    ensures !r.1 ==> r.0 == "" && r.2 == s
  {
    if c in s then
      var i := LastIndexOf(s, c);
      assert s == s[..i] + [c] + s[i + 1..];
      (s[..i], true, s[i + 1..])
    else ("", false, s)
  }

  /** `IndexOf` finds the first occurrence and no other. */
  lemma IndexOfFirst(s: string, c: char, i: nat)
    requires i < |s| && s[i] == c && c !in s[..i]
    ensures IndexOf(s, c) == i
  {
    var j := IndexOf(s, c);
    forall k | 0 <= k < i ensures s[k] != c {
      assert s[..i][k] == s[k];
    }
    forall k | 0 <= k < j ensures s[k] != c {
      assert s[..j][k] == s[k];
    }
  }

  /** Partitioning at a separator that `p` lacks splits right after `p`. */
  lemma PartitionAt(p: string, c: char, t: string)
    requires c !in p
    ensures Partition(p + [c] + t, c) == (p, true, t)
  {
    var s := p + [c] + t;
    IndexOfAfterPrefix(p, c, t);
    assert s[..|p|] == p && s[|p| + 1..] == t;
  }

  /** Partitioning from the right at a separator that `t` lacks splits right before `t`. */
  lemma RPartitionAt(h: string, c: char, t: string)
    requires c !in t
    ensures RPartition(h + [c] + t, c) == (h, true, t)
  {
    var s := h + [c] + t;
    assert s[|h|] == c;
    var i := LastIndexOf(s, c);
    forall j | |h| < j < |s| ensures s[j] != c {
      assert s[j] == t[j - |h| - 1];
    }
    assert s[..|h|] == h && s[|h| + 1..] == t;
  }

  // ---------------------------------------------------------------------------
  // Prefixes, suffixes, replacement, case
  // ---------------------------------------------------------------------------

  predicate EndsWith(s: string, suffix: string)
  {
    |suffix| <= |s| && s[|s| - |suffix|..] == suffix
  }

  predicate StartsWith(s: string, prefix: string)
  {
    |prefix| <= |s| && s[..|prefix|] == prefix
  }

  /** Number of occurrences of `c` in `s`. */
  function Count(s: string, c: char): nat
  {
    if |s| == 0 then 0 else (if s[0] == c then 1 else 0) + Count(s[1..], c)
  }

  lemma {:induction false} CountConcat(a: string, b: string, c: char)
    ensures Count(a + b, c) == Count(a, c) + Count(b, c)
    decreases |a|
  {
    if |a| == 0 {
      assert a + b == b;
    } else {
      assert (a + b)[0] == a[0];
      assert (a + b)[1..] == a[1..] + b;
      CountConcat(a[1..], b, c);
    }
  }

  /** `s.split(c)` has one more piece than `s` has separators. */
  lemma {:induction false} SplitCount(s: string, c: char)
    ensures |Split(s, c)| == Count(s, c) + 1
    decreases |s|
  {
    if c !in s {
      CountAbsent(s, c);
    } else {
      var i := IndexOf(s, c);
      assert s == s[..i] + [c] + s[i + 1..];
      CountConcat(s[..i] + [c], s[i + 1..], c);
      CountConcat(s[..i], [c], c);
      CountAbsent(s[..i], c);
      SplitCount(s[i + 1..], c);
    }
  }

  lemma {:induction false} CountAbsent(s: string, c: char)
    requires c !in s
    ensures Count(s, c) == 0
    decreases |s|
  {
    if |s| > 0 {
      assert c !in s[1..];
      CountAbsent(s[1..], c);
    }
  }

  /** A character occurring in `s` is counted. */
  lemma {:induction false} CountPresent(s: string, c: char)
    requires c in s
    ensures Count(s, c) > 0
    decreases |s|
  {
    if s[0] != c {
      assert c in s[1..];
      CountPresent(s[1..], c);
    }
  }

  /** Python's `s.replace(c, rep)` for a one-character pattern. */
  function Replace(s: string, c: char, rep: string): (r: string)
    requires c !in rep
    ensures c !in r
    ensures |r| == |s| + Count(s, c) * (|rep| - 1)
  {
    if |s| == 0 then ""
    else (if s[0] == c then rep else [s[0]]) + Replace(s[1..], c, rep)
  }

  /** Replacing a character that does not occur changes nothing. */
  lemma {:induction false} ReplaceAbsent(s: string, c: char, rep: string)
    requires c !in rep && c !in s
    ensures Replace(s, c, rep) == s
  {
    if |s| > 0 {
      assert c !in s[1..];
      ReplaceAbsent(s[1..], c, rep);
    }
  }

  /** Replacement works piece by piece. */
  lemma {:induction false} ReplaceConcat(a: string, b: string, c: char, rep: string)
    requires c !in rep
    ensures Replace(a + b, c, rep) == Replace(a, c, rep) + Replace(b, c, rep)
    decreases |a|
  {
    if |a| == 0 {
      assert a + b == b;
    } else {
      assert (a + b)[0] == a[0];
      assert (a + b)[1..] == a[1..] + b;
      ReplaceConcat(a[1..], b, c, rep);
    }
  }

  /** Python's `str.lower()` restricted to ASCII letters. */
  function Lower(s: string): (r: string)
    ensures |r| == |s|
    ensures forall i :: 0 <= i < |s| ==> r[i] == (if 'A' <= s[i] <= 'Z' then (s[i] as int + 32) as char else s[i])
  {
    if |s| == 0 then "" else
      (if 'A' <= s[0] <= 'Z' then [(s[0] as int + 32) as char] else [s[0]]) + Lower(s[1..])
  }

  // ---------------------------------------------------------------------------
  // Stripping
  // ---------------------------------------------------------------------------

  /** The characters `str.isspace()` accepts, which `str.strip()` and `int()` remove. */
  predicate IsSpace(c: char)
  {
    || c == ' ' || c == '\t' || c == '\n' || c == '\r'
    || c == 11 as char || c == 12 as char
    || (28 <= c as int <= 31) || c as int == 0x85 || c as int == 0xA0
    || c as int == 0x1680 || (0x2000 <= c as int <= 0x200A)
    || c as int == 0x2028 || c as int == 0x2029 || c as int == 0x202F
    || c as int == 0x205F || c as int == 0x3000
  }

  /** Drops the longest suffix of `s` made only of characters `drop` accepts. */
  function TrimRight(s: string, drop: char -> bool): (r: string)
    ensures |r| <= |s| && r == s[..|r|]
    ensures forall i :: |r| <= i < |s| ==> drop(s[i])
    ensures |r| > 0 ==> !drop(r[|r| - 1])
  {
    if |s| > 0 && drop(s[|s| - 1]) then TrimRight(s[..|s| - 1], drop) else s
  }

  /** Drops the longest prefix of `s` made only of characters `drop` accepts. */
  function TrimLeft(s: string, drop: char -> bool): (r: string)
    ensures |r| <= |s| && r == s[|s| - |r|..]
    ensures forall i :: 0 <= i < |s| - |r| ==> drop(s[i])
    ensures |r| > 0 ==> !drop(r[0])
  {
    if |s| > 0 && drop(s[0]) then
      var r := TrimLeft(s[1..], drop);
      assert s[1..][|s| - 1 - |r|..] == s[|s| - |r|..];
      assert forall i :: 1 <= i < |s| - |r| ==> s[i] == s[1..][i - 1];
      r
    else s
  }

  /** Python's `s.strip()`. */
  function Strip(s: string): string
  {
    TrimRight(TrimLeft(s, IsSpace), IsSpace)
  }

  /** Python's `s.rstrip(chars)`. */
  function RStripChars(s: string, chars: set<char>): string
  {
    TrimRight(s, c => c in chars)
  }

  /** A string whose ends are not whitespace is its own strip. */
  lemma StripUnpadded(s: string)
    requires |s| > 0 ==> !IsSpace(s[0]) && !IsSpace(s[|s| - 1])
    ensures Strip(s) == s
  {
    assert TrimLeft(s, IsSpace) == s;
  }

  // ---------------------------------------------------------------------------
  // Integers and their decimal text
  // ---------------------------------------------------------------------------

  predicate IsDigit(c: char)
  {
    '0' <= c <= '9'
  }

  predicate AllDigits(s: string)
  {
    forall i :: 0 <= i < |s| ==> IsDigit(s[i])
  }

  function DigitChar(d: nat): (c: char)
    requires d < 10
    ensures IsDigit(c)
  {
    ('0' as int + d) as char
  }

  /** Value of a run of decimal digits, most significant first. */
  function DigitsValue(s: string): nat
    requires AllDigits(s)
  {
    if |s| == 0 then 0
    else DigitsValue(s[..|s| - 1]) * 10 + (s[|s| - 1] as int - '0' as int)
  }

  /** Python's `str(n)` for a natural number: no sign, no leading zeros. */
  function NatToString(n: nat): (s: string)
    ensures |s| >= 1 && AllDigits(s)
    ensures |s| > 1 ==> s[0] != '0'
  {
    if n < 10 then [DigitChar(n)]
    else NatToString(n / 10) + [DigitChar(n % 10)]
  }

  /** Python's `str(n)` for any integer. */
  function IntToString(n: int): (s: string)
    ensures |s| >= 1
    ensures n >= 0 ==> AllDigits(s)
    ensures n < 0 ==> s[0] == '-' && AllDigits(s[1..])
  {
    if n < 0 then "-" + NatToString(-n) else NatToString(n)
  }

  /** Python's `int(s)` on ASCII text: optional surrounding whitespace, an optional sign, then one or more digits. */
  function ParseInt(s: string): (r: Option<int>)
    ensures r.Some? ==> |Strip(s)| > 0
  {
    var t := Strip(s);
    if |t| > 0 && (t[0] == '-' || t[0] == '+') then
      var body := t[1..];
      if |body| > 0 && AllDigits(body) then
        Some(if t[0] == '-' then 0 - DigitsValue(body) else DigitsValue(body))
      else None
    else if |t| > 0 && AllDigits(t) then Some(DigitsValue(t))
    else None
  }

  lemma {:induction false} DigitsValueOfNatToString(n: nat)
    ensures DigitsValue(NatToString(n)) == n
  {
    if n >= 10 {
      var s := NatToString(n);
      assert s[..|s| - 1] == NatToString(n / 10);
      DigitsValueOfNatToString(n / 10);
    }
  }

  /** `int(str(n)) == n`: the decimal text of an integer parses back to it. */
  lemma ParseIntOfIntToString(n: int)
    ensures ParseInt(IntToString(n)) == Some(n)
  {
    if n < 0 {
      var t := NatToString(-n);
      DigitsValueOfNatToString(-n);
      assert DigitsValue(t) == -n;
      ParseIntNegative(t);
      assert ParseInt("-" + t) == Some(n);
      assert IntToString(n) == "-" + t;
    } else {
      var t := NatToString(n);
      DigitsValueOfNatToString(n);
      ParseIntDigits(t);
      assert ParseInt(t) == Some(n);
      assert IntToString(n) == t;
    }
  }

  /** A run of digits parses to its value. */
  lemma ParseIntDigits(t: string)
    requires |t| > 0 && AllDigits(t)
    ensures ParseInt(t) == Some(DigitsValue(t))
  {
    assert IsDigit(t[0]) && IsDigit(t[|t| - 1]);
    StripUnpadded(t);
  }

  /** A minus sign and a run of digits parse to the negated value. */
  lemma ParseIntNegative(t: string)
    requires |t| > 0 && AllDigits(t)
    ensures ParseInt("-" + t) == Some(0 - DigitsValue(t))
  {
    var s := "-" + t;
    assert s[0] == '-' && !IsSpace(s[0]);
    assert s[|s| - 1] == t[|t| - 1] && IsDigit(t[|t| - 1]);
    StripUnpadded(s);
    assert s[1..] == t;
    assert Strip(s)[1..] == t;
  }

  /** `int('+' + digits)` reads the digits. */
  lemma ParseIntPlus(t: string)
    requires |t| > 0 && AllDigits(t)
    ensures ParseInt("+" + t) == Some(DigitsValue(t))
  {
    var s := "+" + t;
    assert s[0] == '+' && !IsSpace(s[0]);
    assert s[|s| - 1] == t[|t| - 1] && IsDigit(t[|t| - 1]);
    StripUnpadded(s);
    assert s[1..] == t;
    assert Strip(s)[1..] == t;
  }

  // ---------------------------------------------------------------------------
  // Python's string ordering (lexicographic on code points)
  // ---------------------------------------------------------------------------

  /** `a < b` for Python strings. */
  predicate Lt(a: string, b: string)
  {
    if |a| == 0 then |b| > 0
    else |b| > 0 && (a[0] < b[0] || (a[0] == b[0] && Lt(a[1..], b[1..])))
  }

  lemma {:induction false} LtIrreflexive(a: string)
    ensures !Lt(a, a)
  {
    if |a| > 0 {
      LtIrreflexive(a[1..]);
    }
  }

  lemma {:induction false} LtTransitive(a: string, b: string, c: string)
    requires Lt(a, b) && Lt(b, c)
    ensures Lt(a, c)
  {
    if |a| > 0 && a[0] == b[0] && b[0] == c[0] {
      LtTransitive(a[1..], b[1..], c[1..]);
    }
  }

  lemma {:induction false} LtTotal(a: string, b: string)
    requires a != b
    ensures Lt(a, b) || Lt(b, a)
  {
    if |a| > 0 && |b| > 0 && a[0] == b[0] {
      assert a == [a[0]] + a[1..] && b == [b[0]] + b[1..];
      LtTotal(a[1..], b[1..]);
    }
  }

  lemma LtAsymmetric(a: string, b: string)
    requires Lt(a, b)
    ensures !Lt(b, a)
  {
    if Lt(b, a) {
      LtTransitive(a, b, a);
      LtIrreflexive(a);
    }
  }
}

=== FILE: wrappers.dfy ===
/** Failure-carrying datatypes shared by every module of the model. */
module Wrappers {

  /** A value that may be absent (Python's `None`). */
  datatype Option<+T> = None | Some(value: T)
  {
    function GetOr(default: T): T
    {
      match this
      case Some(v) => v
      case None => default
    }
  }

  /** The outcome of a call that either returns a value or raises an exception. */
  datatype Result<+R, +E> = Ok(value: R) | Err(error: E)
  {
    predicate IsFailure()
    {
      Err?
    }

    function PropagateFailure<U>(): Result<U, E>
      requires Err?
    {
      Err(error)
    }

    function Extract(): R
      requires Ok?
    {
      value
    }
  }

  /** A success carrying no value is the one success there is. */
  lemma UnitOk<E>(r: Result<(), E>)
    requires r.Ok?
    ensures r == Ok(())
  {
    match r.value { case () => }
  }
}
